=== FILE: README.md ===
# interactive-grid: a Dafny model of the statistics and error-heatmap core

interactive-grid is a browser tool for a unit square that is cut into a grid of
strata by horizontal and vertical dividers. It draws samples over the square,
either at random or stratified by cell. Each sample gets a value from a normal
model, global or per cell, and the page reports how well three estimators
recover the frozen ground-truth mean: the plain mean, the mean of cell means and
the post-stratification mean. The "error heatmap" scores every one-divider 2x2
partition of the square. Candidate (i, j) puts the horizontal divider at
(i + 1)/R and the vertical one at (j + 1)/R. Its score is the squared error of
the post-stratification mean, or null when some cell holds fewer than two
samples. The R rows of this surface are spread over a pool of Web Workers, and
the page falls back to a single-threaded pass at R = 500 when the last worker to
settle has failed.

The model has eight modules.

- `Wrappers` holds `Option`.
- `Rng` models `SeededRNG`, the Park–Miller generator.
  - Its state is an exact integer.
  - JavaScript's truncating `%` is written out as `JsRem`.
- `Grid` models `GridState`.
  - Dividers are kept as percentages.
  - The interval scan behind `getCellForPoint` is written once; the sampler, the statistics and the worker all share it.
  - Sums over the cells of a grid are defined here.
- `Data` holds the sample record, the frozen distribution parameters, sums, and the `||` and `??` defaults.
- `Stats` models `src/stats/Stats.js`.
- `Sampler` models `Sampler.generate` and its helpers.
  - The random source is either a seeded generator or the host's `Math.random`, which is a parameter.
  - The Box–Muller transform and `Math.sqrt` are uninterpreted parameters, in the `Numerics` datatype.
  - Every draw loop returns `Diverges` when it never ends.
- `Surface` models the heatmap worker.
  - `calculatePostStratificationError` is modelled both as a function and as the worker's own loops, and the two are proved equal.
  - The worker's row loop and its min/max tracking are modelled as well.
- `Heatmap` models `HeatmapService`.
  - The worker count and row partition.
  - The `onmessage`/`onerror` counter, modelled as settling a sequence of worker events in any order.
  - The single-threaded fallback and the launch guard.

Numbers are exact reals and integers. Three behaviours of the code are worth
knowing before reading the contracts:

- Both worker handlers compare one shared counter with `numWorkers`
  (src/heatmap/HeatmapService.js:71-72 and 86-87). So the fallback runs only
  when the last worker to settle failed, although its log message says that all
  workers failed. `Heatmap.SettleOutcome` states the rule.
- The sampler reads cell means with `||`, so a stored 0 becomes 5. The ground
  truth reads them with `??` and keeps 0 (`Sampler.ZeroMeanReadTwoWays`).
- Neither a positive sample count nor positive deviations are checked. The
  model takes any count, and a negative count draws nothing.

## Model

| member | source | states |
|---|---|---|
| Rng.JsRem | src/sampling/SeededRNG.js:8 | JavaScript's `%`. The remainder has the sign of the dividend and lies strictly between -b and b. It matches the mathematical remainder for non-negative operands, is 0 exactly when b divides a, and always differs from a by a multiple of b, which with the sign and bound fixes its value |
| Rng.Next | src/sampling/SeededRNG.js:7-10 | `next()` keeps the seed. The new state is congruent to the old state times 16807 modulo 2^31-1, and with the range clauses this is the truncated remainder of that product. The returned number times 2^31-1 is the new state. From a non-negative state the output is in [0, 1); from a non-positive state it is in (-1, 0]. The output is 0 exactly when the old state is a multiple of 2^31-1 |
| Rng.Reset | src/sampling/SeededRNG.js:12-14 | `reset()` gives back the generator as constructed from the same seed |
| Rng.MultiplierInvertible | src/sampling/SeededRNG.js:8 | 16807 has an inverse modulo 2^31-1 (1407677000) |
| Rng.ProductMultipleIff | src/sampling/SeededRNG.js:8 | c * 16807 is a multiple of 2^31-1 exactly when c is |
| Rng.StepZeroIff | src/sampling/SeededRNG.js:8 | One step reaches state 0 exactly when the old state is a multiple of 2^31-1 |
| Rng.AdvanceKeepsSeed | src/sampling/SeededRNG.js:3 | No number of `next()` calls changes the stored seed |
| Rng.ResetReplays | src/sampling/SeededRNG.js:12-14 | After any number of draws, `reset()` replays exactly the stream of a freshly seeded generator |
| Rng.SameStateSameStream | src/sampling/SeededRNG.js:7-10 | Generators in the same state produce the same numbers: the stream depends on the state alone |
| Rng.SameSeedSameStream | src/sampling/SeededRNG.js:2-5 | Two generators constructed from the same seed produce identical streams |
| Rng.ZeroStateIsFixed | src/sampling/SeededRNG.js:8-9 | From a state that is a multiple of 2^31-1, every output is 0 and the state stays such a multiple |
| Rng.SeedZeroIsFixed | src/sampling/SeededRNG.js:2-9 | Seed 0 yields only zeros |
| Rng.NonZeroStateStaysNonZero | src/sampling/SeededRNG.js:8-9 | From any other state no output is ever 0, and the state never becomes a multiple |
| Rng.NonNegativeSeedRange | src/sampling/SeededRNG.js:8-9 | A non-negative state gives outputs in [0, 1), and the state stays in [0, 2^31-1) |
| Rng.NonPositiveSeedRange | src/sampling/SeededRNG.js:8-9 | A non-positive state gives outputs in (-1, 0]: negative seeds produce negative "uniforms" |
| Rng.OutputsSplit | src/sampling/SeededRNG.js:7-10 | a + b draws are the first a draws followed by b draws from where those stopped |
| Rng.AdvanceAdd | src/sampling/SeededRNG.js:7-10 | Advancing a steps, then b steps, is advancing a + b steps |
| Grid.EvenPositionFacts | src/grid/GridState.js:17-18 | The divider `(i / n) * 100` times n is exactly 100i, and for 0 < i < n it lies strictly inside (0, 100) |
| Grid.EvenPositionIncreasing | src/grid/GridState.js:17-18 | Evenly spaced dividers increase with their index |
| Grid.Dividers | src/grid/GridState.js:17-18 | An axis with n cells gets n - 1 dividers. The i-th is (i + 1)/n of the side. They are strictly increasing inside (0, 100) |
| Grid.ResetDividers | src/grid/GridState.js:14-19 | `resetDividers` keeps the dimensions. With at least one row and one column it leaves one divider fewer than cells per axis, ordered inside (0, 100) |
| Grid.SetDimensions | src/grid/GridState.js:21-25 | `setDimensions` adopts the new size and leaves an evenly divided, well-formed grid |
| Grid.NewGrid | src/grid/GridState.js:6-12 | The constructor's initial `[50]` dividers are overwritten by the reset, so a new grid is the evenly divided one |
| Grid.BoundariesIncrease | src/grid/GridState.js:28-29 | For ordered dividers, the position list `[0, ...d/100, 1]` is strictly increasing |
| Grid.ScanFromFirst | src/grid/GridState.js:31 | The scan stops at the first interval containing t. It finds none only when no later interval contains t |
| Grid.FirstMatch | src/grid/GridState.js:30-32 | The lookup returns the first interval containing t. With `row = 0` as the default, it returns 0 when no interval does |
| Grid.CellForPoint | src/grid/GridState.js:27-34 | On a well-formed grid, `getCellForPoint` always names a cell of the grid |
| Grid.UniqueInterval | src/grid/GridState.js:31 | For ordered dividers and t in [0, 1), exactly one interval contains t, and the lookup returns it |
| Grid.IntervalLookup | src/grid/GridState.js:31 | If t lies in interval i, then t is in [0, 1) and the lookup returns i |
| Grid.CellForPointUnique | src/grid/GridState.js:27-34 | A point of the unit square is given the one cell whose row and column intervals contain it |
| Grid.OutsideFallsBackToZero | src/grid/GridState.js:30-34 | A point outside the square on both axes is given cell (0, 0) |
| Grid.NoIntervalOutside | src/grid/GridState.js:31 | A coordinate outside [0, 1) lies in no interval and falls back to 0 |
| Grid.AreaPositive | src/sampling/Sampler.js:107 | Every cell of an ordered grid has positive area |
| Grid.AreasSumToOne | src/sampling/Sampler.js:104-111 | The cell areas of a well-formed grid add up to 1, so `areaSum` is 1 |
| Grid.ScaledAreaSum | src/sampling/Sampler.js:104-111 | Weighting every cell area by the same k gives a total of k |
| Grid.GridSumBetween | src/stats/Stats.js:46-50 | A sum over the cells lies between lo and hi when each term lies between lo times and hi times its cell's area |
| Data.Values | src/stats/Stats.js:7 | `samples.map(s => s.value)`: one value per sample, in order |
| Data.TruthyOr | src/sampling/Sampler.js:90 | `m[key] or d` with JavaScript's `or`: the stored value, unless it is missing or 0. In JavaScript a NaN entry also gives the default; NaN is not modelled |
| Data.NullishOr | src/sampling/Sampler.js:108 | `m?.[key] ?? d`: the stored value whenever present, even 0 |
| Data.SumAppend | src/stats/Stats.js:9 | The sum of a concatenation is the sum of its parts |
| Data.SumBounds | src/stats/Stats.js:9 | n values in [lo, hi] sum to between n*lo and n*hi |
| Stats.Overall | src/stats/Stats.js:5-12 | Count is the number of samples. Mean and variance are null exactly when there are none. mean * n is the sum of the values, and variance * n is the sum of squared deviations from the mean, so this is the population variance |
| Stats.OverallOfConstant | src/stats/Stats.js:5-12 | Samples that all equal k have mean k and variance 0 |
| Stats.CellValuesAppend | src/stats/Stats.js:17 | Grouping by cell keeps sample order: the values of a concatenation are the values of each part, appended |
| Stats.CellValuesAll | src/stats/Stats.js:17 | When every sample falls in a cell, that cell's list is all the values, in order |
| Stats.CellValuesNone | src/stats/Stats.js:17 | When no sample falls in a cell, its list is empty |
| Stats.CellValuesWithin | src/stats/Stats.js:17 | A cell's values lie in [lo, hi] when all sample values do |
| Stats.SomeCellOccupied | src/stats/Stats.js:19-20 | With at least one sample, some cell of a well-formed grid is occupied, so the `cellMeans.length === 0` exit is never taken |
| Stats.MeanOfCellMeans | src/stats/Stats.js:14-22 | Null without samples; present on a well-formed grid otherwise. The result times the number of occupied cells is the sum of the occupied cells' means; empty cells are skipped, not counted as 0 |
| Stats.MeanOfCellMeansSingleCell | src/stats/Stats.js:14-22 | When every sample falls in one cell, the mean of cell means is the overall mean |
| Stats.TermOfConstant | src/stats/Stats.js:33-34 | A cell whose values all equal k contributes exactly k times its area |
| Stats.TermBetween | src/stats/Stats.js:33-34 | A cell whose values lie in [lo, hi] contributes between lo and hi times its weight |
| Stats.PostStratificationMean | src/stats/Stats.js:24-39 | The estimate is null exactly when there are no samples, on any grid |
| Stats.ConstantCellTerm | src/stats/Stats.js:32-34 | An occupied cell whose samples all equal k contributes k times its area |
| Stats.PostStratificationOfConstant | src/stats/Stats.js:24-39 | When every cell is occupied and every sample equals k, the estimate is k: the estimator is exact on constants |
| Stats.PostStratificationBetween | src/stats/Stats.js:24-39 | When every cell of an ordered grid is occupied, the estimate lies between the smallest and largest sample value |
| Stats.TermUnitArea | src/stats/Stats.js:33-34 | With weight 1, a cell's term is the plain mean of its values |
| Stats.PostStratificationSingleCell | src/stats/Stats.js:24-39 | On a 1x1 grid, post-stratification is the overall mean |
| Stats.GroundTruthMean | src/stats/Stats.js:41-52 | Null exactly without parameters. Without per-cell means it is the global mean. Otherwise it is the area-weighted mean of the cell means: the result times the total area equals the area-weighted sum, which is also the result itself since the areas sum to 1 |
| Stats.GroundTruthOfConstant | src/stats/Stats.js:41-52 | When every cell mean is m, the ground truth is m |
| Stats.GroundTruthBetween | src/stats/Stats.js:41-52 | The ground truth lies between the smallest and largest cell mean |
| Stats.GroundTruthIgnoresGrid | src/stats/Stats.js:43 | Without per-cell means, neither the grid nor the cell means matter |
| Sampler.SetSeed | src/sampling/Sampler.js:13 | `setSeed`: there is a generator exactly when a seed is given, and it is the fresh generator for that seed |
| Sampler.Random | src/sampling/Sampler.js:15 | A draw is 0 exactly when the source is dead (a seeded state that is a multiple of 2^31-1), and liveness never changes. A source whose draws are in [0, 1) stays so |
| Sampler.DrawsSeeded | src/sampling/Sampler.js:15 | A seeded source draws exactly the generator's stream |
| Sampler.DrawsUnseeded | src/sampling/Sampler.js:15 | An unseeded source reads the `Math.random` stream in order, one value per draw |
| Sampler.DrawsSplit | src/sampling/Sampler.js:15 | a + b draws are a draws followed by b draws from where they stopped |
| Sampler.LiveDrawsNonZero | src/sampling/Sampler.js:15 | A live source never draws 0 and stays live |
| Sampler.ZeroDrawNeverRecovers | src/sampling/Sampler.js:15 | A dead source draws only zeros and stays dead |
| Sampler.UnitDrawsRange | src/sampling/Sampler.js:15 | A source with draws in [0, 1) keeps them there |
| Sampler.DrawNonZero | src/sampling/Sampler.js:95 | `while (u === 0)` ends exactly when the source is live. It then returns the first draw, which is non-zero |
| Sampler.Normal | src/sampling/Sampler.js:94-97 | `normal` returns exactly when the source is live. It consumes exactly two draws, and its value is the transform of those two draws with the given mean and deviation |
| Sampler.TwoDraws | src/sampling/Sampler.js:95 | The two uniforms of `normal` are the next two draws of the stream |
| Sampler.ValueModelDefaults | src/sampling/Sampler.js:89-91 | Without per-cell means the global mean and deviation are used. With them, the cell's mean is used unless missing or 0 (then 5), and the square root of its variance unless missing or 0 (then that of 2) |
| Sampler.SampleValue | src/sampling/Sampler.js:88-92 | `sampleValue` is a normal draw with the cell's (or the global) mean and deviation. It returns exactly when the source is live |
| Sampler.AllocationShape | src/sampling/Sampler.js:48-56 | Cell idx receives `floor(count / cells)`, plus 1 when idx < count % cells |
| Sampler.AllocationBalanced | src/sampling/Sampler.js:56 | Any two cells' allocations differ by at most one |
| Sampler.QuotaFromClosed | src/sampling/Sampler.js:53-67 | The cells from idx on receive, together, their share of the closed-form allocation |
| Sampler.AllocationTotal | src/sampling/Sampler.js:46-69 | For a non-negative count, the allocations add up to exactly the count |
| Sampler.NegativeCountAllocatesNothing | src/sampling/Sampler.js:56-59 | A negative count gives every cell nothing |
| Sampler.StratifiedTotal | src/sampling/Sampler.js:46-69 | Stratified sampling draws max(count, 0) samples in all |
| Sampler.EveryCellAllocated | src/sampling/Sampler.js:56 | With at least as many samples as cells, every cell is allocated at least one |
| Sampler.RowMajor | src/sampling/Sampler.js:53-55 | The running index `idx` of cell (r, c) is r * cols + c, and it decodes back to (r, c) |
| Sampler.Place | src/sampling/Sampler.js:60-61 | `min + u * (max - min)` with u in [0, 1) lies in [min, max) |
| Sampler.PlaceOne | src/sampling/Sampler.js:60-63 | One stratified sample returns exactly when the source is live and consumes four draws. On an ordered grid it lies in the cell it was drawn for |
| Sampler.PlaceInInterval | src/sampling/Sampler.js:60-61 | A point placed in interval i is found in interval i by the lookup |
| Sampler.PlaceInside | src/sampling/Sampler.js:60-61 | A point placed in cell (r, c) of an ordered grid is looked up into cell (r, c) |
| Sampler.FourDraws | src/sampling/Sampler.js:60-62 | A sample consumes x, then y, then the two uniforms of its value |
| Sampler.PlaceInCell | src/sampling/Sampler.js:59-64 | n samples for one cell: returns exactly when n <= 0 or the source is live, gives max(n, 0) samples, consumes four draws each, and keeps all of them in the cell |
| Sampler.StratifiedFrom | src/sampling/Sampler.js:53-67 | The cell loop from index idx returns exactly when the source is live or nothing is left to draw, and gives as many samples as the remaining cells are allocated |
| Sampler.RandomOne | src/sampling/Sampler.js:73-83 | One random sample returns exactly when the source is live and consumes four draws |
| Sampler.RandomOneBuilt | src/sampling/Sampler.js:73-83 | A random sample's position is the first two draws. Its value is drawn from the next two, with the model of the cell the position falls in (per-cell mode) or the global one |
| Sampler.RandomFrom | src/sampling/Sampler.js:71-86 | `generateRandom(n)` returns exactly when n <= 0 or the source is live, gives max(n, 0) samples, and consumes four draws each |
| Sampler.CellOfIndex | src/sampling/Sampler.js:53-54 | Every running index below rows * cols names a cell of the grid |
| Sampler.BlockLookup | src/sampling/Sampler.js:59-63 | Every sample drawn for cell (r, c) is looked up into (r, c) |
| Sampler.BlockCount | src/sampling/Sampler.js:59-63 | A block drawn for one cell adds all of its samples to that cell and none to any other |
| Sampler.StratifiedStep | src/sampling/Sampler.js:53-67 | One turn of the cell loop adds the current cell's allocation to that cell and nothing to any other |
| Sampler.StratifiedCounts | src/sampling/Sampler.js:53-67 | From index idx on, a target cell receives its allocation if it is not yet passed, and nothing otherwise |
| Sampler.StratifiedAllocation | src/sampling/Sampler.js:46-69 | Stratified sampling puts exactly its allocation of samples into each cell of an ordered grid |
| Sampler.StratifiedFillsEveryCell | src/sampling/Sampler.js:46-69 | With at least one sample per cell, stratified sampling leaves no cell empty |
| Sampler.SameIndexSameCell | src/sampling/Sampler.js:53-55 | Two running indices name the same cell exactly when they are equal |
| Sampler.RowMajorInRange | src/sampling/Sampler.js:53-55 | The running index of a grid cell is below rows * cols |
| Sampler.RandomPass | src/sampling/Sampler.js:73-84 | Sample i of `generateRandom` is the one-sample draw made after 4i draws |
| Sampler.RandomFirst | src/sampling/Sampler.js:73-84 | The first random sample is drawn from the untouched source |
| Sampler.RandomShift | src/sampling/Sampler.js:73-84 | Sample i of n is sample i - 1 of the n - 1 drawn after the first |
| Sampler.RandomDrawOrder | src/sampling/Sampler.js:73-84 | Sample i is built from draws 4i to 4i + 3: position first, then value |
| Sampler.MinValue | src/sampling/Sampler.js:40 | `Math.min(...values)` is a lower bound of the values and is attained |
| Sampler.MaxValue | src/sampling/Sampler.js:40 | `Math.max(...values)` is an upper bound of the values and is attained |
| Sampler.FrozenColorScale | src/sampling/Sampler.js:39-41 | The colour scale is null exactly when there are no samples. Otherwise its ends are the smallest and largest sample value |
| Sampler.CalculateGroundTruthMean | src/sampling/Sampler.js:99-113 | Null exactly without parameters; the global mean when not per cell. Otherwise it is the area-weighted mean of the recorded cell means, with a missing mean read as 5 |
| Sampler.GroundTruthOfUniformMeans | src/sampling/Sampler.js:99-113 | When every cell records mean m, the ground truth is m |
| Sampler.GroundTruthDefault | src/sampling/Sampler.js:108 | With no recorded cell means, the ground truth is the default 5 |
| Sampler.ZeroMeanReadTwoWays | src/sampling/Sampler.js:90 | A stored cell mean of 0 is sampled around 5 but counted as 0 in the ground truth (line 108) |
| Sampler.Draw | src/sampling/Sampler.js:19-21 | The draw returns exactly when the source is live or nothing is asked, and yields max(sampleCount, 0) samples in either mode |
| Sampler.Generate | src/sampling/Sampler.js:17-44 | `generate` returns exactly unless it must draw from a seed that is a multiple of 2^31-1. It yields the requested number of samples. It records the grid, both mode flags, the global mean and deviation, and the cell means and variances as given. The ground truth is present: the global mean in global mode, and the area-weighted mean of the stored cell means read with `?? 5` per cell. The colour scale is null exactly for no samples; otherwise its ends bound every sample value and are both attained |
| Sampler.SeededIgnoresOracle | src/sampling/Sampler.js:13-15 | With a seed, the result does not depend on `Math.random` |
| Sampler.ZeroSeedNeverReturns | src/sampling/Sampler.js:95 | Seed 0 with a positive count never returns: the first `normal` loops forever |
| Surface.DividerGrid | src/workers/heatmap-worker.js:43-44 | The test dividers form a well-formed grid with one more row and column than dividers |
| Surface.PostStratError | src/heatmap/HeatmapService.js:169-180 | The score is null exactly when some cell of the partition holds fewer than two samples. A non-null score is non-negative, and it is the squared distance between the post-stratification estimate of that partition and the ground truth |
| Surface.WorkerError | src/workers/heatmap-worker.js:41-83 | The worker's loops (grouping, sparse check, weighted sum) compute exactly the closed-form score |
| Surface.GroupByCell | src/workers/heatmap-worker.js:45-57 | The map holds, for each cell, exactly the values the lookup sends there, in sample order. A missing key means no values |
| Surface.FindSparseCell | src/workers/heatmap-worker.js:60-66 | The check fires exactly when some cell of the partition holds fewer than two samples |
| Surface.StratifiedSum | src/workers/heatmap-worker.js:67-81 | The accumulated `stratifiedMean` is the sum over cells of the post-stratification terms |
| Surface.OccupiedTerm | src/workers/heatmap-worker.js:73-78 | `(cellVolume / numSamples) * sumValues` is the cell's weighted mean term |
| Surface.SquareZeroIff | src/workers/heatmap-worker.js:82 | A square is 0 exactly when its base is |
| Surface.ErrorZeroIff | src/workers/heatmap-worker.js:82 | A score is 0 exactly when the estimate equals the ground truth |
| Surface.TooFewSamples | src/workers/heatmap-worker.js:60-66 | With fewer than two samples every candidate is null |
| Surface.ErrorBounded | src/workers/heatmap-worker.js:67-82 | If the values and the ground truth lie in [lo, hi], every non-null score of an interior candidate is at most (hi - lo)^2 |
| Surface.SurfaceEntryAt | src/workers/heatmap-worker.js:13-24 | Entry (i, j) of the first rows of the surface is the score of candidate (i, j) |
| Surface.EmptyIntervalNeverChosen | src/workers/heatmap-worker.js:48-50 | The scan never settles on an empty interval other than the fallback 0 |
| Surface.LastCandidateEmpty | src/workers/heatmap-worker.js:15-20 | The last candidate row puts the divider at 100, so the second row of its partition is empty |
| Surface.LastCandidateEmptyColumn | src/workers/heatmap-worker.js:17-21 | The same for the last candidate column |
| Surface.LastRowAndColumnNull | src/workers/heatmap-worker.js:13-24 | The last row and the last column of every surface are null, whatever the samples |
| Surface.Include | src/workers/heatmap-worker.js:25-28 | One `Math.min`/`Math.max` update: the new bounds enclose the old ones and the error. Each bound is either unchanged or the error |
| Surface.FoldBounds | src/workers/heatmap-worker.js:25-35 | The reported bounds are both null exactly when every entry is null. Otherwise they are entries of the band, and every non-null entry lies between them |
| Surface.FlattenSnoc | src/workers/heatmap-worker.js:13-30 | Visiting one more row extends the row-major visit order by that row |
| Surface.ScoreRow | src/workers/heatmap-worker.js:14-29 | One pass of the row loop yields surface row i and extends the bounds over it |
| Surface.WorkerRows | src/workers/heatmap-worker.js:5-39 | A worker for rows [startRow, endRow) posts max(endRow - startRow, 0) rows. They are the surface rows from startRow on, with the bounds of those rows |
| Heatmap.Concurrency | src/heatmap/HeatmapService.js:52 | `hardwareConcurrency or 4`: the reported count when there is one, 4 when it is missing |
| Heatmap.NumWorkers | src/heatmap/HeatmapService.js:52-53 | The worker count is at least 1 and is the least of the concurrency, 24 and the resolution |
| Heatmap.CeilDiv | src/heatmap/HeatmapService.js:54 | `Math.ceil(a / b)`: the least q with a <= q * b |
| Heatmap.CeilUnique | src/heatmap/HeatmapService.js:54 | That q is unique |
| Heatmap.RowsPerWorker | src/heatmap/HeatmapService.js:54 | `rowsPerWorker` is the least count for which numWorkers bands cover the resolution |
| Heatmap.RangeOf | src/heatmap/HeatmapService.js:60 | Worker k starts at k * rowsPerWorker and ends after at most rowsPerWorker rows, or at the last row |
| Heatmap.SpawnCount | src/heatmap/HeatmapService.js:59-61 | Between 1 and numWorkers workers start |
| Heatmap.Spawn | src/heatmap/HeatmapService.js:59-65 | The spawn loop starts SpawnCount workers, worker k on range k, each starting before the last row |
| Heatmap.StopsAtSpawnCount | src/heatmap/HeatmapService.js:59-61 | The `break` is taken exactly at index SpawnCount, when the loop does not run out first |
| Heatmap.SpawnedIff | src/heatmap/HeatmapService.js:61 | Worker k is started exactly when its first row is below the resolution |
| Heatmap.SpawnedContiguous | src/heatmap/HeatmapService.js:60 | Each started range is non-empty and ends where the next one begins |
| Heatmap.RowOwner | src/heatmap/HeatmapService.js:60 | Row r lies in range k exactly when k = floor(r / rowsPerWorker) |
| Heatmap.OwnerSpawned | src/heatmap/HeatmapService.js:59-61 | The owner of every row is among the started workers |
| Heatmap.RangesPartitionRows | src/heatmap/HeatmapService.js:52-61 | The started ranges partition the rows: each row lies in exactly one of them |
| Heatmap.SpawnedCoverAll | src/heatmap/HeatmapService.js:59-61 | The first started range begins at row 0 and the last ends at the resolution |
| Heatmap.AllSpawnedWhenWide | src/heatmap/HeatmapService.js:54-61 | When nw * (nw - 1) <= resolution, all nw workers start |
| Heatmap.FullResolutionSpawnsAll | src/heatmap/HeatmapService.js:47-61 | At resolution 1000 every one of the numWorkers workers starts, whatever the reported concurrency |
| Heatmap.FewerSpawned | src/heatmap/HeatmapService.js:52-61 | Resolution 5 with 4 cores: 4 workers of 2 rows are counted, but only 3 start |
| Heatmap.MinOpt | src/heatmap/HeatmapService.js:69 | The global minimum update, where null means "none yet": null only when both are, and otherwise the smaller present one |
| Heatmap.MaxOpt | src/heatmap/HeatmapService.js:70 | The same for the maximum |
| Heatmap.MergeCommutes | src/heatmap/HeatmapService.js:69-70 | Folding two workers' bounds does not depend on their order |
| Heatmap.MergeAssociates | src/heatmap/HeatmapService.js:69-70 | Nor on how the updates are grouped |
| Heatmap.MergeNoBounds | src/heatmap/HeatmapService.js:69-70 | A worker with no non-null entry leaves the bounds unchanged |
| Heatmap.MergeFoldBounds | src/heatmap/HeatmapService.js:69-70 | Merging the bounds of two bands gives the bounds of their concatenation, so the page's min/max equals the worker loop's over all entries |
| Heatmap.CombinedPermutation | src/heatmap/HeatmapService.js:66-72 | The global bounds do not depend on the order in which workers answer |
| Heatmap.Write | src/heatmap/HeatmapService.js:68 | Writing a band places error row i at `startRow + i` and leaves every other row as it was |
| Heatmap.Settle | src/heatmap/HeatmapService.js:66-88 | Every settled worker bumps the counter and merges its bounds. Reaching the target decides the outcome: draw after an answer, fall back after a failure. Otherwise nothing is decided |
| Heatmap.SettleOutcome | src/heatmap/HeatmapService.js:71-87 | After all events the counter is their number. The page has drawn when the target-th event was an answer, has fallen back when it was a failure, and is still waiting when fewer events settled |
| Heatmap.SettledBounds | src/heatmap/HeatmapService.js:69-70 | The global bounds are the merged bounds of all answers |
| Heatmap.SettledKeys | src/heatmap/HeatmapService.js:68 | A row is filled exactly when some answer covers it |
| Heatmap.SettledRows | src/heatmap/HeatmapService.js:68 | When the answers' ranges are disjoint, every filled row holds what its covering answer sent |
| Heatmap.RowsPermutation | src/heatmap/HeatmapService.js:66-72 | For disjoint answers, the assembled rows do not depend on arrival order |
| Heatmap.SettledRowsAgree | src/heatmap/HeatmapService.js:68 | If every answer agrees with a surface, every filled row is that surface's row |
| Heatmap.RunWorker | src/heatmap/HeatmapService.js:60-66 | Worker k answers with its range of the error surface, started at its own first row |
| Heatmap.AnswerAgrees | src/heatmap/HeatmapService.js:68 | A worker's answer agrees with the surface it was computed from |
| Heatmap.RangeExtends | src/heatmap/HeatmapService.js:60 | Each started range begins where the rows of the earlier ones end |
| Heatmap.AnswersBounds | src/heatmap/HeatmapService.js:69-70 | The merged bounds of the first m answers are the bounds of the rows they cover |
| Heatmap.ParallelDrawn | src/heatmap/HeatmapService.js:71-72 | When every started worker has answered, there is one event per worker and the page draws |
| Heatmap.ParallelRowsFilled | src/heatmap/HeatmapService.js:57-68 | Then exactly the rows 0 to resolution - 1 are filled |
| Heatmap.ParallelRowsMatch | src/heatmap/HeatmapService.js:68 | Then every filled row is the surface row |
| Heatmap.ParallelBounds | src/heatmap/HeatmapService.js:69-70 | Then the global bounds are those of the whole surface |
| Heatmap.ParallelMatchesSurface | src/heatmap/HeatmapService.js:51-83 | Counting against the number of started workers, answers in any order assemble the whole surface with its bounds, and the page draws |
| Heatmap.ErrorHeatmapDrawn | src/heatmap/HeatmapService.js:47-83 | At resolution 1000, once every worker has answered, the page draws. Row r is filled exactly when 0 <= r < 1000, it is surface row r, and the bounds are those of the whole surface |
| Heatmap.StallsWhenFewerSpawned | src/heatmap/HeatmapService.js:71-72 | As written: when fewer workers start than numWorkers, all of them answer and the page is still waiting |
| Heatmap.StallExample | src/heatmap/HeatmapService.js:59-72 | Resolution 5 with 4 cores: three answers and the heatmap is never drawn |
| Heatmap.Fallback | src/heatmap/HeatmapService.js:152-161 | The fallback computes the first 500 rows of the resolution-500 surface and their bounds |
| Heatmap.SingleThreaded | src/heatmap/HeatmapService.js:153-161 | The nested loops at resolution R give the R x R surface and its bounds |
| Heatmap.FallbackEntry | src/heatmap/HeatmapService.js:152-158 | Candidate i of 500 is candidate 2i + 1 of 1000 |
| Heatmap.FallbackSubsamples | src/heatmap/HeatmapService.js:152-161 | Entry (i, j) of the fallback heatmap is entry (2i + 1, 2j + 1) of the full-resolution surface |
| Heatmap.ShowErrorHeatmap | src/heatmap/HeatmapService.js:23-49 | Refused exactly without samples or ground truth. Otherwise it starts at resolution 1000 with baseline `gridMeanMSE`, the squared distance between the overall mean and the ground truth |
| Heatmap.BaselineIsOneCellError | src/heatmap/HeatmapService.js:30-31 | With at least two samples, the baseline is the score of the partition with no divider |
| Heatmap.BaselineZeroIff | src/heatmap/HeatmapService.js:30-31 | The baseline is 0 exactly when the values sum to n times the ground truth |

## Left out

- DOM, canvas, logging, timers (`performance.now`) and Worker plumbing (`new Worker`, `postMessage`) are left out. The model keeps only the data that moves: ranges out, events back.
- `drawHeatmap` (src/heatmap/HeatmapService.js:92-144) is not modelled. It maps errors to colours through log10 ratios, which is floating-point rendering.
- Numbers are exact. IEEE-754 rounding is not modelled, so `(i + 1) * (1 / R) * 100` is taken as exact. For the last candidate this is exactly 100, which floating point may miss, so the null last row and column rely on exact arithmetic.
- `Math.random` is an oracle with values in (0, 1). The exact-0 return that the ECMAScript standard permits is left out.
- The seeded generator's state is an exact integer. Seeds whose product with 16807 exceeds 2^53 lose precision in JavaScript; that rounding is not modelled.
- The Box–Muller value `sqrt(-2 ln u) cos(2 pi v)` and `Math.sqrt` are uninterpreted parameters (`Sampler.Numerics`). Transcendental functions are outside the model.
- Sampler.Generate, Sampler.Draw, Sampler.StratifiedFrom, Stats.GroundTruthMean and Sampler.CalculateGroundTruthMean require `Valid(g)` (the last two only for a per-cell field): at least one row and one column, with one divider fewer than cells on each axis. The page reads rows and columns with `parseInt` and does not clamp them, so 0, negative or NaN sizes can reach `generate`. There, `count / totalCells` and the ground truth's `total / areaSum` become NaN or Infinity, which exact reals cannot represent, so such grids are excluded from these members rather than modelled. `Stats.PostStratificationMean`, the lookup, and the global-field ground truth take any grid.
- Sampler.SetSeed: the seed is an `Option<int>`. A non-numeric seed field gives `parseInt(...)`, which is NaN (src/app/InteractiveGrid.js:130), and `setSeed` stores it unchecked. Every `random()` then returns NaN, `normal`'s `=== 0` loops exit at once, and all values are NaN. NaN is not a real number, so this path is not modelled.
- Data.TruthyOr, Sampler.ValueModelDefaults, Sampler.CalculateGroundTruthMean and Heatmap.ShowErrorHeatmap: NaN distribution parameters are not modelled. The page stores `parseFloat` of the input fields as cell means and variances (src/app/InteractiveGrid.js:62-63), and `globalMean` and `stdDev` are `parseFloat` results too (src/app/InteractiveGrid.js:128-129). So a cleared field gives NaN. For a NaN cell mean, `cellMeans[key] || 5` samples around 5, while `?? 5` keeps NaN, so the frozen ground truth is NaN. NaN is not null, so it passes the heatmap's null guard, and every score and both bounds become NaN. Parameters here are real numbers, which cannot be NaN.
- A null sample list, and a ground truth that is `undefined` rather than null, are not modelled. Both are `Option`s here.
- Cell keys `"r-c"` are modelled as `Cell(r, c)`. The string round trip is not modelled.
- `navigator.hardwareConcurrency` is a natural number, with 0 standing for "missing".
- A failed worker's rows stay missing from the assembled map. Rendering of the `undefined` rows is not modelled.
- The fallback's early return when no canvas exists is left out, together with the canvas. So is `workers.forEach(w => w.terminate())`.
- Worker messages are assumed delivered whole. Partial or duplicated messages are not modelled.
- Heatmap.ErrorHeatmapDrawn: states the row facts for one row r per use. It holds for every r, but it does not state all 1000 rows in one formula.
- Heatmap.FallbackSubsamples: states the fallback's correspondence for one entry (i, j) at a time rather than for the whole 500 x 500 matrix at once.
- Stats: the per-cell presentation (`StatsPresenter`) and the improvement ratio are outside this model, and so is the interactive grid UI (`InteractiveGrid`, `GridView`, `SampleRenderer`).

## Findings

| source | as written | input that shows it | evidently intended | confidence | as-written member | corrected member |
|---|---|---|---|---|---|---|
| src/heatmap/HeatmapService.js:71-72 | The counter is compared with `numWorkers`, but the spawn loop (lines 59-61) breaks early once `startRow >= resolution`, so fewer workers may start | resolution 5 with `hardwareConcurrency` 4: 4 workers of 2 rows are counted, only 3 start, and the heatmap is never drawn | compare the counter with the number of workers actually started | not executed; unreachable at the fixed resolution 1000 (Heatmap.FullResolutionSpawnsAll) | Heatmap.StallsWhenFewerSpawned | Heatmap.ParallelMatchesSurface |

=== FILE: data.dfy ===
/** Observations, the frozen distribution parameters, and the left-to-right sum every estimator uses. */
module Data {
  import opened Grid

  /** An observation `{x, y, value}`; positions are fractions of the unit square. */
  datatype Sample = Sample(x: real, y: real, value: real)

  /**
   * The `distributionParams` snapshot `generate` records: the value model and a
   * copy of the grid configuration at generation time.
   */
  datatype DistributionParams = DistributionParams(
    perCell: bool,
    stratified: bool,
    globalMean: real,
    stdDev: real,
    cellMeans: map<Cell, real>,
    cellVariances: map<Cell, real>,
    grid: GridState)

  /** `values.reduce((a, b) => a + b, 0)`. */
  function Sum(s: seq<real>): real
    decreases |s|
  {
    if |s| == 0 then 0.0 else Sum(s[..|s| - 1]) + s[|s| - 1]
  }

  /** `samples.map(s => s.value)`. */
  function Values(samples: seq<Sample>): (v: seq<real>)
    ensures |v| == |samples|
    ensures forall i :: 0 <= i < |samples| ==> v[i] == samples[i].value
  {
    seq(|samples|, i requires 0 <= i < |samples| => samples[i].value)
  }

  /** `m[key] || d`: a missing key and a stored 0 both give the default. */
  function TruthyOr(m: map<Cell, real>, key: Cell, d: real): (r: real)
    ensures key in m && m[key] != 0.0 ==> r == m[key]
    ensures key !in m || m[key] == 0.0 ==> r == d
  {
    if key in m && m[key] != 0.0 then m[key] else d
  }

  /** `m[key] ?? d`: only a missing key gives the default. */
  function NullishOr(m: map<Cell, real>, key: Cell, d: real): (r: real)
    ensures key in m ==> r == m[key]
    ensures key !in m ==> r == d
  {
    if key in m then m[key] else d
  }

  lemma {:induction false} SumAppend(a: seq<real>, b: seq<real>)
    ensures Sum(a + b) == Sum(a) + Sum(b)
    decreases |b|
  {
    if |b| > 0 {
      assert (a + b)[..|a + b| - 1] == a + b[..|b| - 1];
      SumAppend(a, b[..|b| - 1]);
    } else {
      assert a + b == a;
    }
  }

  /** Elements within [lo, hi] give a sum within [n*lo, n*hi]. */
  lemma {:induction false} SumBounds(s: seq<real>, lo: real, hi: real)
    requires forall i :: 0 <= i < |s| ==> lo <= s[i] <= hi
    ensures |s| as real * lo <= Sum(s) <= |s| as real * hi
    decreases |s|
  {
    if |s| > 0 {
      var p := s[..|s| - 1];
      SumBounds(p, lo, hi);
      assert Sum(s) == Sum(p) + s[|s| - 1];
      assert |s| as real == |p| as real + 1.0;
      AddOne(|p| as real, lo);
      AddOne(|p| as real, hi);
    }
  }

  /** A run of equal elements sums to its length times the element. */
  lemma SumConstant(s: seq<real>, k: real)
    requires forall i :: 0 <= i < |s| ==> s[i] == k
    ensures Sum(s) == |s| as real * k
  {
    SumBounds(s, k, k);
  }

  /** Distributes one more copy of `a`: the step that grows a sum of n equal terms by one. */
  lemma AddOne(n: real, a: real)
    ensures (n + 1.0) * a == n * a + a
  {
  }

  /** Dividing by a non-zero real and multiplying back gives the original. */
  lemma DivCancel(a: real, n: real)
    requires n != 0.0
    ensures (a / n) * n == a
    ensures (n * a) / n == a
  {
  }

  /** The values of a non-empty list are those of its prefix followed by the last sample's value. */
  lemma ValuesPrefix(samples: seq<Sample>)
    requires |samples| > 0
    ensures Values(samples) == Values(samples[..|samples| - 1]) + [samples[|samples| - 1].value]
  {
  }
}

=== FILE: grid.dfy ===
/**
 * Grid geometry of src/grid/GridState.js: rows, columns, divider positions in
 * percent, the first-match point lookup, and cell areas. The scan that the
 * heatmap worker and the heatmap service repeat is the same FindInterval.
 */
module Grid {
  import opened Wrappers

  /** A cell index; the source keys cells by the string "row-col". */
  datatype Cell = Cell(row: int, col: int)

  /** `GridState`: dimensions and divider positions (percent of the side, 0..100). */
  datatype GridState = GridState(rows: int, cols: int, horizontal: seq<real>, vertical: seq<real>)

  /** The invariant `resetDividers` establishes: one divider fewer than cells on each axis. */
  predicate Valid(g: GridState) {
    g.rows >= 1 && g.cols >= 1 && |g.horizontal| == g.rows - 1 && |g.vertical| == g.cols - 1
  }

  predicate StrictlyIncreasing(s: seq<real>) {
    forall i, j :: 0 <= i < j < |s| ==> s[i] < s[j]
  }

  /** Divider positions strictly increasing and strictly inside (0, 100). */
  predicate WellPlaced(d: seq<real>) {
    StrictlyIncreasing(d) && forall i :: 0 <= i < |d| ==> 0.0 < d[i] < 100.0
  }

  /** Both axes' dividers are well placed, so every cell has positive width and height. */
  predicate Ordered(g: GridState) {
    WellPlaced(g.horizontal) && WellPlaced(g.vertical)
  }

  /** The position of the k-th divider (k = 1 .. n-1) of an axis cut into `n` equal parts. */
  function EvenPosition(k: int, n: int): real
    requires n > 0
  {
    (k as real / n as real) * 100.0
  }

  /** The k-th even divider is exactly k * 100 / n and lies strictly inside the side. */
  lemma EvenPositionFacts(k: int, n: int)
    requires 0 < k < n
    ensures EvenPosition(k, n) * n as real == k as real * 100.0
    ensures 0.0 < EvenPosition(k, n) < 100.0
  {
    var q := k as real / n as real;
    assert q * n as real == k as real;
    assert q < 1.0;
  }

  /** Even dividers come in increasing order. */
  lemma EvenPositionIncreasing(i: int, j: int, n: int)
    requires 0 < i < j < n
    ensures EvenPosition(i, n) < EvenPosition(j, n)
  {
    var p := i as real / n as real;
    var q := j as real / n as real;
    assert p * n as real == i as real;
    assert q * n as real == j as real;
    assert p < q;
  }

  /** The loop of `resetDividers` for one axis: positions i/n * 100 for i = 1 .. n-1. */
  function Dividers(n: int): (d: seq<real>)
    ensures |d| == if n > 1 then n - 1 else 0
    ensures forall i :: 0 <= i < |d| ==> d[i] * n as real == (i + 1) as real * 100.0
    ensures WellPlaced(d)
  {
    var d := seq(if n > 1 then n - 1 else 0, i requires 0 <= i < n - 1 => EvenPosition(i + 1, n));
    forall i | 0 <= i < |d|
      ensures d[i] * n as real == (i + 1) as real * 100.0 && 0.0 < d[i] < 100.0
    {
      EvenPositionFacts(i + 1, n);
    }
    forall i, j | 0 <= i < j < |d| ensures d[i] < d[j] {
      EvenPositionIncreasing(i + 1, j + 1, n);
    }
    d
  }

  /** `resetDividers`: even spacing for the current dimensions. */
  function ResetDividers(g: GridState): (r: GridState)
    ensures r.rows == g.rows && r.cols == g.cols
    ensures g.rows >= 1 && g.cols >= 1 ==> Valid(r) && Ordered(r)
    ensures WellPlaced(r.horizontal) && WellPlaced(r.vertical)
  {
    GridState(g.rows, g.cols, Dividers(g.rows), Dividers(g.cols))
  }

  /** `setDimensions`: new dimensions and evenly re-derived dividers. */
  function SetDimensions(g: GridState, rows: int, cols: int): (r: GridState)
    ensures r.rows == rows && r.cols == cols
    ensures rows >= 1 && cols >= 1 ==> Valid(r) && Ordered(r)
  {
    ResetDividers(GridState(rows, cols, g.horizontal, g.vertical))
  }

  /** The constructor: `rows` by `cols` (2 by 2 by default) with even dividers. */
  function NewGrid(rows: int, cols: int): (r: GridState)
    ensures r.rows == rows && r.cols == cols
    ensures rows >= 1 && cols >= 1 ==> Valid(r) && Ordered(r)
  {
    ResetDividers(GridState(rows, cols, [50.0], [50.0]))
  }

  /**
   * Boundary `i` of an axis, `[0, ...d.map(p => p/100), 1][i]`: 0, then each
   * divider as a fraction, then 1; an axis with |d| dividers has |d| + 1 intervals.
   */
  function Boundary(d: seq<real>, i: int): real {
    if i <= 0 then 0.0 else if i <= |d| then d[i - 1] / 100.0 else 1.0
  }

  /** Well-placed dividers give strictly increasing boundaries from 0 to 1. */
  lemma BoundariesIncrease(d: seq<real>, i: int, j: int)
    requires WellPlaced(d) && 0 <= i < j <= |d| + 1
    ensures Boundary(d, i) < Boundary(d, j)
  {
    if i > 0 && j <= |d| {
      assert d[i - 1] < d[j - 1];
    } else if i > 0 {
      assert d[i - 1] < 100.0;
    } else if j <= |d| {
      assert 0.0 < d[j - 1];
    }
  }

  // ---------------------------------------------------------------------------
  // Point lookup

  /** `t` lies in interval `i`, the half-open [Boundary(i), Boundary(i+1)). */
  predicate InInterval(d: seq<real>, t: real, i: int) {
    0 <= i <= |d| && Boundary(d, i) <= t < Boundary(d, i + 1)
  }

  /** The scan loop from index `i` on: the first matching interval, if any. */
  function ScanFrom(d: seq<real>, t: real, i: nat): (r: Option<nat>)
    ensures r.Some? ==> i <= r.value <= |d|
    decreases |d| + 1 - i
  {
    if i > |d| then None
    else if Boundary(d, i) <= t < Boundary(d, i + 1) then Some(i)
    else ScanFrom(d, t, i + 1)
  }

  /** The scan from `i` returns the first interval at or after `i` that contains `t`. */
  lemma {:induction false} ScanFromFirst(d: seq<real>, t: real, i: nat)
    ensures ScanFrom(d, t, i).Some? ==> InInterval(d, t, ScanFrom(d, t, i).value)
    ensures ScanFrom(d, t, i).Some? ==> forall k :: i <= k < ScanFrom(d, t, i).value ==> !InInterval(d, t, k)
    ensures ScanFrom(d, t, i).None? ==> forall k :: i <= k ==> !InInterval(d, t, k)
    decreases |d| + 1 - i
  {
    if i <= |d| && !(Boundary(d, i) <= t < Boundary(d, i + 1)) {
      ScanFromFirst(d, t, i + 1);
    }
  }

  /**
   * The scan of `getCellForPoint` (and of both copies of
   * `calculatePostStratificationError`) over the boundaries of dividers `d`:
   * the first interval containing `t`, or 0 when none does.
   */
  function FindInterval(d: seq<real>, t: real): (r: nat)
    ensures r <= |d|
  {
    match ScanFrom(d, t, 0)
    case Some(i) => i
    case None => 0
  }

  /** The scan returns the first interval containing `t`; when none does, it returns 0. */
  lemma FirstMatch(d: seq<real>, t: real)
    ensures forall k :: 0 <= k < FindInterval(d, t) ==> !InInterval(d, t, k)
    ensures (exists k :: InInterval(d, t, k)) ==> InInterval(d, t, FindInterval(d, t))
    ensures (forall k :: !InInterval(d, t, k)) ==> FindInterval(d, t) == 0
  {
    ScanFromFirst(d, t, 0);
  }

  /** `getCellForPoint(x, y)`: the row from the horizontal dividers, the column from the vertical ones. */
  function CellForPoint(g: GridState, x: real, y: real): (c: Cell)
    ensures Valid(g) ==> 0 <= c.row < g.rows && 0 <= c.col < g.cols
  {
    Cell(FindInterval(g.horizontal, y), FindInterval(g.vertical, x))
  }

  lemma {:induction false} SomeIntervalFrom(d: seq<real>, t: real, i: nat)
    requires WellPlaced(d) && i <= |d| && Boundary(d, i) <= t < 1.0
    ensures exists k :: i <= k && InInterval(d, t, k)
    decreases |d| + 1 - i
  {
    if t < Boundary(d, i + 1) {
      assert InInterval(d, t, i);
    } else {
      SomeIntervalFrom(d, t, i + 1);
    }
  }

  /**
   * With well-placed dividers, a point of [0, 1) lies in exactly one interval,
   * and the scan returns that one.
   */
  lemma UniqueInterval(d: seq<real>, t: real)
    requires WellPlaced(d) && 0.0 <= t < 1.0
    ensures InInterval(d, t, FindInterval(d, t))
    ensures forall k :: InInterval(d, t, k) ==> k == FindInterval(d, t)
  {
    SomeIntervalFrom(d, t, 0);
    FirstMatch(d, t);
    var r := FindInterval(d, t);
    forall k | InInterval(d, t, k) ensures k == r {
    }
  }

  /** A coordinate inside interval `i` of well-placed dividers lies in [0, 1), and the scan finds `i`. */
  lemma IntervalLookup(d: seq<real>, t: real, i: int)
    requires WellPlaced(d) && InInterval(d, t, i)
    ensures 0.0 <= t < 1.0
    ensures FindInterval(d, t) == i
  {
    if i > 0 {
      BoundariesIncrease(d, 0, i);
    }
    if i + 1 <= |d| {
      BoundariesIncrease(d, i + 1, |d| + 1);
    }
    UniqueInterval(d, t);
  }

  /** On an ordered grid every point of [0,1) x [0,1) has exactly one cell, the one the lookup returns. */
  lemma CellForPointUnique(g: GridState, x: real, y: real)
    requires Ordered(g) && 0.0 <= x < 1.0 && 0.0 <= y < 1.0
    ensures InInterval(g.horizontal, y, CellForPoint(g, x, y).row)
    ensures InInterval(g.vertical, x, CellForPoint(g, x, y).col)
    ensures forall r :: InInterval(g.horizontal, y, r) ==> r == CellForPoint(g, x, y).row
    ensures forall c :: InInterval(g.vertical, x, c) ==> c == CellForPoint(g, x, y).col
  {
    UniqueInterval(g.horizontal, y);
    UniqueInterval(g.vertical, x);
  }

  /** A coordinate at or past 1 (or below 0) matches no interval and falls back to index 0, not the last one. */
  lemma OutsideFallsBackToZero(g: GridState, x: real, y: real)
    requires Ordered(g)
    requires y < 0.0 || y >= 1.0
    requires x < 0.0 || x >= 1.0
    ensures CellForPoint(g, x, y) == Cell(0, 0)
  {
    NoIntervalOutside(g.horizontal, y);
    NoIntervalOutside(g.vertical, x);
  }

  lemma NoIntervalOutside(d: seq<real>, t: real)
    requires WellPlaced(d) && (t < 0.0 || t >= 1.0)
    ensures FindInterval(d, t) == 0
  {
    FirstMatch(d, t);
    forall k ensures !InInterval(d, t, k) {
      if 0 <= k <= |d| {
        if k > 0 { BoundariesIncrease(d, 0, k); }
        if k + 1 <= |d| { BoundariesIncrease(d, k + 1, |d| + 1); }
      }
    }
  }

  // ---------------------------------------------------------------------------
  // Sums over the cells in row-major order, and cell areas

  /** The inner loop over columns of one row: f(r, 0) + ... + f(r, cols-1). */
  function RowSum(r: int, cols: int, f: (int, int) -> real): real
    decreases cols
  {
    if cols <= 0 then 0.0 else RowSum(r, cols - 1, f) + f(r, cols - 1)
  }

  /** The nested row-major loop: the sum of f over [0, rows) x [0, cols). */
  function GridSum(rows: int, cols: int, f: (int, int) -> real): real
    decreases rows
  {
    if rows <= 0 then 0.0 else GridSum(rows - 1, cols, f) + RowSum(rows - 1, cols, f)
  }

  /** The extent of interval `i`, Boundary(i+1) - Boundary(i), or 0 outside the axis. */
  function Width(d: seq<real>, i: int): real {
    if 0 <= i <= |d| then Boundary(d, i + 1) - Boundary(d, i) else 0.0
  }

  /** The area of cell (r, c) as a fraction of the unit square. */
  function CellArea(g: GridState, r: int, c: int): real {
    Width(g.horizontal, r) * Width(g.vertical, c)
  }

  function AreaFn(g: GridState): (int, int) -> real {
    (r: int, c: int) => CellArea(g, r, c)
  }

  /** Cells of an ordered grid have positive area. */
  lemma AreaPositive(g: GridState, r: int, c: int)
    requires Valid(g) && Ordered(g) && 0 <= r < g.rows && 0 <= c < g.cols
    ensures CellArea(g, r, c) > 0.0
  {
    BoundariesIncrease(g.horizontal, r, r + 1);
    BoundariesIncrease(g.vertical, c, c + 1);
    var a := Width(g.horizontal, r);
    var b := Width(g.vertical, c);
    PositiveProduct(a, b);
    assert a * b > 0.0;
    assert CellArea(g, r, c) == a * b;
  }

  lemma PositiveProduct(a: real, b: real)
    requires a > 0.0 && b > 0.0
    ensures a * b > 0.0
  {
  }

  lemma {:induction false} RowAreaSum(g: GridState, r: int, n: int)
    requires 0 <= n <= |g.vertical| + 1
    ensures RowSum(r, n, AreaFn(g)) == Width(g.horizontal, r) * Boundary(g.vertical, n)
    decreases n
  {
    if n > 0 {
      RowAreaSum(g, r, n - 1);
      var w := Width(g.horizontal, r);
      var lo := Boundary(g.vertical, n - 1);
      var hi := Boundary(g.vertical, n);
      assert AreaFn(g)(r, n - 1) == w * (hi - lo);
      assert w * lo + w * (hi - lo) == w * hi;
    }
  }

  lemma {:induction false} GridAreaSum(g: GridState, n: int)
    requires Valid(g) && 0 <= n <= g.rows
    ensures GridSum(n, g.cols, AreaFn(g)) == Boundary(g.horizontal, n)
    decreases n
  {
    if n > 0 {
      GridAreaSum(g, n - 1);
      RowAreaSum(g, n - 1, g.cols);
    }
  }

  /** `k` weighted by the area of cell (r, c). */
  function ScaledArea(g: GridState, k: real, r: int, c: int): real {
    k * CellArea(g, r, c)
  }

  function ScaledAreaFn(g: GridState, k: real): (int, int) -> real {
    (r: int, c: int) => ScaledArea(g, k, r, c)
  }

  /** Weighting a constant k by the cell areas of a valid grid gives back k. */
  lemma ScaledAreaSum(g: GridState, k: real)
    requires Valid(g)
    ensures GridSum(g.rows, g.cols, ScaledAreaFn(g, k)) == k
  {
    GridSumLinear(g.rows, g.cols, ScaledAreaFn(g, k), AreaFn(g), k);
    AreasSumToOne(g);
  }

  /** A sum whose every term lies between lo and hi times the cell's area lies between lo and hi. */
  lemma GridSumBetween(g: GridState, f: (int, int) -> real, lo: real, hi: real)
    requires Valid(g)
    requires forall r, c :: 0 <= r < g.rows && 0 <= c < g.cols ==> ScaledAreaFn(g, lo)(r, c) <= f(r, c)
    requires forall r, c :: 0 <= r < g.rows && 0 <= c < g.cols ==> f(r, c) <= ScaledAreaFn(g, hi)(r, c)
    ensures lo <= GridSum(g.rows, g.cols, f) <= hi
  {
    GridSumMono(g.rows, g.cols, ScaledAreaFn(g, lo), f);
    GridSumMono(g.rows, g.cols, f, ScaledAreaFn(g, hi));
    ScaledAreaSum(g, lo);
    ScaledAreaSum(g, hi);
  }

  /** Whatever the divider positions, the cell areas of a valid grid telescope to 1. */
  lemma AreasSumToOne(g: GridState)
    requires Valid(g)
    ensures GridSum(g.rows, g.cols, AreaFn(g)) == 1.0
  {
    GridAreaSum(g, g.rows);
  }

  // ---------------------------------------------------------------------------
  // Generic facts about GridSum, stated pointwise over the cells

  lemma {:induction false} RowSumLinear(r: int, cols: int, f: (int, int) -> real, h: (int, int) -> real, k: real)
    requires forall c :: 0 <= c < cols ==> f(r, c) == k * h(r, c)
    ensures RowSum(r, cols, f) == k * RowSum(r, cols, h)
    decreases cols
  {
    if cols > 0 {
      RowSumLinear(r, cols - 1, f, h, k);
    }
  }

  /** A cellwise scaling by `k` scales the sum by `k`. */
  lemma {:induction false} GridSumLinear(rows: int, cols: int, f: (int, int) -> real, h: (int, int) -> real, k: real)
    requires forall r, c :: 0 <= r < rows && 0 <= c < cols ==> f(r, c) == k * h(r, c)
    ensures GridSum(rows, cols, f) == k * GridSum(rows, cols, h)
    decreases rows
  {
    if rows > 0 {
      GridSumLinear(rows - 1, cols, f, h, k);
      RowSumLinear(rows - 1, cols, f, h, k);
    }
  }

  lemma {:induction false} RowSumMono(r: int, cols: int, f: (int, int) -> real, h: (int, int) -> real)
    requires forall c :: 0 <= c < cols ==> f(r, c) <= h(r, c)
    ensures RowSum(r, cols, f) <= RowSum(r, cols, h)
    decreases cols
  {
    if cols > 0 {
      RowSumMono(r, cols - 1, f, h);
    }
  }

  /** A cellwise smaller summand gives a smaller sum. */
  lemma {:induction false} GridSumMono(rows: int, cols: int, f: (int, int) -> real, h: (int, int) -> real)
    requires forall r, c :: 0 <= r < rows && 0 <= c < cols ==> f(r, c) <= h(r, c)
    ensures GridSum(rows, cols, f) <= GridSum(rows, cols, h)
    decreases rows
  {
    if rows > 0 {
      GridSumMono(rows - 1, cols, f, h);
      RowSumMono(rows - 1, cols, f, h);
    }
  }

  /** Summands that agree on every cell give the same sum. */
  lemma GridSumCongruent(rows: int, cols: int, f: (int, int) -> real, h: (int, int) -> real)
    requires forall r, c :: 0 <= r < rows && 0 <= c < cols ==> f(r, c) == h(r, c)
    ensures GridSum(rows, cols, f) == GridSum(rows, cols, h)
  {
    GridSumLinear(rows, cols, f, h, 1.0);
  }

  lemma {:induction false} RowSumZero(r: int, cols: int, f: (int, int) -> real)
    requires forall c :: 0 <= c < cols ==> f(r, c) == 0.0
    ensures RowSum(r, cols, f) == 0.0
    decreases cols
  {
    if cols > 0 {
      RowSumZero(r, cols - 1, f);
    }
  }

  lemma {:induction false} RowSumPoint(r: int, cols: int, f: (int, int) -> real, c0: int)
    requires 0 <= c0 < cols
    requires forall c :: 0 <= c < cols && c != c0 ==> f(r, c) == 0.0
    ensures RowSum(r, cols, f) == f(r, c0)
    decreases cols
  {
    if c0 == cols - 1 {
      RowSumZero(r, cols - 1, f);
    } else {
      RowSumPoint(r, cols - 1, f, c0);
    }
  }

  lemma {:induction false} GridSumZero(rows: int, cols: int, f: (int, int) -> real)
    requires forall r, c :: 0 <= r < rows && 0 <= c < cols ==> f(r, c) == 0.0
    ensures GridSum(rows, cols, f) == 0.0
    decreases rows
  {
    if rows > 0 {
      GridSumZero(rows - 1, cols, f);
      RowSumZero(rows - 1, cols, f);
    }
  }

  /** A summand that vanishes outside one cell sums to its value at that cell. */
  lemma {:induction false} GridSumPoint(rows: int, cols: int, f: (int, int) -> real, r0: int, c0: int)
    requires 0 <= r0 < rows && 0 <= c0 < cols
    requires forall r, c :: 0 <= r < rows && 0 <= c < cols && (r != r0 || c != c0) ==> f(r, c) == 0.0
    ensures GridSum(rows, cols, f) == f(r0, c0)
    decreases rows
  {
    if r0 == rows - 1 {
      GridSumZero(rows - 1, cols, f);
      RowSumPoint(rows - 1, cols, f, c0);
    } else {
      GridSumPoint(rows - 1, cols, f, r0, c0);
      RowSumZero(rows - 1, cols, f);
    }
  }

  lemma {:induction false} RowSumNonNeg(r: int, cols: int, f: (int, int) -> real)
    requires forall c :: 0 <= c < cols ==> f(r, c) >= 0.0
    ensures RowSum(r, cols, f) >= 0.0
    decreases cols
  {
    if cols > 0 {
      RowSumNonNeg(r, cols - 1, f);
    }
  }

  lemma {:induction false} RowSumAtLeastPoint(r: int, cols: int, f: (int, int) -> real, c0: int)
    requires 0 <= c0 < cols
    requires forall c :: 0 <= c < cols ==> f(r, c) >= 0.0
    ensures RowSum(r, cols, f) >= f(r, c0)
    decreases cols
  {
    if c0 == cols - 1 {
      RowSumNonNeg(r, cols - 1, f);
    } else {
      RowSumAtLeastPoint(r, cols - 1, f, c0);
    }
  }

  lemma {:induction false} GridSumNonNeg(rows: int, cols: int, f: (int, int) -> real)
    requires forall r, c :: 0 <= r < rows && 0 <= c < cols ==> f(r, c) >= 0.0
    ensures GridSum(rows, cols, f) >= 0.0
    decreases rows
  {
    if rows > 0 {
      GridSumNonNeg(rows - 1, cols, f);
      RowSumNonNeg(rows - 1, cols, f);
    }
  }

  /** A non-negative summand sums to at least its value at any one cell. */
  lemma {:induction false} GridSumAtLeastPoint(rows: int, cols: int, f: (int, int) -> real, r0: int, c0: int)
    requires 0 <= r0 < rows && 0 <= c0 < cols
    requires forall r, c :: 0 <= r < rows && 0 <= c < cols ==> f(r, c) >= 0.0
    ensures GridSum(rows, cols, f) >= f(r0, c0)
    decreases rows
  {
    if r0 == rows - 1 {
      GridSumNonNeg(rows - 1, cols, f);
      RowSumAtLeastPoint(rows - 1, cols, f, c0);
    } else {
      GridSumAtLeastPoint(rows - 1, cols, f, r0, c0);
      RowSumNonNeg(rows - 1, cols, f);
    }
  }
}

=== FILE: heatmap.dfy ===
/**
 * The orchestration of src/heatmap/HeatmapService.js: how the rows of the
 * error surface are split between workers, how their answers are merged
 * back, when the heatmap is drawn or recomputed on one thread, and the guard
 * and baseline of `showErrorHeatmap`. Workers are not run: a worker's answer
 * is a value, and the order in which answers arrive is a sequence of events.
 */
module Heatmap {
  import opened Wrappers
  import opened Data
  import opened Stats
  import opened Surface
  import opened Grid

  /** The resolution `showErrorHeatmap` asks for. */
  const FullResolution: int := 1000

  /** The resolution of the single-threaded fallback. */
  const FallbackResolution: int := 500

  /** The worker count used when `navigator.hardwareConcurrency` is missing or 0. */
  const DefaultConcurrency: int := 4

  /** The upper bound on the worker count. */
  const WorkerCap: int := 24

  // ---------------------------------------------------------------------------
  // Splitting the rows

  /** `Math.min` on integers. */
  function MinInt(a: int, b: int): (r: int)
    ensures r <= a && r <= b
    ensures r == a || r == b
  {
    if a <= b then a else b
  }

  /** `navigator.hardwareConcurrency || 4`; 0 stands for a missing value as well as for 0. */
  function Concurrency(hc: nat): (c: int)
    ensures c >= 1
    ensures hc > 0 ==> c == hc
    ensures hc == 0 ==> c == DefaultConcurrency
  {
    if hc == 0 then DefaultConcurrency else hc
  }

  /** `numWorkers = Math.min(Math.min(hc || 4, 24), resolution)`: the smallest of the three. */
  function NumWorkers(hc: nat, res: int): (n: int)
    requires res > 0
    ensures 1 <= n
    ensures n <= Concurrency(hc) && n <= WorkerCap && n <= res
    ensures n == Concurrency(hc) || n == WorkerCap || n == res
  {
    MinInt(MinInt(Concurrency(hc), WorkerCap), res)
  }

  /** `Math.ceil(a / b)` on a non-negative integer `a` and a positive `b`. */
  function CeilDiv(a: int, b: int): (q: int)
    requires a >= 0 && b >= 1
    ensures (q - 1) * b < a <= q * b
  {
    var q := (a + b - 1) / b;
    var m := (a + b - 1) % b;
    assert a + b - 1 == q * b + m && 0 <= m < b;
    assert q * b == a + (b - 1 - m);
    assert (q - 1) * b == q * b - b;
    q
  }

  /** The ceiling is unique: at most one q has (q - 1) * b < a <= q * b. */
  lemma CeilUnique(a: int, b: int, p: int, q: int)
    requires b >= 1
    requires (p - 1) * b < a <= p * b
    requires (q - 1) * b < a <= q * b
    ensures p == q
  {
    if p < q {
      MulMono(p, q - 1, b);
    } else if q < p {
      MulMono(q, p - 1, b);
    }
  }

  /** Multiplying by a non-negative factor keeps the order; used for row offsets k * rowsPerWorker. */
  lemma MulMono(x: int, y: int, b: int)
    requires x <= y && b >= 0
    ensures x * b <= y * b
  {
    assert y * b - x * b == (y - x) * b;
  }

  /** `rowsPerWorker = Math.ceil(resolution / numWorkers)`. */
  function RowsPerWorker(res: int, nw: int): (rpw: int)
    requires res > 0 && nw >= 1
    ensures rpw >= 1
    ensures (rpw - 1) * nw < res <= rpw * nw
  {
    var q := CeilDiv(res, nw);
    assert q >= 1 by { if q < 1 { MulMono(q, 0, nw); } }
    q
  }

  /** The rows `[startRow, endRow)` handed to worker `k`. */
  datatype Range = Range(startRow: int, endRow: int)

  /** Worker k's range: `startRow = k * rowsPerWorker`, `endRow = Math.min(startRow + rowsPerWorker, resolution)`. */
  function RangeOf(res: int, rpw: int, k: int): (r: Range)
    ensures r.startRow == k * rpw
    ensures r.endRow <= res && r.endRow <= r.startRow + rpw
    ensures r.endRow == res || r.endRow == r.startRow + rpw
  {
    Range(k * rpw, MinInt(k * rpw + rpw, res))
  }

  /**
   * How many workers the spawning loop starts: one per range until
   * `numWorkers` have started or a range would start at or past the last row.
   */
  function SpawnCount(res: int, nw: int, rpw: int): (n: int)
    requires res > 0 && nw >= 1 && rpw >= 1
    ensures 1 <= n <= nw
  {
    var c := CeilDiv(res, rpw);
    assert c >= 1 by { if c < 1 { MulMono(c, 0, rpw); } }
    MinInt(nw, c)
  }

  /**
   * The spawning loop of `calculateHeatmapParallel`: for each worker index,
   * compute its range and stop at the first one that starts at or after the
   * last row. The ranges it starts are exactly the first `SpawnCount` ones.
   */
  method Spawn(res: int, nw: int, rpw: int) returns (ranges: seq<Range>)
    requires res > 0 && nw >= 1 && rpw >= 1
    ensures |ranges| == SpawnCount(res, nw, rpw)
    ensures forall k :: 0 <= k < |ranges| ==> ranges[k] == RangeOf(res, rpw, k)
    ensures forall k :: 0 <= k < |ranges| ==> ranges[k].startRow < res
  {
    ranges := [];
    var w := 0;
    while w < nw
      invariant 0 <= w <= nw && |ranges| == w
      invariant forall k :: 0 <= k < w ==> ranges[k] == RangeOf(res, rpw, k)
      invariant forall k :: 0 <= k < w ==> ranges[k].startRow < res
      invariant w > 0 ==> (w - 1) * rpw < res
    {
      var startRow := w * rpw;
      var endRow := MinInt(startRow + rpw, res);
      if startRow >= res {
        break;
      }
      ranges := ranges + [Range(startRow, endRow)];
      w := w + 1;
    }
    StopsAtSpawnCount(res, nw, rpw, w);
  }

  /**
   * The loop stops after `w` workers exactly when `w` is the spawn count:
   * every earlier range started before the last row, and either all `nw`
   * have started or range `w` would not.
   */
  lemma StopsAtSpawnCount(res: int, nw: int, rpw: int, w: int)
    requires res > 0 && nw >= 1 && rpw >= 1 && 0 <= w <= nw
    requires w == 0 || (w - 1) * rpw < res
    requires w == nw || w * rpw >= res
    ensures w == SpawnCount(res, nw, rpw)
  {
    var c := CeilDiv(res, rpw);
    if w == 0 {
      MulMono(w, 0, rpw);
    } else {
      if w > c {
        MulMono(c, w - 1, rpw);
      }
      if w < nw && w < c {
        MulMono(w, c - 1, rpw);
      }
    }
  }

  /** Range k starts before the last row exactly when k is one of the spawned workers. */
  lemma SpawnedIff(res: int, nw: int, rpw: int, k: int)
    requires res > 0 && nw >= 1 && rpw >= 1 && 0 <= k < nw
    ensures k < SpawnCount(res, nw, rpw) <==> k * rpw < res
  {
    var c := CeilDiv(res, rpw);
    if k < c {
      MulMono(k, c - 1, rpw);
    } else {
      MulMono(c, k, rpw);
    }
  }

  /** Every spawned range is non-empty, and each one ends where the next begins. */
  lemma SpawnedContiguous(res: int, nw: int, rpw: int, k: int)
    requires res > 0 && nw >= 1 && rpw >= 1 && 0 <= k < SpawnCount(res, nw, rpw)
    ensures RangeOf(res, rpw, k).startRow < RangeOf(res, rpw, k).endRow
    ensures k + 1 < SpawnCount(res, nw, rpw) ==> RangeOf(res, rpw, k).endRow == RangeOf(res, rpw, k + 1).startRow
  {
    SpawnedIff(res, nw, rpw, k);
    if k + 1 < SpawnCount(res, nw, rpw) {
      SpawnedIff(res, nw, rpw, k + 1);
      assert (k + 1) * rpw == k * rpw + rpw;
    }
  }

  /** Integer division rounds down: q * b <= r < q * b + b for q = r / b. */
  lemma DivBounds(r: int, b: int)
    requires r >= 0 && b >= 1
    ensures (r / b) * b <= r < (r / b) * b + b
  {
    var q := r / b;
    var m := r % b;
    assert r == q * b + m;
  }

  /**
   * Row r (0 <= r < resolution) belongs to the spawned range number r / rpw
   * and to no other spawned range.
   */
  lemma RowOwner(res: int, nw: int, rpw: int, r: int, k: int)
    requires res > 0 && nw >= 1 && rpw >= 1 && 0 <= r < res
    requires 0 <= k < SpawnCount(res, nw, rpw)
    ensures RangeOf(res, rpw, k).startRow <= r < RangeOf(res, rpw, k).endRow <==> k == r / rpw
  {
    var q := r / rpw;
    DivBounds(r, rpw);
    var range := RangeOf(res, rpw, k);
    if range.startRow <= r < range.endRow {
      OnlyOwner(r, rpw, k, q);
    }
  }

  /** If k * b <= r < k * b + b and q * b <= r < q * b + b, then k == q. */
  lemma OnlyOwner(r: int, b: int, k: int, q: int)
    requires b >= 1
    requires k * b <= r < k * b + b
    requires q * b <= r < q * b + b
    ensures k == q
  {
    assert (k + 1) * b == k * b + b;
    assert (q + 1) * b == q * b + b;
    if k < q {
      MulMono(k + 1, q, b);
    } else if q < k {
      MulMono(q + 1, k, b);
    }
  }

  /**
   * When the ranges are at least ceil(resolution / numWorkers) rows long,
   * the owner r / rpw of every row is one of the spawned workers.
   */
  lemma OwnerSpawned(res: int, nw: int, rpw: int, r: int)
    requires res > 0 && nw >= 1 && rpw >= 1 && res <= rpw * nw && 0 <= r < res
    ensures 0 <= r / rpw < SpawnCount(res, nw, rpw)
  {
    var q := r / rpw;
    DivBounds(r, rpw);
    assert rpw * nw == nw * rpw;
    if q >= nw {
      MulMono(nw, q, rpw);
    }
    SpawnedIff(res, nw, rpw, q);
  }

  /**
   * The ranges of `calculateHeatmapParallel` partition the rows: row r lies
   * in the spawned range number r / rpw and in no other.
   */
  lemma RangesPartitionRows(hc: nat, res: int, r: int)
    requires res > 0 && 0 <= r < res
    ensures var nw := NumWorkers(hc, res);
      var rpw := RowsPerWorker(res, nw);
      && 0 <= r / rpw < SpawnCount(res, nw, rpw)
      && forall k | 0 <= k < SpawnCount(res, nw, rpw) ::
           RangeOf(res, rpw, k).startRow <= r < RangeOf(res, rpw, k).endRow <==> k == r / rpw
  {
    var nw := NumWorkers(hc, res);
    var rpw := RowsPerWorker(res, nw);
    OwnerSpawned(res, nw, rpw, r);
    forall k | 0 <= k < SpawnCount(res, nw, rpw)
      ensures RangeOf(res, rpw, k).startRow <= r < RangeOf(res, rpw, k).endRow <==> k == r / rpw
    {
      RowOwner(res, nw, rpw, r, k);
    }
  }

  /** The first spawned range starts at row 0 and the last one ends at the last row. */
  lemma SpawnedCoverAll(res: int, nw: int, rpw: int)
    requires res > 0 && nw >= 1 && rpw >= 1 && res <= rpw * nw
    ensures RangeOf(res, rpw, 0).startRow == 0
    ensures RangeOf(res, rpw, SpawnCount(res, nw, rpw) - 1).endRow == res
  {
    var n := SpawnCount(res, nw, rpw);
    var q := (res - 1) / rpw;
    OwnerSpawned(res, nw, rpw, res - 1);
    LastOwner(res, nw, rpw, q);
    assert RangeOf(res, rpw, q).endRow == res;
  }

  /** The owner q of the last row is the last spawned worker, and its range ends at the last row. */
  lemma LastOwner(res: int, nw: int, rpw: int, q: int)
    requires res > 0 && nw >= 1 && rpw >= 1
    requires q == (res - 1) / rpw && 0 <= q < SpawnCount(res, nw, rpw)
    ensures q == SpawnCount(res, nw, rpw) - 1
    ensures q * rpw + rpw >= res
  {
    DivBounds(res - 1, rpw);
    var next := q * rpw + rpw;
    assert (q + 1) * rpw == next;
    if q < SpawnCount(res, nw, rpw) - 1 {
      SpawnedIff(res, nw, rpw, q + 1);
    }
  }

  /**
   * When `resolution >= numWorkers * (numWorkers - 1)`, every one of the
   * `numWorkers` workers is spawned, so the completion counter can reach
   * `numWorkers`.
   */
  lemma AllSpawnedWhenWide(res: int, nw: int)
    requires res > 0 && nw >= 1 && nw * (nw - 1) <= res
    ensures SpawnCount(res, nw, RowsPerWorker(res, nw)) == nw
  {
    var rpw := RowsPerWorker(res, nw);
    if nw > 1 {
      var last := (nw - 1) * rpw;
      LastStartBelow(res, nw, rpw);
      SpawnedIff(res, nw, rpw, nw - 1);
    }
  }

  /** The arithmetic behind AllSpawnedWhenWide: (nw - 1) * rpw < res. */
  lemma LastStartBelow(res: int, nw: int, rpw: int)
    requires res > 0 && nw > 1 && nw * (nw - 1) <= res
    requires (rpw - 1) * nw < res
    ensures (nw - 1) * rpw < res
  {
    var a := nw - 1;
    // rpw * nw < res + nw, so a * rpw * nw < a * res + a * nw <= a * res + res = nw * res.
    assert rpw * nw < res + nw;
    MulStrict(a, rpw * nw, res + nw);
    assert a * (res + nw) == a * res + nw * (nw - 1);
    assert (a * rpw) * nw < res * nw;
    if a * rpw >= res {
      MulMono(res, a * rpw, nw);
    }
  }

  /** Multiplying by a positive factor keeps a strict order; used to separate worker ranges. */
  lemma MulStrict(a: int, x: int, y: int)
    requires a >= 1 && x < y
    ensures a * x < a * y
  {
    assert a * y - a * x == a * (y - x);
  }

  /** At the resolution `showErrorHeatmap` uses, every worker is spawned, whatever the hardware. */
  lemma FullResolutionSpawnsAll(hc: nat)
    ensures var nw := NumWorkers(hc, FullResolution);
      SpawnCount(FullResolution, nw, RowsPerWorker(FullResolution, nw)) == nw
  {
    var nw := NumWorkers(hc, FullResolution);
    assert nw * (nw - 1) <= 24 * 23 by {
      MulMono(nw, 24, nw - 1);
      MulMono(nw - 1, 23, 24);
      assert 24 * (nw - 1) == (nw - 1) * 24;
    }
    AllSpawnedWhenWide(FullResolution, nw);
  }

  /**
   * At resolution 5 on a machine reporting 4 cores, `numWorkers` is 4 but
   * `rowsPerWorker` is 2, so range 3 would start at row 6 and only 3 workers
   * are spawned.
   */
  lemma FewerSpawned()
    ensures NumWorkers(4, 5) == 4
    ensures RowsPerWorker(5, 4) == 2
    ensures SpawnCount(5, 4, 2) == 3
  {
    CeilUnique(5, 4, RowsPerWorker(5, 4), 2);
    CeilUnique(5, 2, CeilDiv(5, 2), 3);
  }

  // ---------------------------------------------------------------------------
  // Merging the bounds of the workers

  /** The null-skipping `Math.min` of two bounds; None stands for `Infinity`. */
  function MinOpt(a: Option<real>, b: Option<real>): (r: Option<real>)
    ensures r.None? <==> a.None? && b.None?
    ensures r == a || r == b
    ensures r.Some? && a.Some? ==> r.value <= a.value
    ensures r.Some? && b.Some? ==> r.value <= b.value
  {
    if a.None? then b else if b.None? then a else Some(Min(a.value, b.value))
  }

  /** The null-skipping `Math.max` of two bounds; None stands for `-Infinity`. */
  function MaxOpt(a: Option<real>, b: Option<real>): (r: Option<real>)
    ensures r.None? <==> a.None? && b.None?
    ensures r == a || r == b
    ensures r.Some? && a.Some? ==> a.value <= r.value
    ensures r.Some? && b.Some? ==> b.value <= r.value
  {
    if a.None? then b else if b.None? then a else Some(Max(a.value, b.value))
  }

  /** One worker's `minError` and `maxError` merged into the global ones. */
  function Merge(a: Bounds, b: Bounds): Bounds {
    Bounds(MinOpt(a.lo, b.lo), MaxOpt(a.hi, b.hi))
  }

  /** The bounds of a single value. */
  function Point(e: real): Bounds {
    Bounds(Some(e), Some(e))
  }

  lemma MergeCommutes(a: Bounds, b: Bounds)
    ensures Merge(a, b) == Merge(b, a)
  {
  }

  lemma MergeAssociates(a: Bounds, b: Bounds, c: Bounds)
    ensures Merge(Merge(a, b), c) == Merge(a, Merge(b, c))
  {
  }

  lemma MergeNoBounds(a: Bounds)
    ensures Merge(a, NoBounds) == a && Merge(NoBounds, a) == a
  {
  }

  /** The worker's update with one error is a merge with that error's bounds. */
  lemma IncludeIsMerge(b: Bounds, e: real)
    ensures Include(b, e) == Merge(b, Point(e))
  {
  }

  /**
   * Merging the bounds of two stretches of entries gives the bounds of the
   * stretches one after the other: the global bounds do not depend on how
   * the rows were split.
   */
  lemma {:induction false} MergeFoldBounds(a: seq<Option<real>>, b: seq<Option<real>>)
    ensures Merge(FoldBounds(a), FoldBounds(b)) == FoldBounds(a + b)
    decreases |b|
  {
    if |b| == 0 {
      assert a + b == a;
      MergeNoBounds(FoldBounds(a));
    } else {
      var init := b[..|b| - 1];
      var e := b[|b| - 1];
      assert b == init + [e];
      assert a + b == (a + init) + [e];
      MergeFoldBounds(a, init);
      FoldBoundsSnoc(a + init, e);
      FoldBoundsSnoc(init, e);
      if e.Some? {
        IncludeIsMerge(FoldBounds(init), e.value);
        IncludeIsMerge(FoldBounds(a + init), e.value);
        MergeAssociates(FoldBounds(a), FoldBounds(init), Point(e.value));
      }
    }
  }

  /** The bounds a settled event contributes: a failure contributes none. */
  function BoundsOf(ev: Settled): Bounds {
    if ev.Posted? then ev.bounds else NoBounds
  }

  /** The global bounds after the events of `s`, merged in arrival order. */
  function Combined(s: seq<Settled>): Bounds
    decreases |s|
  {
    if |s| == 0 then NoBounds else Merge(Combined(s[..|s| - 1]), BoundsOf(s[|s| - 1]))
  }

  /** Any one event can be merged last. */
  lemma {:induction false} CombinedRemove(s: seq<Settled>, i: int)
    requires 0 <= i < |s|
    ensures Combined(s) == Merge(Combined(s[..i] + s[i + 1..]), BoundsOf(s[i]))
    decreases |s|
  {
    var init := s[..|s| - 1];
    if i < |s| - 1 {
      var last := s[|s| - 1];
      CombinedRemove(init, i);
      var rest := init[..i] + init[i + 1..];
      assert s[..i] + s[i + 1..] == rest + [last];
      assert (rest + [last])[..|rest|] == rest;
      MergeAssociates(Combined(rest), BoundsOf(s[i]), BoundsOf(last));
      MergeCommutes(BoundsOf(s[i]), BoundsOf(last));
      MergeAssociates(Combined(rest), BoundsOf(last), BoundsOf(s[i]));
    } else {
      assert s[..i] + s[i + 1..] == init;
    }
  }

  /** Taking out the element at `i` takes one copy of it out of the multiset. */
  lemma MultisetRemove<T>(q: seq<T>, i: int)
    requires 0 <= i < |q|
    ensures multiset(q) == multiset(q[..i] + q[i + 1..]) + multiset{q[i]}
  {
    assert q == q[..i] + [q[i]] + q[i + 1..];
  }

  /** Removing one common element from two equal multisets leaves them equal; used for arrival orders. */
  lemma MultisetCancel<T>(a: multiset<T>, b: multiset<T>, x: T)
    requires a + multiset{x} == b + multiset{x}
    ensures a == b
  {
    assert a == (a + multiset{x}) - multiset{x};
    assert b == (b + multiset{x}) - multiset{x};
  }

  /** The global bounds do not depend on the order in which the workers answer. */
  lemma {:induction false} CombinedPermutation(p: seq<Settled>, q: seq<Settled>)
    requires multiset(p) == multiset(q)
    ensures Combined(p) == Combined(q)
    decreases |p|
  {
    if |p| > 0 {
      var n := |p| - 1;
      var last := p[n];
      assert last in multiset(q) by {
        assert last in multiset(p);
      }
      var i :| 0 <= i < |q| && q[i] == last;
      var rest := q[..i] + q[i + 1..];
      MultisetRemove(p, n);
      MultisetRemove(q, i);
      assert p[..n] + p[n + 1..] == p[..n];
      MultisetCancel(multiset(p[..n]), multiset(rest), last);
      CombinedPermutation(p[..n], rest);
      CombinedRemove(q, i);
    } else {
      assert |multiset(q)| == 0;
    }
  }

  // ---------------------------------------------------------------------------
  // Settling

  /** How a worker settles: `onmessage` with its answer, or `onerror`. */
  datatype Settled = Posted(startRow: int, errors: seq<seq<Option<real>>>, bounds: Bounds) | Failed

  /** What the page does once the counter is reached: still waiting, draws the heatmap, or recomputes it on one thread. */
  datatype Outcome = Waiting | Drawn | FellBack

  /** `completedWorkers`, `allErrors` (rows never written are missing keys), the global bounds, and the outcome. */
  datatype Progress = Progress(completed: int, rows: map<int, seq<Option<real>>>, bounds: Bounds, outcome: Outcome)

  const Initial: Progress := Progress(0, map[], NoBounds, Waiting)

  /** `allErrors[sRow + i] = errors[i]` for every row the worker sent. */
  function Write(rows: map<int, seq<Option<real>>>, startRow: int, errors: seq<seq<Option<real>>>): (r: map<int, seq<Option<real>>>)
    ensures forall i :: startRow <= i < startRow + |errors| ==> i in r && r[i] == errors[i - startRow]
    ensures forall i :: !(startRow <= i < startRow + |errors|) ==> (i in r <==> i in rows)
    ensures forall i :: !(startRow <= i < startRow + |errors|) && i in rows ==> r[i] == rows[i]
    decreases |errors|
  {
    if |errors| == 0 then rows
    else
      var n := |errors| - 1;
      var before := Write(rows, startRow, errors[..n]);
      assert forall i :: 0 <= i < n ==> errors[..n][i] == errors[i];
      before[startRow + n := errors[n]]
  }

  /**
   * One settle event (`onmessage` or `onerror`): count it, keep the rows and
   * bounds of an answer, and act when the counter reaches `target`: draw
   * after an answer, fall back after a failure.
   */
  function Settle(p: Progress, ev: Settled, target: int): (q: Progress)
    ensures q.completed == p.completed + 1
    ensures q.bounds == Merge(p.bounds, BoundsOf(ev))
    ensures q.completed != target ==> q.outcome == p.outcome
    ensures q.completed == target ==> q.outcome == (if ev.Posted? then Drawn else FellBack)
  {
    var done := p.completed + 1;
    match ev
    case Posted(startRow, errors, b) =>
      Progress(done, Write(p.rows, startRow, errors), Merge(p.bounds, b), if done == target then Drawn else p.outcome)
    case Failed =>
      Progress(done, p.rows, p.bounds, if done == target then FellBack else p.outcome)
  }

  /** The page after the events of `events`, in arrival order. */
  function SettleAll(events: seq<Settled>, target: int): Progress
    decreases |events|
  {
    if |events| == 0 then Initial else Settle(SettleAll(events[..|events| - 1], target), events[|events| - 1], target)
  }

  /**
   * The outcome after `events` when at most `target` events arrive: waiting
   * until the counter reaches the target, then decided by the kind of the
   * event that reached it alone, the last one to settle. A failure of that
   * one worker triggers the single-threaded recomputation even when every
   * other worker answered.
   */
  lemma {:induction false} SettleOutcome(events: seq<Settled>, target: int)
    requires 1 <= target && |events| <= target
    ensures SettleAll(events, target).completed == |events|
    ensures SettleAll(events, target).outcome ==
      if |events| < target then Waiting
      else if events[|events| - 1].Posted? then Drawn else FellBack
    decreases |events|
  {
    if |events| > 0 {
      SettleOutcome(events[..|events| - 1], target);
    }
  }

  /** The global bounds after the events are the merge of every answer's bounds. */
  lemma {:induction false} SettledBounds(events: seq<Settled>, target: int)
    ensures SettleAll(events, target).bounds == Combined(events)
    decreases |events|
  {
    if |events| > 0 {
      SettledBounds(events[..|events| - 1], target);
    }
  }

  // ---------------------------------------------------------------------------
  // Reassembling the rows

  /** Event `ev` carries row r. */
  predicate Covers(ev: Settled, r: int) {
    ev.Posted? && ev.startRow <= r < ev.startRow + |ev.errors|
  }

  /** No row is carried by two different events. */
  ghost predicate Disjoint(events: seq<Settled>) {
    forall j, k, r :: 0 <= j < k < |events| && Covers(events[j], r) ==> !Covers(events[k], r)
  }

  /** Every row an event carries is row `f(r)` of some fixed surface `f`. */
  predicate Agrees(ev: Settled, f: int -> seq<Option<real>>) {
    ev.Posted? ==> forall i :: 0 <= i < |ev.errors| ==> ev.errors[i] == f(ev.startRow + i)
  }

  /** Row r is filled in exactly when some answer carried it. */
  lemma {:induction false} SettledKeys(events: seq<Settled>, target: int)
    ensures forall r :: r in SettleAll(events, target).rows <==> exists k :: 0 <= k < |events| && Covers(events[k], r)
    decreases |events|
  {
    if |events| > 0 {
      var n := |events| - 1;
      SettledKeys(events[..n], target);
      forall r
        ensures r in SettleAll(events, target).rows <==> exists k :: 0 <= k < |events| && Covers(events[k], r)
      {
        if exists k :: 0 <= k < n && Covers(events[..n][k], r) {
          var k :| 0 <= k < n && Covers(events[..n][k], r);
          assert Covers(events[k], r);
        }
        if exists k :: 0 <= k < |events| && Covers(events[k], r) {
          var k :| 0 <= k < |events| && Covers(events[k], r);
          if k < n {
            assert Covers(events[..n][k], r);
          }
        }
      }
    }
  }

  /** The rows an event leaves in `rows`: an answer writes its own, a failure writes nothing. */
  function Apply(rows: map<int, seq<Option<real>>>, ev: Settled): map<int, seq<Option<real>>> {
    if ev.Posted? then Write(rows, ev.startRow, ev.errors) else rows
  }

  /** An event that does not carry row r leaves it as it was. */
  lemma ApplyKeeps(rows: map<int, seq<Option<real>>>, ev: Settled, r: int)
    requires r in rows && !Covers(ev, r)
    ensures r in Apply(rows, ev) && Apply(rows, ev)[r] == rows[r]
  {
  }

  /** An event that carries row r leaves its own copy there. */
  lemma ApplyCarries(rows: map<int, seq<Option<real>>>, ev: Settled, r: int)
    requires Covers(ev, r)
    ensures r in Apply(rows, ev) && Apply(rows, ev)[r] == ev.errors[r - ev.startRow]
  {
  }

  lemma DisjointPrefix(events: seq<Settled>, n: int)
    requires Disjoint(events) && 0 <= n <= |events|
    ensures Disjoint(events[..n])
  {
    var init := events[..n];
    forall j, k, r | 0 <= j < k < |init| && Covers(init[j], r)
      ensures !Covers(init[k], r)
    {
      assert Covers(events[j], r);
    }
  }

  /** With disjoint answers, row r holds what the answer that carried it sent. */
  lemma {:induction false} SettledRows(events: seq<Settled>, target: int)
    requires Disjoint(events)
    ensures forall k, r :: 0 <= k < |events| && Covers(events[k], r) ==>
      r in SettleAll(events, target).rows && SettleAll(events, target).rows[r] == events[k].errors[r - events[k].startRow]
    decreases |events|
  {
    if |events| > 0 {
      var n := |events| - 1;
      var init := events[..n];
      DisjointPrefix(events, n);
      SettledRows(init, target);
      var before := SettleAll(init, target).rows;
      var ev := events[n];
      assert SettleAll(events, target).rows == Apply(before, ev);
      forall k, r | 0 <= k < |events| && Covers(events[k], r)
        ensures r in Apply(before, ev) && Apply(before, ev)[r] == events[k].errors[r - events[k].startRow]
      {
        if k < n {
          assert init[k] == events[k];
          ApplyKeeps(before, ev, r);
        } else {
          ApplyCarries(before, ev, r);
        }
      }
    }
  }

  /**
   * When the answers carry disjoint rows, the reassembled matrix is the same
   * for every order in which they arrive.
   */
  lemma RowsPermutation(p: seq<Settled>, q: seq<Settled>, target: int)
    requires multiset(p) == multiset(q) && Disjoint(p) && Disjoint(q)
    ensures SettleAll(p, target).rows == SettleAll(q, target).rows
  {
    var P := SettleAll(p, target).rows;
    var Q := SettleAll(q, target).rows;
    SettledKeys(p, target);
    SettledKeys(q, target);
    SettledRows(p, target);
    SettledRows(q, target);
    forall r | r in P
      ensures r in Q && Q[r] == P[r]
    {
      var k :| 0 <= k < |p| && Covers(p[k], r);
      assert p[k] in multiset(q);
      var k' :| 0 <= k' < |q| && q[k'] == p[k];
    }
    forall r | r in Q
      ensures r in P
    {
      var k :| 0 <= k < |q| && Covers(q[k], r);
      assert q[k] in multiset(p);
      var k' :| 0 <= k' < |p| && p[k'] == q[k];
    }
    assert P.Keys == Q.Keys;
  }

  /** When every answer agrees with one surface `f`, every filled-in row is the row of `f`, whatever the order. */
  lemma {:induction false} SettledRowsAgree(events: seq<Settled>, target: int, f: int -> seq<Option<real>>)
    requires forall k :: 0 <= k < |events| ==> Agrees(events[k], f)
    ensures forall r :: r in SettleAll(events, target).rows ==> SettleAll(events, target).rows[r] == f(r)
    decreases |events|
  {
    if |events| > 0 {
      var n := |events| - 1;
      var init := events[..n];
      assert forall k :: 0 <= k < |init| ==> Agrees(init[k], f) by {
        forall k | 0 <= k < |init|
          ensures Agrees(init[k], f)
        {
          assert init[k] == events[k];
        }
      }
      SettledRowsAgree(init, target, f);
      var ev := events[n];
      if ev.Posted? {
        forall r | ev.startRow <= r < ev.startRow + |ev.errors|
          ensures ev.errors[r - ev.startRow] == f(r)
        {
          assert ev.errors[r - ev.startRow] == f(ev.startRow + (r - ev.startRow));
        }
      }
    }
  }

  // ---------------------------------------------------------------------------
  // The parallel computation against the sequential one

  /** The number of rows in a range. */
  function RowCount(rg: Range): nat {
    if rg.startRow < rg.endRow then rg.endRow - rg.startRow else 0
  }

  /**
   * What worker k posts when it runs to completion on a surface whose row r
   * is `f(r)`: the rows of its range and the bounds of those rows.
   */
  function WorkerAnswer(f: int -> seq<Option<real>>, res: int, rpw: int, k: int): Settled {
    var rg := RangeOf(res, rpw, k);
    var errors := Prefix(Shift(f, rg.startRow), RowCount(rg));
    Posted(rg.startRow, errors, FoldBounds(Flatten(errors)))
  }

  function AnswerFn(f: int -> seq<Option<real>>, res: int, rpw: int): int -> Settled {
    k => WorkerAnswer(f, res, rpw, k)
  }

  /** One worker run: the worker's message handler on range k posts exactly the answer for the error surface. */
  method RunWorker(samples: seq<Sample>, gt: real, res: int, rpw: int, k: int) returns (ev: Settled)
    requires res > 0
    ensures ev == WorkerAnswer(SurfaceFn(samples, gt, res), res, rpw, k)
  {
    var rg := RangeOf(res, rpw, k);
    var errors, bounds := WorkerRows(samples, gt, rg.startRow, rg.endRow, res);
    BandIsShift(samples, gt, res, rg.startRow, |errors|);
    ev := Posted(rg.startRow, errors, bounds);
  }

  /** Every row a worker posts is the row of `f` with the same index. */
  lemma AnswerAgrees(f: int -> seq<Option<real>>, res: int, rpw: int, k: int)
    ensures Agrees(WorkerAnswer(f, res, rpw, k), f)
  {
    var rg := RangeOf(res, rpw, k);
    PrefixEntries(Shift(f, rg.startRow), RowCount(rg));
  }

  /** The first `a` values of f followed by the `b` values from `a` on are the first `a + b` values. */
  lemma {:induction false} PrefixJoin<T>(f: int -> T, a: nat, b: nat)
    ensures Prefix(f, a) + Prefix(Shift(f, a), b) == Prefix(f, a + b)
    decreases b
  {
    if b > 0 {
      PrefixJoin(f, a, b - 1);
      assert Shift(f, a)(b - 1) == f(a + b - 1);
    }
  }

  lemma PrefixJoinAt<T>(f: int -> T, a: nat, b: nat, n: nat)
    requires a + b == n
    ensures Prefix(f, a) + Prefix(Shift(f, a), b) == Prefix(f, n)
  {
    PrefixJoin(f, a, b);
  }

  /** Flattening distributes over concatenation. */
  lemma {:induction false} FlattenAppend(x: seq<seq<Option<real>>>, y: seq<seq<Option<real>>>)
    ensures Flatten(x + y) == Flatten(x) + Flatten(y)
    decreases |y|
  {
    if |y| == 0 {
      assert x + y == x;
    } else {
      var init := y[..|y| - 1];
      var last := y[|y| - 1];
      assert y == init + [last];
      assert x + y == (x + init) + [last];
      FlattenAppend(x, init);
      FlattenSnoc(x + init, last);
      FlattenSnoc(init, last);
    }
  }

  /** The rows covered by the first m ranges. */
  function Covered(res: int, rpw: int, m: nat): nat
    requires res > 0 && rpw >= 1
  {
    MinInt(m * rpw, res)
  }

  /** Range m of a spawned worker starts where the first m ranges stop and adds its own rows. */
  lemma RangeExtends(res: int, nw: int, rpw: int, m: nat)
    requires res > 0 && nw >= 1 && rpw >= 1 && m < SpawnCount(res, nw, rpw)
    ensures RangeOf(res, rpw, m).startRow == Covered(res, rpw, m)
    ensures Covered(res, rpw, m) + RowCount(RangeOf(res, rpw, m)) == Covered(res, rpw, m + 1)
  {
    SpawnedIff(res, nw, rpw, m);
    assert (m + 1) * rpw == m * rpw + rpw;
  }

  /**
   * Merging the answers of the first m workers in worker order gives the
   * bounds of the first rows of the surface, visited row by row.
   */
  lemma {:induction false} AnswersBounds(f: int -> seq<Option<real>>, res: int, nw: int, rpw: int, m: nat)
    requires res > 0 && nw >= 1 && rpw >= 1 && m <= SpawnCount(res, nw, rpw)
    ensures Combined(Prefix(AnswerFn(f, res, rpw), m)) == FoldBounds(Flatten(Prefix(f, Covered(res, rpw, m))))
    decreases m
  {
    if m == 0 {
      assert Covered(res, rpw, 0) == 0;
    } else {
      var k := m - 1;
      AnswersBounds(f, res, nw, rpw, k);
      var before := Prefix(AnswerFn(f, res, rpw), k);
      var ev := AnswerFn(f, res, rpw)(k);
      var all := Prefix(AnswerFn(f, res, rpw), m);
      assert all == before + [ev];
      assert all[..k] == before;
      assert Combined(all) == Merge(Combined(before), BoundsOf(ev));
      RangeExtends(res, nw, rpw, k);
      var c := Covered(res, rpw, k);
      var len := RowCount(RangeOf(res, rpw, k));
      var band := Prefix(Shift(f, c), len);
      assert BoundsOf(ev) == FoldBounds(Flatten(band)) by {
        assert ev == WorkerAnswer(f, res, rpw, k);
      }
      var head := Prefix(f, c);
      MergeFoldBounds(Flatten(head), Flatten(band));
      FlattenAppend(head, band);
      var total := Covered(res, rpw, m);
      PrefixJoinAt(f, c, len, total);
      calc {
        Combined(all);
        Merge(Combined(before), BoundsOf(ev));
        Merge(FoldBounds(Flatten(head)), FoldBounds(Flatten(band)));
        FoldBounds(Flatten(head) + Flatten(band));
        FoldBounds(Flatten(head + band));
        FoldBounds(Flatten(Prefix(f, total)));
      }
    }
  }

  // ---------------------------------------------------------------------------
  // Settling the spawned workers

  /** The answers of the first n workers, as a multiset: the events in some arrival order must be these. */
  lemma AnswerPresent(f: int -> seq<Option<real>>, res: int, rpw: int, n: nat, events: seq<Settled>, k: int)
    requires multiset(events) == multiset(Prefix(AnswerFn(f, res, rpw), n)) && 0 <= k < n
    ensures exists j :: 0 <= j < |events| && events[j] == WorkerAnswer(f, res, rpw, k)
  {
    var all := Prefix(AnswerFn(f, res, rpw), n);
    PrefixEntries(AnswerFn(f, res, rpw), n);
    assert all[k] == WorkerAnswer(f, res, rpw, k);
    assert all[k] in multiset(events);
  }

  /** Every event that arrives is the answer of one of the first n workers. */
  lemma EventIsAnswer(f: int -> seq<Option<real>>, res: int, rpw: int, n: nat, events: seq<Settled>, j: int)
    requires multiset(events) == multiset(Prefix(AnswerFn(f, res, rpw), n)) && 0 <= j < |events|
    ensures exists k :: 0 <= k < n && events[j] == WorkerAnswer(f, res, rpw, k)
  {
    var all := Prefix(AnswerFn(f, res, rpw), n);
    PrefixEntries(AnswerFn(f, res, rpw), n);
    assert events[j] in multiset(all);
    var k :| 0 <= k < n && all[k] == events[j];
  }

  /** The events are the answers of the first n spawned workers in some order, so there are n of them. */
  predicate AllAnswered(f: int -> seq<Option<real>>, res: int, rpw: int, n: nat, events: seq<Settled>) {
    multiset(events) == multiset(Prefix(AnswerFn(f, res, rpw), n))
  }

  /** The parameters of `calculateHeatmapParallel`: ranges long enough that numWorkers of them reach the last row. */
  predicate Sized(res: int, nw: int, rpw: int) {
    res > 0 && nw >= 1 && rpw >= 1 && res <= rpw * nw
  }

  /** Once all spawned workers answered and the page waits for that many, the heatmap is drawn. */
  lemma ParallelDrawn(f: int -> seq<Option<real>>, res: int, nw: int, rpw: int, events: seq<Settled>)
    requires Sized(res, nw, rpw) && AllAnswered(f, res, rpw, SpawnCount(res, nw, rpw), events)
    ensures |events| == SpawnCount(res, nw, rpw)
    ensures SettleAll(events, SpawnCount(res, nw, rpw)).outcome == Drawn
  {
    var n := SpawnCount(res, nw, rpw);
    AnsweredCount(f, res, rpw, n, events);
    EventIsAnswer(f, res, rpw, n, events, n - 1);
    var k :| 0 <= k < n && events[n - 1] == WorkerAnswer(f, res, rpw, k);
    assert events[n - 1].Posted?;
    SettleOutcome(events, n);
  }

  /** One event per spawned worker. */
  lemma AnsweredCount(f: int -> seq<Option<real>>, res: int, rpw: int, n: nat, events: seq<Settled>)
    requires AllAnswered(f, res, rpw, n, events)
    ensures |events| == n
  {
    assert |multiset(events)| == |multiset(Prefix(AnswerFn(f, res, rpw), n))|;
  }

  /** Row r of the surface is carried by the answer of its owner r / rpw, which is among the events. */
  lemma RowCarried(f: int -> seq<Option<real>>, res: int, nw: int, rpw: int, events: seq<Settled>, r: int)
    requires Sized(res, nw, rpw) && AllAnswered(f, res, rpw, SpawnCount(res, nw, rpw), events)
    requires 0 <= r < res
    ensures exists j :: 0 <= j < |events| && Covers(events[j], r)
  {
    OwnerSpawned(res, nw, rpw, r);
    var k := r / rpw;
    RowOwner(res, nw, rpw, r, k);
    AnswerPresent(f, res, rpw, SpawnCount(res, nw, rpw), events, k);
    var j :| 0 <= j < |events| && events[j] == WorkerAnswer(f, res, rpw, k);
    assert Covers(events[j], r);
  }

  /** An answer only carries rows 0 <= r < resolution. */
  lemma CarriedInRange(f: int -> seq<Option<real>>, res: int, rpw: int, n: nat, events: seq<Settled>, j: int, r: int)
    requires rpw >= 1 && AllAnswered(f, res, rpw, n, events)
    requires 0 <= j < |events| && Covers(events[j], r)
    ensures 0 <= r < res
  {
    EventIsAnswer(f, res, rpw, n, events, j);
    var k :| 0 <= k < n && events[j] == WorkerAnswer(f, res, rpw, k);
    var rg := RangeOf(res, rpw, k);
    assert events[j].startRow == rg.startRow && |events[j].errors| == RowCount(rg);
    MulMono(0, k, rpw);
  }

  /** Once all spawned workers answered, exactly the rows 0 <= r < resolution are filled in. */
  lemma ParallelRowsFilled(f: int -> seq<Option<real>>, res: int, nw: int, rpw: int, events: seq<Settled>)
    requires Sized(res, nw, rpw) && AllAnswered(f, res, rpw, SpawnCount(res, nw, rpw), events)
    ensures forall r :: r in SettleAll(events, SpawnCount(res, nw, rpw)).rows <==> 0 <= r < res
  {
    var n := SpawnCount(res, nw, rpw);
    var rows := SettleAll(events, n).rows;
    SettledKeys(events, n);
    forall r
      ensures r in rows <==> 0 <= r < res
    {
      if 0 <= r < res {
        RowCarried(f, res, nw, rpw, events, r);
      }
      if r in rows {
        var j :| 0 <= j < |events| && Covers(events[j], r);
        CarriedInRange(f, res, rpw, n, events, j, r);
      }
    }
  }

  /** Once all spawned workers answered, every filled-in row is the row of the surface. */
  lemma ParallelRowsMatch(f: int -> seq<Option<real>>, res: int, rpw: int, n: nat, events: seq<Settled>)
    requires AllAnswered(f, res, rpw, n, events)
    ensures forall r :: r in SettleAll(events, n).rows ==> SettleAll(events, n).rows[r] == f(r)
  {
    forall j | 0 <= j < |events|
      ensures Agrees(events[j], f)
    {
      EventIsAnswer(f, res, rpw, n, events, j);
      var k :| 0 <= k < n && events[j] == WorkerAnswer(f, res, rpw, k);
      AnswerAgrees(f, res, rpw, k);
    }
    SettledRowsAgree(events, n, f);
  }

  /** Once all spawned workers answered, the colour bounds are those of the whole surface, whatever the order. */
  lemma ParallelBounds(f: int -> seq<Option<real>>, res: int, nw: int, rpw: int, events: seq<Settled>)
    requires Sized(res, nw, rpw) && AllAnswered(f, res, rpw, SpawnCount(res, nw, rpw), events)
    ensures SettleAll(events, SpawnCount(res, nw, rpw)).bounds == FoldBounds(Flatten(Prefix(f, res)))
  {
    var n := SpawnCount(res, nw, rpw);
    SettledBounds(events, n);
    CombinedPermutation(events, Prefix(AnswerFn(f, res, rpw), n));
    AnswersBounds(f, res, nw, rpw, n);
    SpawnedCoverAll(res, nw, rpw);
    assert Covered(res, rpw, n) == res by {
      assert (n - 1) * rpw + rpw == n * rpw;
    }
  }

  /**
   * Once every spawned worker has answered, in any order, and the page waits
   * for as many answers as it spawned workers, the heatmap is drawn, every
   * row 0 <= r < resolution is filled in with row r of the surface and no
   * other row is, and the colour bounds are those of the whole surface
   * visited row by row.
   */
  lemma ParallelMatchesSurface(f: int -> seq<Option<real>>, hc: nat, res: int, events: seq<Settled>)
    requires res > 0
    requires var nw := NumWorkers(hc, res);
      AllAnswered(f, res, RowsPerWorker(res, nw), SpawnCount(res, nw, RowsPerWorker(res, nw)), events)
    ensures var nw := NumWorkers(hc, res);
      var p := SettleAll(events, SpawnCount(res, nw, RowsPerWorker(res, nw)));
      && p.outcome == Drawn
      && (forall r :: r in p.rows <==> 0 <= r < res)
      && (forall r :: r in p.rows ==> p.rows[r] == f(r))
      && p.bounds == FoldBounds(Flatten(Prefix(f, res)))
  {
    var nw := NumWorkers(hc, res);
    var rpw := RowsPerWorker(res, nw);
    assert Sized(res, nw, rpw);
    ParallelDrawn(f, res, nw, rpw, events);
    ParallelRowsFilled(f, res, nw, rpw, events);
    ParallelRowsMatch(f, res, rpw, SpawnCount(res, nw, rpw), events);
    ParallelBounds(f, res, nw, rpw, events);
  }

  /**
   * The surface computed by the workers of `showErrorHeatmap` is the error
   * surface: at resolution 1000 every worker is spawned, so the counter the
   * page waits for is reached and the heatmap drawn is the whole surface.
   */
  lemma ErrorHeatmapDrawn(samples: seq<Sample>, gt: real, hc: nat, events: seq<Settled>, r: int)
    requires var nw := NumWorkers(hc, FullResolution);
      AllAnswered(SurfaceFn(samples, gt, FullResolution), FullResolution, RowsPerWorker(FullResolution, nw), nw, events)
    ensures var p := SettleAll(events, NumWorkers(hc, FullResolution));
      && p.outcome == Drawn
      && (r in p.rows <==> 0 <= r < FullResolution)
      && (r in p.rows ==> p.rows[r] == SurfaceRow(samples, gt, FullResolution, r))
      && p.bounds == FoldBounds(Flatten(Prefix(SurfaceFn(samples, gt, FullResolution), FullResolution)))
  {
    var f := SurfaceFn(samples, gt, FullResolution);
    FullResolutionSpawnsAll(hc);
    ParallelMatchesSurface(f, hc, FullResolution, events);
    var rows := SettleAll(events, NumWorkers(hc, FullResolution)).rows;
    if r in rows {
      assert rows[r] == f(r);
    }
  }

  /**
   * The page counts settled workers against `numWorkers`. When fewer ranges
   * than `numWorkers` start before the last row, the spawned workers all
   * answer and the counter stops short: the page keeps waiting.
   */
  lemma StallsWhenFewerSpawned(f: int -> seq<Option<real>>, hc: nat, res: int, events: seq<Settled>)
    requires res > 0
    requires var nw := NumWorkers(hc, res);
      var rpw := RowsPerWorker(res, nw);
      && SpawnCount(res, nw, rpw) < nw
      && AllAnswered(f, res, rpw, SpawnCount(res, nw, rpw), events)
    ensures SettleAll(events, NumWorkers(hc, res)).outcome == Waiting
  {
    var nw := NumWorkers(hc, res);
    var rpw := RowsPerWorker(res, nw);
    ParallelDrawn(f, res, nw, rpw, events);
    SettleOutcome(events, nw);
  }

  /** Resolution 5 with 4 reported cores: three workers answer and the heatmap is never drawn. */
  lemma StallExample(f: int -> seq<Option<real>>, events: seq<Settled>)
    requires AllAnswered(f, 5, 2, 3, events)
    ensures SettleAll(events, NumWorkers(4, 5)).outcome == Waiting
  {
    FewerSpawned();
    StallsWhenFewerSpawned(f, 4, 5, events);
  }

  // ---------------------------------------------------------------------------
  // The single-threaded fallback

  /**
   * `showErrorHeatmapFallback`: the whole surface at resolution 500 on one
   * thread, with its bounds.
   */
  method Fallback(samples: seq<Sample>, gt: real) returns (errors: seq<seq<Option<real>>>, bounds: Bounds)
    ensures errors == Prefix(SurfaceFn(samples, gt, FallbackResolution), FallbackResolution)
    ensures bounds == FoldBounds(Flatten(errors))
  {
    errors, bounds := SingleThreaded(samples, gt, FallbackResolution);
  }

  /** The loops of the fallback at any resolution: every row of the surface in order, on one thread. */
  method SingleThreaded(samples: seq<Sample>, gt: real, res: int) returns (errors: seq<seq<Option<real>>>, bounds: Bounds)
    requires res > 0
    ensures errors == Prefix(SurfaceFn(samples, gt, res), res)
    ensures bounds == FoldBounds(Flatten(errors))
  {
    errors, bounds := WorkerRows(samples, gt, 0, res, res);
    BandIsShift(samples, gt, res, 0, res);
    ShiftZero(SurfaceFn(samples, gt, res), res);
  }

  /** Candidate i of 500 is candidate 2i + 1 of 1000: the fallback probes every other divider position. */
  lemma FallbackEntry(samples: seq<Sample>, gt: real, i: int, j: int)
    ensures SurfaceEntry(samples, gt, FallbackResolution, i, j) == SurfaceEntry(samples, gt, FullResolution, 2 * i + 1, 2 * j + 1)
  {
    assert CandidatePosition(i, FallbackResolution) == CandidatePosition(2 * i + 1, FullResolution);
    assert CandidatePosition(j, FallbackResolution) == CandidatePosition(2 * j + 1, FullResolution);
  }

  /** The fallback heatmap is the full-resolution one with every other row and column left out. */
  lemma FallbackSubsamples(samples: seq<Sample>, gt: real, errors: seq<seq<Option<real>>>, i: int, j: int)
    requires errors == Prefix(SurfaceFn(samples, gt, FallbackResolution), FallbackResolution)
    requires 0 <= i < FallbackResolution && 0 <= j < FallbackResolution
    ensures j < |errors[i]| && errors[i][j] == SurfaceEntry(samples, gt, FullResolution, 2 * i + 1, 2 * j + 1)
  {
    SurfaceEntryAt(samples, gt, FallbackResolution, errors, i, j);
    FallbackEntry(samples, gt, i, j);
  }

  // ---------------------------------------------------------------------------
  // Starting the heatmap

  /** What `showErrorHeatmap` does: refuse, or start the parallel computation with the grid-mean baseline. */
  datatype Launch = Refused | Started(baseline: real, resolution: int)

  /**
   * `showErrorHeatmap`: refuse without samples or ground truth, otherwise
   * compute `gridMeanMSE`, the squared distance between the plain sample
   * mean and the ground truth, and start at resolution 1000.
   */
  function ShowErrorHeatmap(samples: seq<Sample>, gt: Option<real>): (l: Launch)
    ensures l.Refused? <==> |samples| == 0 || gt.None?
    ensures l.Started? ==> l.resolution == FullResolution && l.baseline >= 0.0
    ensures l.Started? ==> l.baseline == Square(Overall(samples).mean.value - gt.value)
  {
    if |samples| == 0 || gt.None? then Refused
    else
      var mean := Sum(Values(samples)) / |samples| as real;
      Started(Square(mean - gt.value), FullResolution)
  }

  /**
   * The baseline is the error of the trivial partition: with no dividers
   * and at least two samples, `calculatePostStratificationError` returns it.
   */
  lemma BaselineIsOneCellError(samples: seq<Sample>, gt: real)
    requires |samples| >= 2
    ensures PostStratError(samples, [], [], gt) == Some(ShowErrorHeatmap(samples, Some(gt)).baseline)
  {
    var g := DividerGrid([], []);
    CellValuesAll(samples, g, Cell(0, 0));
    assert !HasSparseCell(samples, g);
    PostStratificationSingleCell(samples, g);
  }

  /** The baseline is zero exactly when the values sum to |samples| times the ground truth. */
  lemma BaselineZeroIff(samples: seq<Sample>, gt: real)
    requires |samples| > 0
    ensures ShowErrorHeatmap(samples, Some(gt)).baseline == 0.0 <==> Sum(Values(samples)) == gt * |samples| as real
  {
    var mean := Overall(samples).mean.value;
    SquareZeroIff(mean - gt);
    assert Sum(Values(samples)) == gt * |samples| as real ==> mean == gt by {
      if Sum(Values(samples)) == gt * |samples| as real {
        assert (mean - gt) * |samples| as real == 0.0;
      }
    }
  }
}

=== FILE: rng.dfy ===
/**
 * The seeded Park–Miller generator of src/sampling/SeededRNG.js: a multiplicative
 * linear congruential generator with multiplier 16807 and modulus 2^31 - 1.
 * The state is an exact integer: for states below 2^31 every product stays below
 * 2^53, so the double arithmetic of the source is exact there.
 */
module Rng {

  const Multiplier: int := 16807
  const Modulus: int := 2147483647

  /** The inverse of Multiplier modulo Modulus: 16807 * 1407677000 == 1 + 11017 * Modulus. */
  const Inverse: int := 1407677000

  /**
   * JavaScript's `%` on integers: truncated division, so the remainder carries
   * the sign of the dividend (Dafny's own `%` is Euclidean and never negative).
   */
  function JsRem(a: int, b: int): (r: int)
    requires b > 0
    ensures -b < r < b
    ensures a >= 0 ==> r >= 0 && r == a % b
    ensures a <= 0 ==> r <= 0
    ensures r == 0 <==> a % b == 0
    ensures (a - r) % b == 0
  {
    NegatedMultiple(a, b);
    TruncatedCongruent(a, b);
    if a >= 0 then a % b else -((-a) % b)
  }

  /** The truncated remainder differs from the dividend by a multiple of `b`, on either sign. */
  lemma TruncatedCongruent(a: int, b: int)
    requires b > 0
    ensures a >= 0 ==> (a - a % b) % b == 0
    ensures a < 0 ==> (a + (-a) % b) % b == 0
  {
    if a >= 0 {
      assert a - a % b == (a / b) * b;
      MultipleHasNoRemainder(a / b, b);
    } else {
      assert a + (-a) % b == -((-a) / b) * b;
      MultipleHasNoRemainder(-((-a) / b), b);
    }
  }

  /** A multiple of `b` leaves Euclidean remainder 0. */
  lemma MultipleHasNoRemainder(k: int, b: int)
    requires b > 0
    ensures (k * b) % b == 0
  {
    var q := (k * b) / b;
    var m := (k * b) % b;
    assert k * b == q * b + m;
    assert (k - q) * b == m;
    ScaledBounds(k - q, b);
  }

  /** A non-zero multiplier moves `d * b` at least `b` away from 0. */
  lemma ScaledBounds(d: int, b: int)
    requires b > 0
    ensures d >= 1 ==> d * b >= b
    ensures d <= -1 ==> d * b <= -b
  {
  }

  /** `a` is a multiple of `b` exactly when `-a` is. */
  lemma NegatedMultiple(a: int, b: int)
    requires b > 0
    ensures (-a) % b == 0 <==> a % b == 0
  {
    if a % b == 0 {
      MultipleHasNoRemainder(-(a / b), b);
      assert -a == -(a / b) * b;
    }
    if (-a) % b == 0 {
      MultipleHasNoRemainder(-((-a) / b), b);
      assert a == -((-a) / b) * b;
    }
  }

  /** A generator: the seed it was built with and its current state. */
  datatype Generator = Generator(seed: int, current: int)

  /** `new SeededRNG(seed)`: the state starts at the seed. */
  function New(seed: int): Generator {
    Generator(seed, seed)
  }

  /** The state transition of `next()`. */
  function Step(state: int): int {
    JsRem(state * Multiplier, Modulus)
  }

  /** `next()`: advance the state and return it divided by the modulus. */
  function Next(g: Generator): (r: (Generator, real))
    ensures r.0.seed == g.seed
    ensures r.1 * Modulus as real == r.0.current as real
    ensures g.current >= 0 ==> 0 <= r.0.current < Modulus && 0.0 <= r.1 < 1.0
    ensures g.current <= 0 ==> -Modulus < r.0.current <= 0 && -1.0 < r.1 <= 0.0
    ensures r.1 == 0.0 <==> g.current % Modulus == 0
    ensures (g.current * Multiplier - r.0.current) % Modulus == 0
  {
    var s := Step(g.current);
    StepZeroIff(g.current);
    (Generator(g.seed, s), s as real / Modulus as real)
  }

  /** `reset()`: the state returns to the seed. */
  function Reset(g: Generator): (r: Generator)
    ensures r == New(g.seed)
  {
    Generator(g.seed, g.seed)
  }

  /** The generator after `n` calls of `next()`. */
  function Advance(g: Generator, n: nat): Generator
    decreases n
  {
    if n == 0 then g else Advance(Next(g).0, n - 1)
  }

  /** The values returned by `n` successive calls of `next()`. */
  function Outputs(g: Generator, n: nat): (r: seq<real>)
    ensures |r| == n
    decreases n
  {
    if n == 0 then [] else [Next(g).1] + Outputs(Next(g).0, n - 1)
  }

  // ---------------------------------------------------------------------------
  // Arithmetic behind the zero test

  lemma MultiplierInvertible()
    ensures Multiplier * Inverse == 1 + 11017 * Modulus
  {
  }

  /** A multiple of the modulus times the multiplier is a multiple of the modulus, and only then. */
  lemma {:induction false} ProductMultipleIff(c: int)
    ensures (c * Multiplier) % Modulus == 0 <==> c % Modulus == 0
  {
    if c % Modulus == 0 {
      var j := c / Modulus;
      assert c == j * Modulus;
      assert c * Multiplier == (j * Multiplier) * Modulus;
      MultipleHasNoRemainder(j * Multiplier, Modulus);
    }
    if (c * Multiplier) % Modulus == 0 {
      var k := (c * Multiplier) / Modulus;
      assert c * Multiplier == k * Modulus;
      MultiplierInvertible();
      calc {
        c;
        c * (Multiplier * Inverse) - c * 11017 * Modulus;
        (c * Multiplier) * Inverse - c * 11017 * Modulus;
        (k * Modulus) * Inverse - c * 11017 * Modulus;
        (k * Inverse - c * 11017) * Modulus;
      }
      MultipleHasNoRemainder(k * Inverse - c * 11017, Modulus);
    }
  }

  lemma StepZeroIff(c: int)
    ensures Step(c) == 0 <==> c % Modulus == 0
  {
    ProductMultipleIff(c);
  }

  // ---------------------------------------------------------------------------
  // Properties of the generator

  /** `next()` never changes the remembered seed, however often it is called. */
  lemma {:induction false} AdvanceKeepsSeed(g: Generator, n: nat)
    ensures Advance(g, n).seed == g.seed
    decreases n
  {
    if n > 0 {
      AdvanceKeepsSeed(Next(g).0, n - 1);
    }
  }

  /** After `reset()` the generator replays the stream it produced from construction. */
  lemma ResetReplays(seed: int, k: nat, n: nat)
    ensures Outputs(Reset(Advance(New(seed), k)), n) == Outputs(New(seed), n)
  {
    AdvanceKeepsSeed(New(seed), k);
  }

  /** The stream depends on the current state only: equal states give equal streams. */
  lemma {:induction false} SameStateSameStream(g1: Generator, g2: Generator, n: nat)
    requires g1.current == g2.current
    ensures Outputs(g1, n) == Outputs(g2, n)
    decreases n
  {
    if n > 0 {
      SameStateSameStream(Next(g1).0, Next(g2).0, n - 1);
    }
  }

  /** Two generators built with the same seed return the same values. */
  lemma SameSeedSameStream(g1: Generator, g2: Generator, n: nat)
    requires g1 == New(g2.seed) && g2 == New(g1.seed)
    ensures Outputs(g1, n) == Outputs(g2, n)
  {
    SameStateSameStream(g1, g2, n);
  }

  /** A state that is a multiple of the modulus (seed 0 in particular) only ever yields 0. */
  lemma {:induction false} ZeroStateIsFixed(g: Generator, n: nat)
    requires g.current % Modulus == 0
    ensures forall i :: 0 <= i < n ==> Outputs(g, n)[i] == 0.0
    ensures Advance(g, n).current % Modulus == 0
    decreases n
  {
    if n > 0 {
      var g' := Next(g).0;
      assert g'.current == 0;
      ZeroStateIsFixed(g', n - 1);
    }
  }

  /** Seed 0 is a fixed point: every call of `next()` returns 0. */
  lemma SeedZeroIsFixed(n: nat)
    ensures forall i :: 0 <= i < n ==> Outputs(New(0), n)[i] == 0.0
  {
    ZeroStateIsFixed(New(0), n);
  }

  /** A state that is not a multiple of the modulus never yields 0. */
  lemma {:induction false} NonZeroStateStaysNonZero(g: Generator, n: nat)
    requires g.current % Modulus != 0
    ensures forall i :: 0 <= i < n ==> Outputs(g, n)[i] != 0.0
    ensures Advance(g, n).current % Modulus != 0
    decreases n
  {
    if n > 0 {
      var g' := Next(g).0;
      StepZeroIff(g.current);
      assert g'.current != 0;
      assert g'.current % Modulus != 0;
      NonZeroStateStaysNonZero(g', n - 1);
    }
  }

  /** From a non-negative seed every state lies in [0, 2^31 - 2] and every output in [0, 1). */
  lemma {:induction false} NonNegativeSeedRange(g: Generator, n: nat)
    requires g.current >= 0
    ensures forall i :: 0 <= i < n ==> 0.0 <= Outputs(g, n)[i] < 1.0
    ensures n > 0 ==> 0 <= Advance(g, n).current <= Modulus - 1
    decreases n
  {
    if n > 0 {
      NonNegativeSeedRange(Next(g).0, n - 1);
    }
  }

  /**
   * From a negative (or zero) seed the truncated remainder keeps every state
   * and output non-positive: the outputs lie in (-1, 0], not [0, 1).
   */
  lemma {:induction false} NonPositiveSeedRange(g: Generator, n: nat)
    requires g.current <= 0
    ensures forall i :: 0 <= i < n ==> -1.0 < Outputs(g, n)[i] <= 0.0
    ensures Advance(g, n).current <= 0
    decreases n
  {
    if n > 0 {
      NonPositiveSeedRange(Next(g).0, n - 1);
    }
  }

  /** The stream of `a + b` draws is the stream of `a` draws followed by `b` more. */
  lemma {:induction false} OutputsSplit(g: Generator, a: nat, b: nat)
    ensures Outputs(g, a + b) == Outputs(g, a) + Outputs(Advance(g, a), b)
    decreases a
  {
    if a > 0 {
      OutputsSplit(Next(g).0, a - 1, b);
    }
  }

  /** Advancing `a` then `b` steps is advancing `a + b` steps. */
  lemma {:induction false} AdvanceAdd(g: Generator, a: nat, b: nat)
    ensures Advance(Advance(g, a), b) == Advance(g, a + b)
    decreases a
  {
    if a > 0 {
      AdvanceAdd(Next(g).0, a - 1, b);
    }
  }
}

=== FILE: sampler.dfy ===
/**
 * Sample generation of src/sampling/Sampler.js: the draw source chosen by
 * `setSeed`, the zero-rejection loop of `normal`, the per-cell value model of
 * `sampleValue`, stratified and uniform placement, the frozen colour scale and
 * the frozen ground truth.
 *
 * The Box-Muller value `sqrt(-2 log u) cos(2 pi v)` and `Math.sqrt` are not
 * modelled: they are the `gauss` and `sqrt` fields of a Numerics parameter.
 */
module Sampler {
  import opened Wrappers
  import opened Rng
  import opened Grid
  import opened Data
  import opened Stats

  // ---------------------------------------------------------------------------
  // Draw sources

  /** A value `Math.random()` may return, short of exactly 0. */
  type Unit = u: real | 0.0 < u < 1.0 witness 0.5

  /**
   * `this.rng`: a seeded generator, or `Math.random()`, whose successive
   * results are the oracle's values from position `pos` on.
   */
  datatype Source = Seeded(gen: Generator) | Unseeded(oracle: nat -> Unit, pos: nat)

  /** The uninterpreted numerics: the Box-Muller value of two uniforms, and the square root. */
  datatype Numerics = Numerics(gauss: (real, real) -> real, sqrt: real -> real)

  /** `setSeed(seed)`: a generator for any seed that is not null or undefined. */
  function SetSeed(seed: Option<int>, oracle: nat -> Unit): (src: Source)
    ensures src.Seeded? <==> seed.Some?
    ensures seed.Some? ==> src.gen == New(seed.value)
  {
    match seed
    case Some(s) => Seeded(New(s))
    case None => Unseeded(oracle, 0)
  }

  /** No draw from here on is 0: a seeded state that is not a multiple of the modulus. */
  predicate Live(src: Source) {
    src.Seeded? ==> src.gen.current % Modulus != 0
  }

  /** Every draw from here on lies in [0, 1): a seeded state that is not negative. */
  predicate UnitDraws(src: Source) {
    src.Seeded? ==> src.gen.current >= 0
  }

  /** `random()`: the next value of the source, and the source after it. */
  function Random(src: Source): (r: (Source, real))
    ensures Live(src) <==> r.1 != 0.0
    ensures Live(src) <==> Live(r.0)
    ensures UnitDraws(src) ==> UnitDraws(r.0) && 0.0 <= r.1 < 1.0
    ensures r.0.Seeded? == src.Seeded?
  {
    match src
    case Seeded(gen) =>
      var next := Next(gen);
      assert next.0.current == 0 <==> next.1 == 0.0;
      (Seeded(next.0), next.1)
    case Unseeded(oracle, pos) => (Unseeded(oracle, pos + 1), oracle(pos) as real)
  }

  /** The next `n` values of the source. */
  function Draws(src: Source, n: nat): (d: seq<real>)
    ensures |d| == n
    decreases n
  {
    if n == 0 then [] else [Random(src).1] + Draws(Random(src).0, n - 1)
  }

  /** The source after `n` draws. */
  function Skip(src: Source, n: nat): Source
    decreases n
  {
    if n == 0 then src else Skip(Random(src).0, n - 1)
  }

  /** A seeded source draws exactly the generator's outputs. */
  lemma {:induction false} DrawsSeeded(src: Source, n: nat)
    requires src.Seeded?
    ensures Draws(src, n) == Outputs(src.gen, n)
    ensures Skip(src, n) == Seeded(Advance(src.gen, n))
    decreases n
  {
    if n > 0 {
      DrawsSeeded(Random(src).0, n - 1);
    }
  }

  /** An unseeded source draws the oracle's values in order. */
  lemma {:induction false} DrawsUnseeded(oracle: nat -> Unit, pos: nat, n: nat)
    ensures forall i :: 0 <= i < n ==> Draws(Unseeded(oracle, pos), n)[i] == oracle(pos + i) as real
    ensures Skip(Unseeded(oracle, pos), n) == Unseeded(oracle, pos + n)
    decreases n
  {
    if n > 0 {
      DrawsUnseeded(oracle, pos + 1, n - 1);
    }
  }

  /** `a + b` draws are `a` draws followed by `b` draws from where those stopped. */
  lemma {:induction false} DrawsSplit(src: Source, a: nat, b: nat)
    ensures Draws(src, a + b) == Draws(src, a) + Draws(Skip(src, a), b)
    ensures Skip(src, a + b) == Skip(Skip(src, a), b)
    decreases a
  {
    if a > 0 {
      DrawsSplit(Random(src).0, a - 1, b);
    }
  }

  /** From a live source no draw is ever 0, and the source stays live. */
  lemma {:induction false} LiveDrawsNonZero(src: Source, n: nat)
    requires Live(src)
    ensures forall i :: 0 <= i < n ==> Draws(src, n)[i] != 0.0
    ensures Live(Skip(src, n))
    decreases n
  {
    if n > 0 {
      LiveDrawsNonZero(Random(src).0, n - 1);
    }
  }

  /** Once a draw is 0 the seeded state is 0, so every later draw is 0 as well. */
  lemma {:induction false} ZeroDrawNeverRecovers(src: Source, n: nat)
    requires !Live(src)
    ensures forall i :: 0 <= i < n ==> Draws(src, n)[i] == 0.0
    ensures !Live(Skip(src, n))
    decreases n
  {
    if n > 0 {
      ZeroDrawNeverRecovers(Random(src).0, n - 1);
    }
  }

  /** From a non-negative seeded state (or Math.random) every draw lies in [0, 1). */
  lemma {:induction false} UnitDrawsRange(src: Source, n: nat)
    requires UnitDraws(src)
    ensures forall i :: 0 <= i < n ==> 0.0 <= Draws(src, n)[i] < 1.0
    ensures UnitDraws(Skip(src, n))
    decreases n
  {
    if n > 0 {
      UnitDrawsRange(Random(src).0, n - 1);
    }
  }

  // ---------------------------------------------------------------------------
  // normal and sampleValue

  /** A computation over the draw source: its value and the source after it, or a loop that never ends. */
  datatype Run<T> = Done(value: T, src: Source) | Diverges

  /**
   * `while (u === 0) u = this.random()`. A live source stops after one draw; a
   * source that draws 0 is seeded at state 0 and draws 0 forever
   * (ZeroDrawNeverRecovers), so the loop never ends.
   */
  function DrawNonZero(src: Source): (r: Run<real>)
    ensures r.Done? <==> Live(src)
    ensures r.Done? ==> r.value == Random(src).1 && r.value != 0.0 && r.src == Random(src).0
  {
    var (next, u) := Random(src);
    if u != 0.0 then Done(u, next) else Diverges
  }

  /** The value `normal(mean, std)` returns for the draw pair `d`: `gauss(d[0], d[1]) * std + mean`. */
  function NormalValue(num: Numerics, d: seq<real>, mean: real, std: real): real
    requires |d| == 2
  {
    num.gauss(d[0], d[1]) * std + mean
  }

  /** The next two draws of the source, in order (`Draws(src, 2)`, by TwoDraws). */
  function PairOf(src: Source): seq<real> {
    [Random(src).1, Random(Random(src).0).1]
  }

  /** The source after two draws (`Skip(src, 2)`, by TwoDraws). */
  function Twice(src: Source): Source {
    Random(Random(src).0).0
  }

  /** `normal(mean, std)`: two non-zero draws u then v, and `gauss(u, v) * std + mean`. */
  function Normal(src: Source, mean: real, std: real, num: Numerics): (r: Run<real>)
    ensures r.Done? <==> Live(src)
    ensures r.Done? ==> r.src == Twice(src) && Live(r.src)
    ensures r.Done? ==> r.value == NormalValue(num, PairOf(src), mean, std)
    ensures r.Done? && UnitDraws(src) ==> UnitDraws(r.src)
  {
    match DrawNonZero(src)
    case Diverges => Diverges
    case Done(u, s1) =>
      match DrawNonZero(s1)
      case Diverges => Diverges
      case Done(v, s2) =>
        Done(NormalValue(num, [u, v], mean, std), s2)
  }

  /** Two draws are the next draw and the one after it. */
  lemma TwoDraws(src: Source)
    ensures Draws(src, 2) == PairOf(src)
    ensures Skip(src, 2) == Twice(src)
  {
    assert Draws(Random(Random(src).0).0, 0) == [];
  }

  /** The options `generate` receives. */
  datatype Options = Options(
    sampleCount: int,
    perCell: bool,
    stratified: bool,
    globalMean: real,
    stdDev: real,
    cellMeans: map<Cell, real>,
    cellVariances: map<Cell, real>,
    seed: Option<int>)

  /**
   * The mean and standard deviation `sampleValue` uses for cell `key`:
   * `cellMeans[key] || 5` and `sqrt(cellVariances[key] || 2)` per cell, the
   * global pair otherwise.
   */
  function ValueModel(opts: Options, key: Cell, num: Numerics): (real, real) {
    if opts.perCell then
      (TruthyOr(opts.cellMeans, key, 5.0), num.sqrt(TruthyOr(opts.cellVariances, key, 2.0)))
    else
      (opts.globalMean, opts.stdDev)
  }

  /**
   * A stored non-zero mean or variance is used as is; a missing one, and a
   * stored 0, fall back to 5 and 2; a global field ignores the cell.
   */
  lemma ValueModelDefaults(opts: Options, key: Cell, num: Numerics)
    ensures !opts.perCell ==> ValueModel(opts, key, num) == (opts.globalMean, opts.stdDev)
    ensures opts.perCell && key in opts.cellMeans && opts.cellMeans[key] != 0.0 ==>
      ValueModel(opts, key, num).0 == opts.cellMeans[key]
    ensures opts.perCell && (key !in opts.cellMeans || opts.cellMeans[key] == 0.0) ==> ValueModel(opts, key, num).0 == 5.0
    ensures opts.perCell && key in opts.cellVariances && opts.cellVariances[key] != 0.0 ==>
      ValueModel(opts, key, num).1 == num.sqrt(opts.cellVariances[key])
    ensures opts.perCell && (key !in opts.cellVariances || opts.cellVariances[key] == 0.0) ==>
      ValueModel(opts, key, num).1 == num.sqrt(2.0)
  {
  }

  /** `sampleValue(..., key)`: a normal draw with the cell's (or the global) mean and deviation. */
  function SampleValue(src: Source, opts: Options, key: Cell, num: Numerics): (r: Run<real>)
    ensures r.Done? <==> Live(src)
    ensures r.Done? ==> r.src == Twice(src) && Live(r.src)
    ensures r.Done? ==>
      r.value == NormalValue(num, PairOf(src), ValueModel(opts, key, num).0, ValueModel(opts, key, num).1)
    ensures r.Done? && UnitDraws(src) ==> UnitDraws(r.src)
  {
    var m := ValueModel(opts, key, num);
    Normal(src, m.0, m.1, num)
  }

  // ---------------------------------------------------------------------------
  // Stratified allocation

  /**
   * `perCell + (idx < remainder ? 1 : 0)` with `perCell = Math.floor(count / totalCells)`
   * and `remainder = count % totalCells`; Dafny's `/` by a positive divisor is
   * the floor, while `%` is the truncated JsRem.
   */
  function Allocation(count: int, cells: int, idx: int): int
    requires cells > 0
  {
    count / cells + (if idx < JsRem(count, cells) then 1 else 0)
  }

  /** How many times `for (let i = 0; i < n; i++)` runs for cell `idx`. */
  function Quota(count: int, cells: int, idx: int): nat
    requires cells > 0
  {
    var n := Allocation(count, cells, idx);
    if n > 0 then n else 0
  }

  /** The samples the cells idx, idx+1, ..., cells-1 receive together. */
  function QuotaFrom(count: int, cells: int, idx: int): nat
    requires cells > 0
    decreases cells - idx
  {
    if idx >= cells then 0 else Quota(count, cells, idx) + QuotaFrom(count, cells, idx + 1)
  }

  /** The first `count % cells` cells get one sample more than the rest. */
  lemma AllocationShape(count: int, cells: int, idx: int)
    requires count >= 0 && cells > 0 && 0 <= idx
    ensures Quota(count, cells, idx) == Allocation(count, cells, idx)
    ensures idx < count % cells ==> Quota(count, cells, idx) == count / cells + 1
    ensures idx >= count % cells ==> Quota(count, cells, idx) == count / cells
  {
  }

  /** Earlier cells never get fewer samples than later ones, and at most one more. */
  lemma AllocationBalanced(count: int, cells: int, i: int, j: int)
    requires count >= 0 && cells > 0 && 0 <= i <= j
    ensures Quota(count, cells, j) <= Quota(count, cells, i) <= Quota(count, cells, j) + 1
  {
    AllocationShape(count, cells, i);
    AllocationShape(count, cells, j);
  }

  lemma {:induction false} QuotaFromClosed(count: int, cells: int, idx: int)
    requires count >= 0 && cells > 0 && 0 <= idx <= cells
    ensures QuotaFrom(count, cells, idx) ==
      (cells - idx) * (count / cells) + (if count % cells > idx then count % cells - idx else 0)
    decreases cells - idx
  {
    if idx < cells {
      QuotaFromClosed(count, cells, idx + 1);
      AllocationShape(count, cells, idx);
      var q := count / cells;
      assert (cells - idx) * q == q + (cells - (idx + 1)) * q;
    }
  }

  /** The allocations of a non-negative count add up to exactly that count. */
  lemma AllocationTotal(count: int, cells: int)
    requires count >= 0 && cells > 0
    ensures QuotaFrom(count, cells, 0) == count
  {
    QuotaFromClosed(count, cells, 0);
  }

  /** A negative count allocates nothing anywhere: `perCell` is negative and no remainder is added. */
  lemma {:induction false} NegativeCountAllocatesNothing(count: int, cells: int, idx: int)
    requires count < 0 && cells > 0 && 0 <= idx
    ensures QuotaFrom(count, cells, idx) == 0
    decreases cells - idx
  {
    if idx < cells {
      NegativeCountAllocatesNothing(count, cells, idx + 1);
      assert count / cells < 0;
    }
  }

  /** Stratified sampling draws `count` samples in all, or none for a negative count. */
  lemma StratifiedTotal(count: int, cells: int)
    requires cells > 0
    ensures QuotaFrom(count, cells, 0) == if count > 0 then count else 0
  {
    if count >= 0 {
      AllocationTotal(count, cells);
    } else {
      NegativeCountAllocatesNothing(count, cells, 0);
    }
  }

  /** With at least as many samples as cells, every cell gets one. */
  lemma EveryCellAllocated(count: int, cells: int, idx: int)
    requires cells > 0 && count >= cells && 0 <= idx < cells
    ensures Quota(count, cells, idx) >= 1
  {
    AllocationShape(count, cells, idx);
  }

  /** The nested `r`, `c` loops with their running `idx` visit cell (idx / cols, idx % cols). */
  lemma RowMajor(r: int, c: int, cols: int)
    requires 0 <= c < cols
    ensures (r * cols + c) / cols == r && (r * cols + c) % cols == c
  {
    var n := r * cols + c;
    var q := n / cols;
    var m := n % cols;
    assert (q - r) * cols == c - m;
    ScaledBounds(q - r, cols);
  }

  // ---------------------------------------------------------------------------
  // Placement

  /** `lo + u * w` for a draw u in [0, 1) and a positive width w lies in [lo, lo + w). */
  lemma Place(lo: real, w: real, u: real)
    requires w > 0.0 && 0.0 <= u < 1.0
    ensures lo <= lo + u * w < lo + w
  {
    PositiveProduct(1.0 - u, w);
    assert (1.0 - u) * w == w - u * w;
    if u > 0.0 {
      PositiveProduct(u, w);
    }
  }

  /** Sample `s` lies in cell (r, c): its y in row interval r, its x in column interval c. */
  predicate InCell(g: GridState, s: Sample, r: int, c: int) {
    InInterval(g.horizontal, s.y, r) && InInterval(g.vertical, s.x, c)
  }

  /**
   * One pass of the inner loop of `generateStratified`: x then y drawn
   * uniformly across cell (r, c), then the cell's value.
   */
  function PlaceOne(src: Source, opts: Options, g: GridState, r: int, c: int, num: Numerics): (res: Run<Sample>)
    ensures res.Done? <==> Live(src)
    ensures res.Done? ==> res.src == Twice(Twice(src)) && Live(res.src)
    ensures res.Done? && UnitDraws(src) ==> UnitDraws(res.src)
    ensures res.Done? && UnitDraws(src) && Valid(g) && Ordered(g) && 0 <= r < g.rows && 0 <= c < g.cols ==>
      InCell(g, res.value, r, c)
  {
    var (s1, u) := Random(src);
    var (s2, w) := Random(s1);
    var x := Boundary(g.vertical, c) + u * Width(g.vertical, c);
    var y := Boundary(g.horizontal, r) + w * Width(g.horizontal, r);
    match SampleValue(s2, opts, Cell(r, c), num)
    case Diverges => Diverges
    case Done(value, s3) =>
      PlaceInside(g, r, c, u, w);
      Done(Sample(x, y, value), s3)
  }

  /** A draw u in [0, 1) scaled across interval `i` of an axis lands in that interval. */
  lemma PlaceInInterval(d: seq<real>, i: int, u: real)
    requires WellPlaced(d) && 0 <= i <= |d| && 0.0 <= u < 1.0
    ensures InInterval(d, Boundary(d, i) + u * Width(d, i), i)
  {
    var lo := Boundary(d, i);
    var w := Width(d, i);
    BoundariesIncrease(d, i, i + 1);
    assert lo + w == Boundary(d, i + 1);
    Place(lo, w, u);
    assert lo + u * w < lo + w;
    assert lo <= lo + u * w;
  }

  /** Draws u, w in [0, 1) place a point inside cell (r, c) of an ordered grid. */
  lemma PlaceInside(g: GridState, r: int, c: int, u: real, w: real)
    ensures Valid(g) && Ordered(g) && 0 <= r < g.rows && 0 <= c < g.cols && 0.0 <= u < 1.0 && 0.0 <= w < 1.0 ==>
      InCell(g, Sample(Boundary(g.vertical, c) + u * Width(g.vertical, c),
                       Boundary(g.horizontal, r) + w * Width(g.horizontal, r), 0.0), r, c)
  {
    if Valid(g) && Ordered(g) && 0 <= r < g.rows && 0 <= c < g.cols && 0.0 <= u < 1.0 && 0.0 <= w < 1.0 {
      PlaceInInterval(g.vertical, c, u);
      PlaceInInterval(g.horizontal, r, w);
    }
  }

  /** Two draws and two more are four draws. */
  lemma FourDraws(src: Source)
    ensures Skip(src, 4) == Twice(Twice(src))
    ensures Draws(src, 4) == PairOf(src) + PairOf(Twice(src))
  {
    TwoDraws(src);
    TwoDraws(Twice(src));
    DrawsSplit(src, 2, 2);
  }

  /** The inner loop of `generateStratified`: `n` samples placed in cell (r, c). */
  function PlaceInCell(src: Source, opts: Options, g: GridState, r: int, c: int, n: int, num: Numerics): (res: Run<seq<Sample>>)
    ensures res.Done? <==> n <= 0 || Live(src)
    ensures res.Done? ==> |res.value| == if n > 0 then n else 0
    ensures res.Done? ==> res.src == Skip(src, 4 * |res.value|)
    ensures res.Done? ==> (Live(res.src) <==> Live(src))
    ensures res.Done? && UnitDraws(src) ==> UnitDraws(res.src)
    ensures res.Done? && UnitDraws(src) && Valid(g) && Ordered(g) && 0 <= r < g.rows && 0 <= c < g.cols ==>
      forall k :: 0 <= k < |res.value| ==> InCell(g, res.value[k], r, c)
    decreases n
  {
    if n <= 0 then Done([], src)
    else
      match PlaceOne(src, opts, g, r, c, num)
      case Diverges => Diverges
      case Done(sample, s1) =>
        match PlaceInCell(s1, opts, g, r, c, n - 1, num)
        case Diverges => Diverges
        case Done(rest, s2) =>
          FourDraws(src);
          DrawsSplit(src, 4, 4 * |rest|);
          Done([sample] + rest, s2)
  }

  /** `generateStratified` from cell `idx` on, in row-major order. */
  function StratifiedFrom(src: Source, opts: Options, g: GridState, idx: int, num: Numerics): (res: Run<seq<Sample>>)
    requires Valid(g) && 0 <= idx <= g.rows * g.cols
    ensures res.Done? <==> Live(src) || QuotaFrom(opts.sampleCount, g.rows * g.cols, idx) == 0
    ensures res.Done? ==> |res.value| == QuotaFrom(opts.sampleCount, g.rows * g.cols, idx)
    ensures res.Done? ==> (Live(res.src) <==> Live(src))
    ensures res.Done? && UnitDraws(src) ==> UnitDraws(res.src)
    decreases g.rows * g.cols - idx
  {
    var cells := g.rows * g.cols;
    if idx == cells then Done([], src)
    else
      match PlaceInCell(src, opts, g, idx / g.cols, idx % g.cols, Allocation(opts.sampleCount, cells, idx), num)
      case Diverges => Diverges
      case Done(block, s1) =>
        match StratifiedFrom(s1, opts, g, idx + 1, num)
        case Diverges => Diverges
        case Done(rest, s2) => Done(block + rest, s2)
  }

  /**
   * Sample `s` is built from the draws `xy` and then `uv`: x and y first, then
   * u and v of `normal`, with the mean and deviation of the cell (x, y) is
   * looked up to.
   */
  predicate BuiltFrom(s: Sample, xy: seq<real>, uv: seq<real>, opts: Options, g: GridState, num: Numerics)
    requires |xy| == 2 && |uv| == 2
  {
    var m := ValueModel(opts, CellForPoint(g, xy[0], xy[1]), num);
    s.x == xy[0] && s.y == xy[1] && s.value == NormalValue(num, uv, m.0, m.1)
  }

  /**
   * One pass of the loop of `generateRandom`: x, y, and a value from the
   * cell's model (per-cell) or the global one. Both branches of the source
   * are `sampleValue` for the cell of (x, y), since `sampleValue` itself falls
   * back to `normal(globalMean, stdDev)` when the model is global.
   */
  function RandomOne(src: Source, opts: Options, g: GridState, num: Numerics): (res: Run<Sample>)
    ensures res.Done? <==> Live(src)
    ensures res.Done? ==> res.src == Twice(Twice(src)) && Live(res.src)
    ensures res.Done? && UnitDraws(src) ==> UnitDraws(res.src)
  {
    var (s1, x) := Random(src);
    var (s2, y) := Random(s1);
    match SampleValue(s2, opts, CellForPoint(g, x, y), num)
    case Diverges => Diverges
    case Done(v, s3) =>
      Done(Sample(x, y, v), s3)
  }

  /**
   * A uniform sample sits at the first two draws of its pass, and its value is
   * the normal draw over the next two, with the mean and deviation of the cell
   * the point falls in (per-cell mode) or the global ones.
   */
  lemma RandomOneBuilt(src: Source, opts: Options, g: GridState, num: Numerics)
    requires Live(src)
    ensures BuiltFrom(RandomOne(src, opts, g, num).value, Draws(src, 2), Draws(Skip(src, 2), 2), opts, g, num)
  {
    TwoDraws(src);
    TwoDraws(Twice(src));
  }

  /** The loop of `generateRandom`: `n` samples at uniform positions of the unit square. */
  function RandomFrom(src: Source, opts: Options, g: GridState, n: int, num: Numerics): (res: Run<seq<Sample>>)
    ensures res.Done? <==> n <= 0 || Live(src)
    ensures res.Done? ==> |res.value| == if n > 0 then n else 0
    ensures res.Done? ==> res.src == Skip(src, 4 * |res.value|)
    ensures res.Done? ==> (Live(res.src) <==> Live(src))
    ensures res.Done? && UnitDraws(src) ==> UnitDraws(res.src)
    decreases n
  {
    if n <= 0 then Done([], src)
    else
      match RandomOne(src, opts, g, num)
      case Diverges => Diverges
      case Done(sample, s1) =>
        match RandomFrom(s1, opts, g, n - 1, num)
        case Diverges => Diverges
        case Done(rest, s2) =>
          FourDraws(src);
          DrawsSplit(src, 4, 4 * |rest|);
          Done([sample] + rest, s2)
  }

  // ---------------------------------------------------------------------------
  // Per-cell counts of stratified sampling

  /** Row-major index `idx` of a rows x cols grid names an in-range cell. */
  lemma CellOfIndex(idx: int, rows: int, cols: int)
    requires cols > 0 && 0 <= idx < rows * cols
    ensures 0 <= idx / cols < rows && 0 <= idx % cols < cols
    ensures idx == (idx / cols) * cols + idx % cols
  {
  }

  /** Points placed inside cell (r, c) of an ordered grid are looked up as that cell. */
  lemma BlockLookup(g: GridState, block: seq<Sample>, r: int, c: int)
    requires Ordered(g)
    requires forall k :: 0 <= k < |block| ==> InCell(g, block[k], r, c)
    ensures forall k :: 0 <= k < |block| ==> CellForPoint(g, block[k].x, block[k].y) == Cell(r, c)
  {
    forall k | 0 <= k < |block| ensures CellForPoint(g, block[k].x, block[k].y) == Cell(r, c) {
      IntervalLookup(g.horizontal, block[k].y, r);
      IntervalLookup(g.vertical, block[k].x, c);
    }
  }

  /**
   * One pass of the stratified loop: the cell of index `target` receives the
   * whole block when `idx` is `target`, and otherwise only what the later
   * passes give it.
   */
  lemma StratifiedStep(src: Source, opts: Options, g: GridState, idx: int, num: Numerics, target: int) returns (next: Source)
    requires Valid(g) && Ordered(g) && 0 <= idx < g.rows * g.cols && 0 <= target
    requires UnitDraws(src) && StratifiedFrom(src, opts, g, idx, num).Done?
    ensures UnitDraws(next) && StratifiedFrom(next, opts, g, idx + 1, num).Done?
    ensures |CellValues(StratifiedFrom(src, opts, g, idx, num).value, g, Cell(target / g.cols, target % g.cols))| ==
      (if idx == target then Quota(opts.sampleCount, g.rows * g.cols, idx) else 0)
      + |CellValues(StratifiedFrom(next, opts, g, idx + 1, num).value, g, Cell(target / g.cols, target % g.cols))|
  {
    CellOfIndex(idx, g.rows, g.cols);
    var home := Cell(idx / g.cols, idx % g.cols);
    var cell := Cell(target / g.cols, target % g.cols);
    var blockRun := PlaceInCell(src, opts, g, home.row, home.col, Allocation(opts.sampleCount, g.rows * g.cols, idx), num);
    next := blockRun.src;
    var rest := StratifiedFrom(next, opts, g, idx + 1, num).value;
    assert StratifiedFrom(src, opts, g, idx, num).value == blockRun.value + rest;
    BlockLookup(g, blockRun.value, home.row, home.col);
    CellValuesAppend(blockRun.value, rest, g, cell);
    BlockCount(blockRun.value, g, home, cell);
    SameIndexSameCell(idx, target, g.cols);
  }

  /** A block that lies in one cell counts fully towards that cell and not at all towards any other. */
  lemma BlockCount(block: seq<Sample>, g: GridState, home: Cell, cell: Cell)
    requires forall k :: 0 <= k < |block| ==> CellForPoint(g, block[k].x, block[k].y) == home
    ensures |CellValues(block, g, cell)| == if cell == home then |block| else 0
  {
    if cell == home {
      CellValuesAll(block, g, cell);
    } else {
      CellValuesNone(block, g, cell);
    }
  }

  /** From pass `idx` on, the cell of index `target` receives its quota if its pass is still ahead, and nothing otherwise. */
  lemma {:induction false} StratifiedCounts(src: Source, opts: Options, g: GridState, idx: int, num: Numerics, target: int)
    requires Valid(g) && Ordered(g) && 0 <= idx <= g.rows * g.cols && 0 <= target < g.rows * g.cols
    requires UnitDraws(src) && StratifiedFrom(src, opts, g, idx, num).Done?
    ensures |CellValues(StratifiedFrom(src, opts, g, idx, num).value, g, Cell(target / g.cols, target % g.cols))| ==
      if idx <= target then Quota(opts.sampleCount, g.rows * g.cols, target) else 0
    decreases g.rows * g.cols - idx
  {
    if idx < g.rows * g.cols {
      var next := StratifiedStep(src, opts, g, idx, num, target);
      StratifiedCounts(next, opts, g, idx + 1, num, target);
    }
  }

  /**
   * Stratified sampling gives every cell of an ordered grid exactly its
   * allocation: `floor(count / cells)`, plus one for the first `count % cells`
   * cells in row-major order.
   */
  lemma StratifiedAllocation(src: Source, opts: Options, g: GridState, num: Numerics, r: int, c: int)
    requires Valid(g) && Ordered(g) && UnitDraws(src) && StratifiedFrom(src, opts, g, 0, num).Done?
    requires 0 <= r < g.rows && 0 <= c < g.cols
    ensures |CellValues(StratifiedFrom(src, opts, g, 0, num).value, g, Cell(r, c))| ==
      Quota(opts.sampleCount, g.rows * g.cols, r * g.cols + c)
  {
    var target := r * g.cols + c;
    RowMajorInRange(r, c, g.rows, g.cols);
    RowMajor(r, c, g.cols);
    assert Cell(target / g.cols, target % g.cols) == Cell(r, c);
    StratifiedCounts(src, opts, g, 0, num, target);
  }

  /** With at least one sample per cell, stratified sampling leaves no cell of an ordered grid empty. */
  lemma StratifiedFillsEveryCell(src: Source, opts: Options, g: GridState, num: Numerics)
    requires Valid(g) && Ordered(g) && UnitDraws(src) && StratifiedFrom(src, opts, g, 0, num).Done?
    requires opts.sampleCount >= g.rows * g.cols
    ensures forall r, c :: 0 <= r < g.rows && 0 <= c < g.cols ==>
      |CellValues(StratifiedFrom(src, opts, g, 0, num).value, g, Cell(r, c))| > 0
  {
    forall r, c | 0 <= r < g.rows && 0 <= c < g.cols
      ensures |CellValues(StratifiedFrom(src, opts, g, 0, num).value, g, Cell(r, c))| > 0
    {
      var target := r * g.cols + c;
      RowMajorInRange(r, c, g.rows, g.cols);
      StratifiedAllocation(src, opts, g, num, r, c);
      EveryCellAllocated(opts.sampleCount, g.rows * g.cols, target);
    }
  }

  /** Two indices name the same row and column exactly when they are equal. */
  lemma SameIndexSameCell(i: int, j: int, cols: int)
    requires 0 <= i && 0 <= j && cols > 0
    ensures (Cell(i / cols, i % cols) == Cell(j / cols, j % cols)) <==> i == j
  {
    if i / cols == j / cols && i % cols == j % cols {
      assert i == (i / cols) * cols + i % cols;
      assert j == (j / cols) * cols + j % cols;
    }
  }

  lemma RowMajorInRange(r: int, c: int, rows: int, cols: int)
    requires 0 <= r < rows && 0 <= c < cols
    ensures 0 <= r * cols + c < rows * cols
  {
    ScaledBounds(rows - r, cols);
    assert rows * cols == r * cols + (rows - r) * cols;
  }

  /** Sample i of uniform sampling is one pass of the loop from the source after 4i draws. */
  lemma {:induction false} RandomPass(src: Source, opts: Options, g: GridState, n: int, num: Numerics, i: int)
    requires Live(src) && 0 <= i < n
    ensures Live(Skip(src, 4 * i))
    ensures RandomFrom(src, opts, g, n, num).value[i] == RandomOne(Skip(src, 4 * i), opts, g, num).value
    decreases i
  {
    if i == 0 {
      RandomFirst(src, opts, g, n, num);
    } else {
      var j := i - 1;
      var next := RandomShift(src, opts, g, n, num, i);
      assert 4 * (i - 1) == 4 * j;
      RandomPass(next, opts, g, n - 1, num, j);
    }
  }

  /** The first sample of a run is one pass of the loop. */
  lemma RandomFirst(src: Source, opts: Options, g: GridState, n: int, num: Numerics)
    requires Live(src) && n > 0
    ensures Skip(src, 0) == src
    ensures RandomFrom(src, opts, g, n, num).value[0] == RandomOne(src, opts, g, num).value
  {
  }

  /** Sample i > 0 of a run is sample i - 1 of the run that starts after the first pass. */
  lemma RandomShift(src: Source, opts: Options, g: GridState, n: int, num: Numerics, i: int) returns (next: Source)
    requires Live(src) && 0 < i < n
    ensures Live(next) && Skip(next, 4 * (i - 1)) == Skip(src, 4 * i)
    ensures RandomFrom(src, opts, g, n, num).value[i] == RandomFrom(next, opts, g, n - 1, num).value[i - 1]
  {
    var first := RandomOne(src, opts, g, num);
    next := first.src;
    FourDraws(src);
    DrawsSplit(src, 4, 4 * (i - 1));
    assert RandomFrom(src, opts, g, n, num).value == [first.value] + RandomFrom(next, opts, g, n - 1, num).value;
  }

  /**
   * Uniform sampling from a live source uses four draws per sample, in the
   * order of the source: sample i is the loop pass over draws 4i .. 4i+3.
   */
  lemma RandomDrawOrder(src: Source, opts: Options, g: GridState, n: int, num: Numerics, i: int)
    requires Live(src) && 0 <= i < n
    ensures BuiltFrom(RandomFrom(src, opts, g, n, num).value[i], PairOf(Skip(src, 4 * i)), PairOf(Twice(Skip(src, 4 * i))), opts, g, num)
  {
    RandomPass(src, opts, g, n, num, i);
    var s := Skip(src, 4 * i);
    assert BuiltFrom(RandomOne(s, opts, g, num).value, PairOf(s), PairOf(Twice(s)), opts, g, num);
  }

  // ---------------------------------------------------------------------------
  // generate

  /** `{minValue, maxValue}` of the frozen colour scale. */
  datatype ColorScale = ColorScale(minValue: real, maxValue: real)

  /** `Math.min(...samples.map(s => s.value))` for a non-empty list. */
  function MinValue(s: seq<Sample>): (m: real)
    requires |s| > 0
    ensures forall i :: 0 <= i < |s| ==> m <= s[i].value
    ensures exists i :: 0 <= i < |s| && s[i].value == m
    decreases |s|
  {
    if |s| == 1 then s[0].value
    else
      var rest := MinValue(s[1..]);
      assert forall i :: 1 <= i < |s| ==> s[i] == s[1..][i - 1];
      if s[0].value <= rest then s[0].value else rest
  }

  /** `Math.max(...samples.map(s => s.value))` for a non-empty list. */
  function MaxValue(s: seq<Sample>): (m: real)
    requires |s| > 0
    ensures forall i :: 0 <= i < |s| ==> s[i].value <= m
    ensures exists i :: 0 <= i < |s| && s[i].value == m
    decreases |s|
  {
    if |s| == 1 then s[0].value
    else
      var rest := MaxValue(s[1..]);
      assert forall i :: 1 <= i < |s| ==> s[i] == s[1..][i - 1];
      if s[0].value >= rest then s[0].value else rest
  }

  /** `frozenColorScale`: null without samples, else the smallest and largest value, both attained. */
  function FrozenColorScale(samples: seq<Sample>): (r: Option<ColorScale>)
    ensures r.None? <==> |samples| == 0
    ensures r.Some? ==> forall i :: 0 <= i < |samples| ==> r.value.minValue <= samples[i].value <= r.value.maxValue
    ensures r.Some? ==> exists i :: 0 <= i < |samples| && samples[i].value == r.value.minValue
    ensures r.Some? ==> exists i :: 0 <= i < |samples| && samples[i].value == r.value.maxValue
  {
    if |samples| == 0 then None else Some(ColorScale(MinValue(samples), MaxValue(samples)))
  }

  /** The cell means `calculateGroundTruthMean` reads: `cellMeans[key] ?? 5`, so a stored 0 stays 0. */
  function NullishMeanFn(means: map<Cell, real>): (int, int) -> real {
    (r: int, c: int) => NullishOr(means, Cell(r, c), 5.0)
  }

  /**
   * `calculateGroundTruthMean`: null without parameters, the global mean for
   * a global field, otherwise the area-weighted mean of the stored cell means
   * (5 where none is stored).
   */
  function CalculateGroundTruthMean(dp: Option<DistributionParams>, g: GridState): (r: Option<real>)
    requires dp.Some? && dp.value.perCell ==> Valid(g)
    ensures r.None? <==> dp.None?
    ensures dp.Some? && !dp.value.perCell ==> r == Some(dp.value.globalMean)
    ensures dp.Some? && dp.value.perCell ==>
      r.value == GridSum(g.rows, g.cols, WeightedMeanFn(g, NullishMeanFn(dp.value.cellMeans)))
  {
    match dp
    case None => None
    case Some(p) => GroundTruthMean(dp, g, NullishMeanFn(p.cellMeans))
  }

  /** Every cell storing the same mean m gives ground truth m. */
  lemma GroundTruthOfUniformMeans(dp: DistributionParams, g: GridState, m: real)
    requires dp.perCell && Valid(g)
    requires forall r, c :: 0 <= r < g.rows && 0 <= c < g.cols ==> Cell(r, c) in dp.cellMeans && dp.cellMeans[Cell(r, c)] == m
    ensures CalculateGroundTruthMean(Some(dp), g) == Some(m)
  {
    GroundTruthOfConstant(dp, g, NullishMeanFn(dp.cellMeans), m);
  }

  /** With no cell means stored every cell defaults to 5, and so does the ground truth. */
  lemma GroundTruthDefault(dp: DistributionParams, g: GridState)
    requires dp.perCell && Valid(g) && dp.cellMeans == map[]
    ensures CalculateGroundTruthMean(Some(dp), g) == Some(5.0)
  {
    GroundTruthOfConstant(dp, g, NullishMeanFn(dp.cellMeans), 5.0);
  }

  /**
   * A cell mean stored as 0 is read differently by the two readers: samples
   * are drawn around 5 (`|| 5`) while the ground truth uses 0 (`?? 5`).
   */
  lemma ZeroMeanReadTwoWays(opts: Options, key: Cell, num: Numerics)
    requires opts.perCell && key in opts.cellMeans && opts.cellMeans[key] == 0.0
    ensures ValueModel(opts, key, num).0 == 5.0
    ensures NullishMeanFn(opts.cellMeans)(key.row, key.col) == 0.0
  {
    ValueModelDefaults(opts, key, num);
  }

  /** What `generate` returns. */
  datatype Generated = Generated(
    samples: seq<Sample>,
    params: DistributionParams,
    groundTruth: Option<real>,
    colorScale: Option<ColorScale>)

  /** The `distributionParams` snapshot: the options' value model and a copy of the grid. */
  function Snapshot(opts: Options, g: GridState): DistributionParams {
    DistributionParams(opts.perCell, opts.stratified, opts.globalMean, opts.stdDev, opts.cellMeans, opts.cellVariances, g)
  }

  /** The samples the chosen mode draws from `src`. */
  function Draw(src: Source, opts: Options, g: GridState, num: Numerics): (res: Run<seq<Sample>>)
    requires Valid(g)
    ensures res.Done? <==> Live(src) || opts.sampleCount <= 0
    ensures res.Done? ==> |res.value| == if opts.sampleCount > 0 then opts.sampleCount else 0
  {
    StratifiedTotal(opts.sampleCount, g.rows * g.cols);
    if opts.stratified then StratifiedFrom(src, opts, g, 0, num)
    else RandomFrom(src, opts, g, opts.sampleCount, num)
  }

  /**
   * `generate(options)`: reseed, draw the samples, and freeze the parameters,
   * the ground truth and the colour scale; None when the draw loop never ends.
   */
  function Generate(opts: Options, g: GridState, oracle: nat -> Unit, num: Numerics): (r: Option<Generated>)
    requires Valid(g)
    ensures r.Some? <==> opts.sampleCount <= 0 || opts.seed.None? || opts.seed.value % Modulus != 0
    ensures r.Some? ==> |r.value.samples| == if opts.sampleCount > 0 then opts.sampleCount else 0
    ensures r.Some? ==> r.value.params.grid == g && r.value.params.perCell == opts.perCell
    ensures r.Some? ==> r.value.params.stratified == opts.stratified && r.value.params.globalMean == opts.globalMean
    ensures r.Some? ==> r.value.params.stdDev == opts.stdDev
    ensures r.Some? ==> r.value.params.cellMeans == opts.cellMeans && r.value.params.cellVariances == opts.cellVariances
    ensures r.Some? ==> r.value.groundTruth.Some?
    ensures r.Some? && !opts.perCell ==> r.value.groundTruth == Some(opts.globalMean)
    ensures r.Some? && opts.perCell ==>
      r.value.groundTruth.value == GridSum(g.rows, g.cols, WeightedMeanFn(g, NullishMeanFn(opts.cellMeans)))
    ensures r.Some? ==> (r.value.colorScale.None? <==> |r.value.samples| == 0)
    ensures r.Some? && r.value.colorScale.Some? ==> forall i :: 0 <= i < |r.value.samples| ==>
      r.value.colorScale.value.minValue <= r.value.samples[i].value <= r.value.colorScale.value.maxValue
    ensures r.Some? && r.value.colorScale.Some? ==>
      exists i :: 0 <= i < |r.value.samples| && r.value.samples[i].value == r.value.colorScale.value.minValue
    ensures r.Some? && r.value.colorScale.Some? ==>
      exists i :: 0 <= i < |r.value.samples| && r.value.samples[i].value == r.value.colorScale.value.maxValue
  {
    var src := SetSeed(opts.seed, oracle);
    match Draw(src, opts, g, num)
    case Diverges => None
    case Done(samples, _) =>
      var dp := Snapshot(opts, g);
      Some(Generated(samples, dp, CalculateGroundTruthMean(Some(dp), g), FrozenColorScale(samples)))
  }

  /** A seeded run never consults Math.random: the result depends on the seed alone. */
  lemma SeededIgnoresOracle(opts: Options, g: GridState, o1: nat -> Unit, o2: nat -> Unit, num: Numerics)
    requires Valid(g) && opts.seed.Some?
    ensures Generate(opts, g, o1, num) == Generate(opts, g, o2, num)
  {
  }

  /**
   * A seed that is a multiple of 2^31 - 1 (0 in particular) makes every draw
   * 0, so the first `normal` never leaves its loop and `generate` never returns.
   */
  lemma ZeroSeedNeverReturns(opts: Options, g: GridState, oracle: nat -> Unit, num: Numerics)
    requires Valid(g) && opts.seed == Some(0) && opts.sampleCount > 0
    ensures Generate(opts, g, oracle, num).None?
  {
  }
}

=== FILE: stats.dfy ===
/**
 * The estimators of src/stats/Stats.js: overall mean and population variance,
 * mean of cell means, the area-weighted post-stratification mean, and the
 * ground-truth mean of a per-cell field.
 */
module Stats {
  import opened Wrappers
  import opened Grid
  import opened Data

  /** `{mean, variance, count}` as `overall` returns it; `null` is None. */
  datatype OverallStats = OverallStats(mean: Option<real>, variance: Option<real>, count: nat)

  function Square(d: real): (r: real)
    ensures r >= 0.0
  {
    d * d
  }

  /** `values.reduce((a, b) => a + Math.pow(b - mean, 2), 0)`. */
  function SquaredDeviations(s: seq<real>, m: real): (r: real)
    ensures r >= 0.0
    decreases |s|
  {
    if |s| == 0 then 0.0 else SquaredDeviations(s[..|s| - 1], m) + Square(s[|s| - 1] - m)
  }

  /** `overall(samples)`: count, mean, and population variance (divided by n). */
  function Overall(samples: seq<Sample>): (o: OverallStats)
    ensures o.count == |samples|
    ensures o.mean.None? <==> |samples| == 0
    ensures o.variance.None? <==> |samples| == 0
    ensures o.mean.Some? ==> o.mean.value * |samples| as real == Sum(Values(samples))
    ensures o.variance.Some? ==> o.variance.value >= 0.0
    ensures o.variance.Some? ==>
      o.variance.value * |samples| as real == SquaredDeviations(Values(samples), o.mean.value)
  {
    if |samples| == 0 then OverallStats(None, None, 0)
    else
      var values := Values(samples);
      var count := |values|;
      var mean := Sum(values) / count as real;
      var variance := SquaredDeviations(values, mean) / count as real;
      OverallStats(Some(mean), Some(variance), count)
  }

  lemma {:induction false} SquaredDeviationsOfConstant(s: seq<real>, k: real)
    requires forall i :: 0 <= i < |s| ==> s[i] == k
    ensures SquaredDeviations(s, k) == 0.0
    decreases |s|
  {
    if |s| > 0 {
      SquaredDeviationsOfConstant(s[..|s| - 1], k);
    }
  }

  /** Equal values have that value as mean and zero variance. */
  lemma OverallOfConstant(samples: seq<Sample>, k: real)
    requires |samples| > 0
    requires forall i :: 0 <= i < |samples| ==> samples[i].value == k
    ensures Overall(samples).mean == Some(k)
    ensures Overall(samples).variance == Some(0.0)
  {
    var n := |samples| as real;
    SumConstant(Values(samples), k);
    assert Sum(Values(samples)) == n * k;
    DivCancel(k, n);
    assert Overall(samples).mean.value == Sum(Values(samples)) / n;
    SquaredDeviationsOfConstant(Values(samples), k);
  }

  // ---------------------------------------------------------------------------
  // Grouping by cell

  /** The `cellSamples[key]` array: values of the samples the lookup places in `cell`, in sample order. */
  function CellValues(samples: seq<Sample>, g: GridState, cell: Cell): seq<real>
    decreases |samples|
  {
    if |samples| == 0 then []
    else
      var s := samples[|samples| - 1];
      CellValues(samples[..|samples| - 1], g, cell) + (if CellForPoint(g, s.x, s.y) == cell then [s.value] else [])
  }

  /** Grouping a concatenation groups each part, in order. */
  lemma {:induction false} CellValuesAppend(a: seq<Sample>, b: seq<Sample>, g: GridState, cell: Cell)
    ensures CellValues(a + b, g, cell) == CellValues(a, g, cell) + CellValues(b, g, cell)
    decreases |b|
  {
    if |b| > 0 {
      assert (a + b)[..|a + b| - 1] == a + b[..|b| - 1];
      CellValuesAppend(a, b[..|b| - 1], g, cell);
    } else {
      assert a + b == a;
    }
  }

  /** Samples that all fall in one cell: that cell receives every value, in order. */
  lemma {:induction false} CellValuesAll(samples: seq<Sample>, g: GridState, cell: Cell)
    requires forall i :: 0 <= i < |samples| ==> CellForPoint(g, samples[i].x, samples[i].y) == cell
    ensures CellValues(samples, g, cell) == Values(samples)
    decreases |samples|
  {
    if |samples| > 0 {
      CellValuesAll(samples[..|samples| - 1], g, cell);
      ValuesPrefix(samples);
    }
  }

  /** A cell no sample falls in receives nothing. */
  lemma {:induction false} CellValuesNone(samples: seq<Sample>, g: GridState, cell: Cell)
    requires forall i :: 0 <= i < |samples| ==> CellForPoint(g, samples[i].x, samples[i].y) != cell
    ensures CellValues(samples, g, cell) == []
    decreases |samples|
  {
    if |samples| > 0 {
      CellValuesNone(samples[..|samples| - 1], g, cell);
    }
  }

  /** Every value a cell receives is the value of some sample. */
  lemma {:induction false} CellValuesWithin(samples: seq<Sample>, g: GridState, cell: Cell, lo: real, hi: real)
    requires forall i :: 0 <= i < |samples| ==> lo <= samples[i].value <= hi
    ensures forall k :: 0 <= k < |CellValues(samples, g, cell)| ==> lo <= CellValues(samples, g, cell)[k] <= hi
    decreases |samples|
  {
    if |samples| > 0 {
      CellValuesWithin(samples[..|samples| - 1], g, cell, lo, hi);
    }
  }

  /** The mean of one occupied cell, or 0 for an empty one (which the callers skip). */
  function CellMeanOrZero(vs: seq<real>): real {
    if |vs| > 0 then Sum(vs) / |vs| as real else 0.0
  }

  function CellMeanFn(samples: seq<Sample>, g: GridState): (int, int) -> real {
    (r: int, c: int) => CellMeanOrZero(CellValues(samples, g, Cell(r, c)))
  }

  function OccupiedFn(samples: seq<Sample>, g: GridState): (int, int) -> real {
    (r: int, c: int) => if |CellValues(samples, g, Cell(r, c))| > 0 then 1.0 else 0.0
  }

  /** Every sample of a non-empty set lands in some in-range cell of a valid grid, so some cell is occupied. */
  lemma SomeCellOccupied(samples: seq<Sample>, g: GridState)
    ensures Valid(g) && |samples| > 0 ==> GridSum(g.rows, g.cols, OccupiedFn(samples, g)) >= 1.0
  {
    if !Valid(g) || |samples| == 0 {
      return;
    }
    var s := samples[|samples| - 1];
    var c0 := CellForPoint(g, s.x, s.y);
    assert |CellValues(samples, g, c0)| > 0;
    GridSumAtLeastPoint(g.rows, g.cols, OccupiedFn(samples, g), c0.row, c0.col);
  }

  /**
   * `meanOfCellMeans`: the unweighted mean of the means of the occupied cells
   * of [0, rows) x [0, cols); empty cells are skipped, not counted as 0.
   */
  function MeanOfCellMeans(samples: seq<Sample>, g: GridState): (r: Option<real>)
    ensures |samples| == 0 ==> r.None?
    ensures Valid(g) && |samples| > 0 ==> r.Some?
    ensures r.Some? ==>
      r.value * GridSum(g.rows, g.cols, OccupiedFn(samples, g)) == GridSum(g.rows, g.cols, CellMeanFn(samples, g))
  {
    if |samples| == 0 then None
    else
      var occupied := GridSum(g.rows, g.cols, OccupiedFn(samples, g));
      SomeCellOccupied(samples, g);
      if occupied == 0.0 then None
      else
        var total := GridSum(g.rows, g.cols, CellMeanFn(samples, g));
        DivCancel(total, occupied);
        Some(total / occupied)
  }

  /** When every sample falls in one cell, the mean of cell means is the overall mean. */
  lemma MeanOfCellMeansSingleCell(samples: seq<Sample>, g: GridState, cell: Cell)
    requires Valid(g) && |samples| > 0
    requires forall i :: 0 <= i < |samples| ==> CellForPoint(g, samples[i].x, samples[i].y) == cell
    ensures MeanOfCellMeans(samples, g) == Overall(samples).mean
  {
    var s := samples[0];
    assert 0 <= cell.row < g.rows && 0 <= cell.col < g.cols by {
      assert CellForPoint(g, s.x, s.y) == cell;
    }
    var mean := Sum(Values(samples)) / |samples| as real;
    assert GridSum(g.rows, g.cols, OccupiedFn(samples, g)) == 1.0
        && GridSum(g.rows, g.cols, CellMeanFn(samples, g)) == mean by {
      CellValuesAll(samples, g, cell);
      forall r, c | 0 <= r < g.rows && 0 <= c < g.cols && (r != cell.row || c != cell.col)
        ensures CellValues(samples, g, Cell(r, c)) == []
      {
        CellValuesNone(samples, g, Cell(r, c));
      }
      GridSumPoint(g.rows, g.cols, OccupiedFn(samples, g), cell.row, cell.col);
      GridSumPoint(g.rows, g.cols, CellMeanFn(samples, g), cell.row, cell.col);
    }
    assert Overall(samples).mean == Some(mean);
  }

  // ---------------------------------------------------------------------------
  // Post-stratification

  /** One cell's contribution `(w / n) * sum` for values `vs` and area `w`; nothing for an empty cell. */
  function Term(vs: seq<real>, w: real): real {
    if |vs| > 0 then (w / |vs| as real) * Sum(vs) else 0.0
  }

  /** Cell (r, c)'s term of the post-stratification sum. */
  function StratTerm(samples: seq<Sample>, g: GridState, r: int, c: int): real {
    Term(CellValues(samples, g, Cell(r, c)), CellArea(g, r, c))
  }

  /** A non-empty cell whose values all equal k contributes k times its area. */
  lemma TermOfConstant(vs: seq<real>, w: real, k: real)
    requires |vs| > 0
    requires forall i :: 0 <= i < |vs| ==> vs[i] == k
    ensures Term(vs, w) == k * w
  {
    var n := |vs| as real;
    SumConstant(vs, k);
    assert Term(vs, w) == (w / n) * (n * k);
    WeightedConstant(w, n, k);
  }

  /** A non-empty cell of positive area whose values lie in [lo, hi] contributes between lo and hi times its area. */
  lemma TermBetween(vs: seq<real>, w: real, lo: real, hi: real)
    requires |vs| > 0 && w > 0.0
    requires forall i :: 0 <= i < |vs| ==> lo <= vs[i] <= hi
    ensures lo * w <= Term(vs, w) <= hi * w
  {
    var n := |vs| as real;
    SumBounds(vs, lo, hi);
    var m := Sum(vs) / n;
    assert Term(vs, w) == w * m;
    assert lo <= m <= hi by {
      assert m * n == Sum(vs);
    }
    ScaleBetween(w, lo, m, hi);
  }

  function StratTermFn(samples: seq<Sample>, g: GridState): (int, int) -> real {
    (r: int, c: int) => StratTerm(samples, g, r, c)
  }

  /** `postStratificationMean`: the area-weighted sum of the occupied cells' means. */
  function PostStratificationMean(samples: seq<Sample>, g: GridState): (r: Option<real>)
    ensures r.None? <==> |samples| == 0
  {
    if |samples| == 0 then None else Some(GridSum(g.rows, g.cols, StratTermFn(samples, g)))
  }

  lemma ConstantCellTerm(samples: seq<Sample>, g: GridState, r: int, c: int, k: real)
    requires |CellValues(samples, g, Cell(r, c))| > 0
    requires forall i :: 0 <= i < |samples| ==> samples[i].value == k
    ensures StratTerm(samples, g, r, c) == k * CellArea(g, r, c)
  {
    var vs := CellValues(samples, g, Cell(r, c));
    CellValuesWithin(samples, g, Cell(r, c), k, k);
    TermOfConstant(vs, CellArea(g, r, c), k);
  }

  lemma WeightedConstant(a: real, n: real, k: real)
    requires n != 0.0
    ensures (a / n) * (n * k) == k * a
  {
  }

  /** With every cell occupied and every value equal to k, the areas telescope and the estimate is k. */
  lemma PostStratificationOfConstant(samples: seq<Sample>, g: GridState, k: real)
    requires Valid(g) && |samples| > 0
    requires forall r, c :: 0 <= r < g.rows && 0 <= c < g.cols ==> |CellValues(samples, g, Cell(r, c))| > 0
    requires forall i :: 0 <= i < |samples| ==> samples[i].value == k
    ensures PostStratificationMean(samples, g) == Some(k)
  {
    forall r, c | 0 <= r < g.rows && 0 <= c < g.cols
      ensures StratTermFn(samples, g)(r, c) == ScaledAreaFn(g, k)(r, c)
    {
      ConstantCellTerm(samples, g, r, c, k);
    }
    GridSumCongruent(g.rows, g.cols, StratTermFn(samples, g), ScaledAreaFn(g, k));
    ScaledAreaSum(g, k);
  }

  lemma BoundedCellTerm(samples: seq<Sample>, g: GridState, r: int, c: int, lo: real, hi: real)
    requires Valid(g) && Ordered(g) && 0 <= r < g.rows && 0 <= c < g.cols
    requires |CellValues(samples, g, Cell(r, c))| > 0
    requires forall i :: 0 <= i < |samples| ==> lo <= samples[i].value <= hi
    ensures ScaledArea(g, lo, r, c) <= StratTerm(samples, g, r, c) <= ScaledArea(g, hi, r, c)
  {
    CellValuesWithin(samples, g, Cell(r, c), lo, hi);
    CellTermBetween(CellValues(samples, g, Cell(r, c)), g, r, c, lo, hi);
  }

  /** Values within [lo, hi] in a cell of an ordered grid give a term within lo and hi times its area. */
  lemma CellTermBetween(vs: seq<real>, g: GridState, r: int, c: int, lo: real, hi: real)
    requires Valid(g) && Ordered(g) && 0 <= r < g.rows && 0 <= c < g.cols
    requires |vs| > 0 && forall i :: 0 <= i < |vs| ==> lo <= vs[i] <= hi
    ensures ScaledArea(g, lo, r, c) <= Term(vs, CellArea(g, r, c)) <= ScaledArea(g, hi, r, c)
  {
    var w := CellArea(g, r, c);
    AreaPositive(g, r, c);
    TermBetween(vs, w, lo, hi);
    assert ScaledArea(g, lo, r, c) == lo * w;
    assert ScaledArea(g, hi, r, c) == hi * w;
  }

  /** Every cell term lies between lo and hi times the cell's area. */
  lemma BoundedTerms(samples: seq<Sample>, g: GridState, lo: real, hi: real)
    requires Valid(g) && Ordered(g)
    requires forall r, c :: 0 <= r < g.rows && 0 <= c < g.cols ==> |CellValues(samples, g, Cell(r, c))| > 0
    requires forall i :: 0 <= i < |samples| ==> lo <= samples[i].value <= hi
    ensures forall r, c :: 0 <= r < g.rows && 0 <= c < g.cols ==>
      ScaledAreaFn(g, lo)(r, c) <= StratTermFn(samples, g)(r, c) <= ScaledAreaFn(g, hi)(r, c)
  {
    forall r, c | 0 <= r < g.rows && 0 <= c < g.cols
      ensures ScaledAreaFn(g, lo)(r, c) <= StratTermFn(samples, g)(r, c) <= ScaledAreaFn(g, hi)(r, c)
    {
      BoundedCellTerm(samples, g, r, c, lo, hi);
      assert StratTermFn(samples, g)(r, c) == StratTerm(samples, g, r, c);
      assert ScaledAreaFn(g, lo)(r, c) == ScaledArea(g, lo, r, c);
      assert ScaledAreaFn(g, hi)(r, c) == ScaledArea(g, hi, r, c);
    }
  }

  lemma ScaleBetween(a: real, lo: real, m: real, hi: real)
    requires a > 0.0 && lo <= m <= hi
    ensures lo * a <= a * m <= hi * a
  {
  }

  /**
   * On an ordered grid with every cell occupied, the post-stratification
   * estimate lies between the smallest and the largest sample value.
   */
  lemma PostStratificationBetween(samples: seq<Sample>, g: GridState, lo: real, hi: real)
    requires Valid(g) && Ordered(g) && |samples| > 0
    requires forall r, c :: 0 <= r < g.rows && 0 <= c < g.cols ==> |CellValues(samples, g, Cell(r, c))| > 0
    requires forall i :: 0 <= i < |samples| ==> lo <= samples[i].value <= hi
    ensures lo <= PostStratificationMean(samples, g).value <= hi
  {
    BoundedTerms(samples, g, lo, hi);
    GridSumBetween(g, StratTermFn(samples, g), lo, hi);
  }

  /** Over a unit area the term is the plain mean of the values. */
  lemma TermUnitArea(vs: seq<real>)
    requires |vs| > 0
    ensures Term(vs, 1.0) == Sum(vs) / |vs| as real
  {
  }

  /** On a one-cell grid the post-stratification mean is the overall mean. */
  lemma PostStratificationSingleCell(samples: seq<Sample>, g: GridState)
    requires Valid(g) && g.rows == 1 && g.cols == 1 && |samples| > 0
    ensures PostStratificationMean(samples, g) == Overall(samples).mean
  {
    forall i | 0 <= i < |samples|
      ensures CellForPoint(g, samples[i].x, samples[i].y) == Cell(0, 0)
    {
    }
    CellValuesAll(samples, g, Cell(0, 0));
    AreasSumToOne(g);
    assert CellArea(g, 0, 0) == 1.0 by {
      assert GridSum(g.rows, g.cols, AreaFn(g)) == AreaFn(g)(0, 0);
    }
    assert GridSum(g.rows, g.cols, StratTermFn(samples, g)) == StratTerm(samples, g, 0, 0);
    TermUnitArea(Values(samples));
  }

  // ---------------------------------------------------------------------------
  // Ground truth

  function WeightedMeanFn(g: GridState, cellMean: (int, int) -> real): (int, int) -> real {
    (r: int, c: int) => cellMean(r, c) * CellArea(g, r, c)
  }

  /**
   * `groundTruthMean`: null without parameters, the global mean for a global
   * field, and otherwise the area-weighted mean `total / area` of the cell means
   * `cellMean(r, c)` supplies.
   */
  function GroundTruthMean(dp: Option<DistributionParams>, g: GridState, cellMean: (int, int) -> real): (r: Option<real>)
    requires dp.Some? && dp.value.perCell ==> Valid(g)
    ensures r.None? <==> dp.None?
    ensures dp.Some? && !dp.value.perCell ==> r == Some(dp.value.globalMean)
    ensures dp.Some? && dp.value.perCell ==>
      r.value * GridSum(g.rows, g.cols, AreaFn(g)) == GridSum(g.rows, g.cols, WeightedMeanFn(g, cellMean))
    ensures dp.Some? && dp.value.perCell ==> r.value == GridSum(g.rows, g.cols, WeightedMeanFn(g, cellMean))
  {
    if dp.None? then None
    else if !dp.value.perCell then Some(dp.value.globalMean)
    else
      var total := GridSum(g.rows, g.cols, WeightedMeanFn(g, cellMean));
      var area := GridSum(g.rows, g.cols, AreaFn(g));
      AreasSumToOne(g);
      assert total / area == total;
      Some(total / area)
  }

  /** A per-cell field whose cell means all equal m has ground truth m. */
  lemma GroundTruthOfConstant(dp: DistributionParams, g: GridState, cellMean: (int, int) -> real, m: real)
    requires dp.perCell && Valid(g)
    requires forall r, c :: 0 <= r < g.rows && 0 <= c < g.cols ==> cellMean(r, c) == m
    ensures GroundTruthMean(Some(dp), g, cellMean) == Some(m)
  {
    forall r, c | 0 <= r < g.rows && 0 <= c < g.cols
      ensures WeightedMeanFn(g, cellMean)(r, c) == ScaledAreaFn(g, m)(r, c)
    {
    }
    GridSumCongruent(g.rows, g.cols, WeightedMeanFn(g, cellMean), ScaledAreaFn(g, m));
    ScaledAreaSum(g, m);
    AreasSumToOne(g);
  }

  /** On an ordered grid the ground truth lies between the smallest and the largest cell mean. */
  lemma GroundTruthBetween(dp: DistributionParams, g: GridState, cellMean: (int, int) -> real, lo: real, hi: real)
    requires dp.perCell && Valid(g) && Ordered(g)
    requires forall r, c :: 0 <= r < g.rows && 0 <= c < g.cols ==> lo <= cellMean(r, c) <= hi
    ensures lo <= GroundTruthMean(Some(dp), g, cellMean).value <= hi
  {
    forall r, c | 0 <= r < g.rows && 0 <= c < g.cols
      ensures ScaledAreaFn(g, lo)(r, c) <= WeightedMeanFn(g, cellMean)(r, c) <= ScaledAreaFn(g, hi)(r, c)
    {
      var a := CellArea(g, r, c);
      AreaPositive(g, r, c);
      ScaleBetween(a, lo, cellMean(r, c), hi);
      assert WeightedMeanFn(g, cellMean)(r, c) == cellMean(r, c) * a;
      assert ScaledAreaFn(g, lo)(r, c) == lo * a;
      assert ScaledAreaFn(g, hi)(r, c) == hi * a;
    }
    GridSumBetween(g, WeightedMeanFn(g, cellMean), lo, hi);
  }

  /** For a global field the ground truth is the global mean whatever the grid. */
  lemma GroundTruthIgnoresGrid(dp: DistributionParams, g1: GridState, g2: GridState, m1: (int, int) -> real, m2: (int, int) -> real)
    requires !dp.perCell
    ensures GroundTruthMean(Some(dp), g1, m1) == GroundTruthMean(Some(dp), g2, m2) == Some(dp.globalMean)
  {
  }
}

=== FILE: surface.dfy ===
/**
 * The error surface of src/workers/heatmap-worker.js: the post-stratification
 * error of candidate partitions, and the row-range loop that scores one band
 * of candidates and tracks the smallest and largest error.
 */
module Surface {
  import opened Wrappers
  import opened Grid
  import opened Data
  import opened Stats

  // ---------------------------------------------------------------------------
  // The error of one candidate partition

  /**
   * The grid `calculatePostStratificationError` scans: boundaries
   * `[0, ...h/100, 1]` down and `[0, ...v/100, 1]` across, so |hs| + 1 rows
   * and |vs| + 1 columns. Its lookup is the first-match scan of
   * `getCellForPoint`, with the same fallback to interval 0.
   */
  function DividerGrid(hs: seq<real>, vs: seq<real>): (g: GridState)
    ensures Valid(g) && g.rows == |hs| + 1 && g.cols == |vs| + 1
    ensures g.horizontal == hs && g.vertical == vs
  {
    GridState(|hs| + 1, |vs| + 1, hs, vs)
  }

  /** Some cell of `g` receives fewer than two samples. */
  predicate HasSparseCell(samples: seq<Sample>, g: GridState) {
    exists r, c | 0 <= r < g.rows && 0 <= c < g.cols :: |CellValues(samples, g, Cell(r, c))| < 2
  }

  /**
   * `calculatePostStratificationError`: null as soon as some cell has fewer
   * than two samples, otherwise the squared distance between the
   * area-weighted estimate of the partition and the ground truth.
   */
  function PostStratError(samples: seq<Sample>, hs: seq<real>, vs: seq<real>, gt: real): (r: Option<real>)
    ensures r.None? <==> HasSparseCell(samples, DividerGrid(hs, vs))
    ensures r.Some? ==> r.value >= 0.0
    ensures r.Some? ==> PostStratificationMean(samples, DividerGrid(hs, vs)).Some?
    ensures r.Some? ==> r.value == Square(PostStratificationMean(samples, DividerGrid(hs, vs)).value - gt)
  {
    var g := DividerGrid(hs, vs);
    if HasSparseCell(samples, g) then None
    else
      assert |CellValues(samples, g, Cell(0, 0))| >= 2;
      Some(Square(GridSum(g.rows, g.cols, StratTermFn(samples, g)) - gt))
  }

  /** `cellSamples[key]` holds, for every cell, exactly the values the lookup sends there. */
  ghost predicate GroupedBy(cellSamples: map<Cell, seq<real>>, samples: seq<Sample>, g: GridState) {
    (forall cell :: cell in cellSamples ==> cellSamples[cell] == CellValues(samples, g, cell))
    && (forall cell :: cell !in cellSamples ==> CellValues(samples, g, cell) == [])
  }

  /**
   * The worker's copy of `calculatePostStratificationError`, loop for loop:
   * group the values by cell, give up on the first cell with fewer than two
   * values, then accumulate the weighted cell means. It computes exactly the
   * function the module-level copy in src/heatmap/HeatmapService.js computes.
   */
  method WorkerError(samples: seq<Sample>, hs: seq<real>, vs: seq<real>, gt: real) returns (r: Option<real>)
    ensures r == PostStratError(samples, hs, vs, gt)
  {
    var g := DividerGrid(hs, vs);
    var cellSamples := GroupByCell(samples, g);
    var sparse := FindSparseCell(cellSamples, samples, g);
    if sparse {
      assert PostStratError(samples, hs, vs, gt) == None;
      return None;
    }
    var stratifiedMean := StratifiedSum(cellSamples, samples, g);
    r := Some(Square(stratifiedMean - gt));
    assert PostStratError(samples, hs, vs, gt) == r by {
      assert !HasSparseCell(samples, g);
    }
  }

  /** The `samples.forEach` loop: each value is appended to the list of the cell the scan finds. */
  method GroupByCell(samples: seq<Sample>, g: GridState) returns (cellSamples: map<Cell, seq<real>>)
    ensures GroupedBy(cellSamples, samples, g)
  {
    cellSamples := map[];
    for k := 0 to |samples|
      invariant GroupedBy(cellSamples, samples[..k], g)
    {
      var s := samples[k];
      var key := CellForPoint(g, s.x, s.y);
      if key !in cellSamples {
        cellSamples := cellSamples[key := []];
      }
      cellSamples := cellSamples[key := cellSamples[key] + [s.value]];
      assert samples[..k + 1][..k] == samples[..k];
    }
    assert samples[..|samples|] == samples;
  }

  /** The first nested loop: is there a cell whose list (missing counts as empty) has fewer than two values? */
  method FindSparseCell(cellSamples: map<Cell, seq<real>>, samples: seq<Sample>, g: GridState) returns (sparse: bool)
    requires Valid(g) && GroupedBy(cellSamples, samples, g)
    ensures sparse <==> HasSparseCell(samples, g)
  {
    for row := 0 to g.rows
      invariant forall r, c :: 0 <= r < row && 0 <= c < g.cols ==> |CellValues(samples, g, Cell(r, c))| >= 2
    {
      for col := 0 to g.cols
        invariant forall c :: 0 <= c < col ==> |CellValues(samples, g, Cell(row, c))| >= 2
      {
        var values := if Cell(row, col) in cellSamples then cellSamples[Cell(row, col)] else [];
        if |values| < 2 {
          assert |CellValues(samples, g, Cell(row, col))| < 2;
          return true;
        }
      }
    }
    return false;
  }

  /** The second nested loop: `stratifiedMean += (cellVolume / numSamples) * sumValues` over the occupied cells. */
  method StratifiedSum(cellSamples: map<Cell, seq<real>>, samples: seq<Sample>, g: GridState) returns (stratifiedMean: real)
    requires Valid(g) && GroupedBy(cellSamples, samples, g)
    ensures stratifiedMean == GridSum(g.rows, g.cols, StratTermFn(samples, g))
  {
    stratifiedMean := 0.0;
    for row := 0 to g.rows
      invariant stratifiedMean == GridSum(row, g.cols, StratTermFn(samples, g))
    {
      for col := 0 to g.cols
        invariant stratifiedMean == GridSum(row, g.cols, StratTermFn(samples, g)) + RowSum(row, col, StratTermFn(samples, g))
      {
        var key := Cell(row, col);
        if key in cellSamples && |cellSamples[key]| > 0 {
          var values := cellSamples[key];
          var cellWidth := Boundary(g.vertical, col + 1) - Boundary(g.vertical, col);
          var cellHeight := Boundary(g.horizontal, row + 1) - Boundary(g.horizontal, row);
          var cellVolume := cellWidth * cellHeight;
          var numSamples := |values|;
          var sumValues := Sum(values);
          OccupiedTerm(g, row, col, values, cellWidth, cellHeight, cellVolume, numSamples, sumValues);
          stratifiedMean := stratifiedMean + (cellVolume / numSamples as real) * sumValues;
        } else {
          assert StratTerm(samples, g, row, col) == 0.0;
        }
        assert StratTermFn(samples, g)(row, col) == StratTerm(samples, g, row, col);
      }
    }
  }

  /** What the worker adds for an occupied cell with values `vs` is that cell's post-stratification term. */
  lemma OccupiedTerm(g: GridState, row: int, col: int, vs: seq<real>,
                     cellWidth: real, cellHeight: real, cellVolume: real, numSamples: int, sumValues: real)
    requires Valid(g) && 0 <= row < g.rows && 0 <= col < g.cols
    requires numSamples == |vs| > 0 && sumValues == Sum(vs)
    requires cellWidth == Boundary(g.vertical, col + 1) - Boundary(g.vertical, col)
    requires cellHeight == Boundary(g.horizontal, row + 1) - Boundary(g.horizontal, row)
    requires cellVolume == cellWidth * cellHeight
    ensures Term(vs, CellArea(g, row, col)) == (cellVolume / numSamples as real) * sumValues
  {
    var h := Width(g.horizontal, row);
    var w := Width(g.vertical, col);
    assert h == cellHeight && w == cellWidth;
    assert CellArea(g, row, col) == h * w;
    assert h * w == cellHeight * cellWidth;
    assert cellHeight * cellWidth == cellVolume;
  }

  // ---------------------------------------------------------------------------
  // Properties of the error

  lemma NonNegativeProduct(a: real, b: real)
    requires a >= 0.0 && b >= 0.0
    ensures a * b >= 0.0
  {
  }

  /** The square of a non-zero number is positive. */
  lemma SquarePositive(d: real)
    requires d != 0.0
    ensures Square(d) > 0.0
  {
    if d < 0.0 {
      SquareOfPositive(-d);
      assert Square(-d) == Square(d) by {
        assert (-d) * (-d) == d * d;
      }
    } else {
      SquareOfPositive(d);
    }
  }

  lemma SquareOfPositive(m: real)
    requires m > 0.0
    ensures Square(m) > 0.0
  {
    var s := Square(m);
    assert s == m * m;
    assert s / m == m;
  }

  lemma SquareZeroIff(d: real)
    ensures Square(d) == 0.0 <==> d == 0.0
  {
    if d != 0.0 {
      SquarePositive(d);
    }
  }

  /** Squares grow with the magnitude: |a| <= b gives a^2 <= b^2. */
  lemma SquareMono(a: real, b: real)
    requires -b <= a <= b
    ensures Square(a) <= Square(b)
  {
    NonNegativeProduct(b - a, b + a);
    assert (b - a) * (b + a) == b * b - a * a;
  }

  /** A scored partition has error zero exactly when its estimate equals the ground truth. */
  lemma ErrorZeroIff(samples: seq<Sample>, hs: seq<real>, vs: seq<real>, gt: real)
    requires PostStratError(samples, hs, vs, gt).Some?
    ensures PostStratError(samples, hs, vs, gt).value == 0.0 <==>
      PostStratificationMean(samples, DividerGrid(hs, vs)).value == gt
  {
    SquareZeroIff(PostStratificationMean(samples, DividerGrid(hs, vs)).value - gt);
  }

  /** A cell never receives more values than there are samples. */
  lemma {:induction false} CellValuesAtMost(samples: seq<Sample>, g: GridState, cell: Cell)
    ensures |CellValues(samples, g, cell)| <= |samples|
    decreases |samples|
  {
    if |samples| > 0 {
      CellValuesAtMost(samples[..|samples| - 1], g, cell);
    }
  }

  /** With fewer than two samples every partition is rejected. */
  lemma TooFewSamples(samples: seq<Sample>, hs: seq<real>, vs: seq<real>, gt: real)
    requires |samples| < 2
    ensures PostStratError(samples, hs, vs, gt).None?
  {
    CellValuesAtMost(samples, DividerGrid(hs, vs), Cell(0, 0));
  }

  /**
   * On a one-divider-per-axis partition strictly inside the square, with
   * sample values and ground truth in [lo, hi], the error is at most (hi - lo)^2.
   */
  lemma ErrorBounded(samples: seq<Sample>, h: real, v: real, gt: real, lo: real, hi: real)
    requires 0.0 < h < 100.0 && 0.0 < v < 100.0
    requires forall i :: 0 <= i < |samples| ==> lo <= samples[i].value <= hi
    requires lo <= gt <= hi
    ensures PostStratError(samples, [h], [v], gt).Some? ==> PostStratError(samples, [h], [v], gt).value <= Square(hi - lo)
  {
    var g := DividerGrid([h], [v]);
    if PostStratError(samples, [h], [v], gt).Some? {
      assert Ordered(g);
      assert !HasSparseCell(samples, g);
      PostStratificationBetween(samples, g, lo, hi);
      SquareMono(PostStratificationMean(samples, g).value - gt, hi - lo);
    }
  }

  // ---------------------------------------------------------------------------
  // The candidate surface

  /** Candidate divider `i` of a surface of resolution `res`, in percent: `(i + 1) * (1 / res) * 100`. */
  function CandidatePosition(i: int, res: int): real
    requires res > 0
  {
    (i + 1) as real * (1.0 / res as real) * 100.0
  }

  /** Entry (i, j) of the surface: the error with the horizontal divider at candidate i and the vertical one at candidate j. */
  function SurfaceEntry(samples: seq<Sample>, gt: real, res: int, i: int, j: int): Option<real>
    requires res > 0
  {
    PostStratError(samples, [CandidatePosition(i, res)], [CandidatePosition(j, res)], gt)
  }

  /** The values of `f` at 0, 1, ..., n - 1, in that order. */
  function Prefix<T>(f: int -> T, n: nat): (s: seq<T>)
    ensures |s| == n
    decreases n
  {
    if n == 0 then [] else Prefix(f, n - 1) + [f(n - 1)]
  }

  /** Entry j of a prefix is f(j). */
  lemma {:induction false} PrefixEntries<T>(f: int -> T, n: nat)
    ensures forall j :: 0 <= j < n ==> Prefix(f, n)[j] == f(j)
    decreases n
  {
    if n > 0 {
      PrefixEntries(f, n - 1);
    }
  }

  /** Row i of the surface as a function of the column. */
  function EntryFn(samples: seq<Sample>, gt: real, res: int, i: int): int -> Option<real>
    requires res > 0
  {
    j => SurfaceEntry(samples, gt, res, i, j)
  }

  /** Row i of the surface: its `res` entries, in the order the inner loop visits them. */
  function SurfaceRow(samples: seq<Sample>, gt: real, res: int, i: int): (row: seq<Option<real>>)
    requires res > 0
    ensures |row| == res
  {
    Prefix(EntryFn(samples, gt, res, i), res)
  }

  /** Row r of the surface, as a function of r. */
  function SurfaceFn(samples: seq<Sample>, gt: real, res: int): int -> seq<Option<real>>
    requires res > 0
  {
    r => SurfaceRow(samples, gt, res, r)
  }

  /** The surface rows from `start` on, as a function of the offset. */
  function RowFn(samples: seq<Sample>, gt: real, res: int, start: int): int -> seq<Option<real>>
    requires res > 0
  {
    k => SurfaceRow(samples, gt, res, start + k)
  }

  /** The values of `f` from `start` on, as a function of the offset. */
  function Shift<T>(f: int -> T, start: int): int -> T {
    i => f(start + i)
  }

  /** Two functions that agree below n have the same first n values. */
  lemma {:induction false} PrefixCongruent<T>(f: int -> T, g: int -> T, n: nat)
    requires forall i :: 0 <= i < n ==> f(i) == g(i)
    ensures Prefix(f, n) == Prefix(g, n)
    decreases n
  {
    if n > 0 {
      PrefixCongruent(f, g, n - 1);
    }
  }

  /** Shifting by nothing changes no value. */
  lemma ShiftZero<T>(f: int -> T, n: nat)
    ensures Prefix(Shift(f, 0), n) == Prefix(f, n)
  {
    forall i | 0 <= i < n
      ensures Shift(f, 0)(i) == f(i)
    {
      assert Shift(f, 0)(i) == f(0 + i);
    }
    PrefixCongruent(Shift(f, 0), f, n);
  }

  /** The band of rows from `start` on is the shifted surface. */
  lemma BandIsShift(samples: seq<Sample>, gt: real, res: int, start: int, n: nat)
    requires res > 0
    ensures Prefix(RowFn(samples, gt, res, start), n) == Prefix(Shift(SurfaceFn(samples, gt, res), start), n)
  {
    var f := RowFn(samples, gt, res, start);
    var g := Shift(SurfaceFn(samples, gt, res), start);
    forall i | 0 <= i < n
      ensures f(i) == g(i)
    {
      assert f(i) == SurfaceRow(samples, gt, res, start + i);
      assert g(i) == SurfaceFn(samples, gt, res)(start + i);
    }
    PrefixCongruent(f, g, n);
  }

  /** Row i of the first n rows of the surface is surface row i. */
  lemma SurfaceRows(samples: seq<Sample>, gt: real, res: int, n: nat, i: int)
    requires res > 0 && 0 <= i < n
    ensures Prefix(SurfaceFn(samples, gt, res), n)[i] == SurfaceRow(samples, gt, res, i)
  {
    PrefixEntries(SurfaceFn(samples, gt, res), n);
  }

  /** Entry (i, j) of the first res rows of the surface is the surface entry (i, j). */
  lemma SurfaceEntryAt(samples: seq<Sample>, gt: real, res: int, errors: seq<seq<Option<real>>>, i: int, j: int)
    requires res > 0 && 0 <= i < res && 0 <= j < res
    requires errors == Prefix(SurfaceFn(samples, gt, res), res)
    ensures j < |errors[i]| && errors[i][j] == SurfaceEntry(samples, gt, res, i, j)
  {
    SurfaceRows(samples, gt, res, res, i);
    PrefixEntries(EntryFn(samples, gt, res, i), res);
  }

  /** The scan never settles on an empty interval other than the default 0. */
  lemma EmptyIntervalNeverChosen(d: seq<real>, t: real, i: int)
    requires 0 < i && Boundary(d, i + 1) <= Boundary(d, i)
    ensures FindInterval(d, t) != i
  {
    FirstMatch(d, t);
  }

  /** The last candidate puts the divider at 100, so row 1 of the partition is the empty [1, 1). */
  lemma LastCandidateEmpty(samples: seq<Sample>, p: real, vs: seq<real>)
    requires p == 100.0
    ensures CellValues(samples, DividerGrid([p], vs), Cell(1, 0)) == []
  {
    var g := DividerGrid([p], vs);
    forall k | 0 <= k < |samples|
      ensures CellForPoint(g, samples[k].x, samples[k].y) != Cell(1, 0)
    {
      EmptyIntervalNeverChosen([p], samples[k].y, 1);
    }
    CellValuesNone(samples, g, Cell(1, 0));
  }

  /** The same on the vertical axis: column 1 is empty. */
  lemma LastCandidateEmptyColumn(samples: seq<Sample>, hs: seq<real>, p: real)
    requires p == 100.0
    ensures CellValues(samples, DividerGrid(hs, [p]), Cell(0, 1)) == []
  {
    var g := DividerGrid(hs, [p]);
    forall k | 0 <= k < |samples|
      ensures CellForPoint(g, samples[k].x, samples[k].y) != Cell(0, 1)
    {
      EmptyIntervalNeverChosen([p], samples[k].x, 1);
    }
    CellValuesNone(samples, g, Cell(0, 1));
  }

  /**
   * In the real-number model the whole last row and the whole last column
   * of the surface are null: candidate res - 1 sits at 100 and leaves an
   * empty cell behind it.
   */
  lemma LastRowAndColumnNull(samples: seq<Sample>, gt: real, res: int, k: int)
    requires res > 0
    ensures SurfaceEntry(samples, gt, res, res - 1, k).None?
    ensures SurfaceEntry(samples, gt, res, k, res - 1).None?
  {
    var p := CandidatePosition(res - 1, res);
    assert p == 100.0;
    LastCandidateEmpty(samples, p, [CandidatePosition(k, res)]);
    LastCandidateEmptyColumn(samples, [CandidatePosition(k, res)], p);
  }

  // ---------------------------------------------------------------------------
  // The running minimum and maximum

  /** `Math.min` on two finite numbers. */
  function Min(a: real, b: real): (r: real)
    ensures r <= a && r <= b
    ensures r == a || r == b
  {
    if a <= b then a else b
  }

  /** `Math.max` on two finite numbers. */
  function Max(a: real, b: real): (r: real)
    ensures a <= r && b <= r
    ensures r == a || r == b
  {
    if a <= b then b else a
  }

  /**
   * The smallest and largest non-null error seen so far. `None` stands for
   * the starting `Infinity` / `-Infinity`, which the worker reports as null.
   */
  datatype Bounds = Bounds(lo: Option<real>, hi: Option<real>)

  const NoBounds: Bounds := Bounds(None, None)

  /** One `Math.min` / `Math.max` update with a non-null error `e`. */
  function Include(b: Bounds, e: real): (r: Bounds)
    ensures r.lo.Some? && r.hi.Some?
    ensures r.lo.value <= e <= r.hi.value
    ensures b.lo.Some? ==> r.lo.value <= b.lo.value && (r.lo == b.lo || r.lo.value == e)
    ensures b.hi.Some? ==> b.hi.value <= r.hi.value && (r.hi == b.hi || r.hi.value == e)
    ensures b.lo.None? ==> r.lo == Some(e)
    ensures b.hi.None? ==> r.hi == Some(e)
  {
    Bounds(Some(if b.lo.None? then e else Min(b.lo.value, e)),
           Some(if b.hi.None? then e else Max(b.hi.value, e)))
  }

  /**
   * The bounds after visiting the entries of `s` in order, skipping nulls.
   * Both are null exactly when every entry is; otherwise both are entries of
   * `s` and every non-null entry lies between them.
   */
  function FoldBounds(s: seq<Option<real>>): (b: Bounds)
    ensures b.lo.None? <==> b.hi.None?
    ensures b.lo.None? <==> forall x | x in s :: x.None?
    ensures b.lo.Some? ==> b.lo in s && b.hi in s
    ensures b.lo.Some? ==> forall x | x in s && x.Some? :: b.lo.value <= x.value <= b.hi.value
    decreases |s|
  {
    if |s| == 0 then NoBounds
    else
      var init := s[..|s| - 1];
      var last := s[|s| - 1];
      assert s == init + [last];
      var b := FoldBounds(init);
      if last.Some? then Include(b, last.value) else b
  }

  /** Visiting one more entry: a non-null one is included, a null one is skipped. */
  lemma FoldBoundsSnoc(s: seq<Option<real>>, e: Option<real>)
    ensures FoldBounds(s + [e]) == if e.Some? then Include(FoldBounds(s), e.value) else FoldBounds(s)
  {
    assert (s + [e])[..|s|] == s;
  }

  lemma IncludeStep(visited: seq<Option<real>>, row: seq<Option<real>>, e: Option<real>)
    ensures FoldBounds(visited + (row + [e])) ==
      if e.Some? then Include(FoldBounds(visited + row), e.value) else FoldBounds(visited + row)
  {
    FoldBoundsSnoc(visited + row, e);
    assert visited + (row + [e]) == visited + row + [e];
  }

  /** The rows of a band, concatenated in row-major order. */
  function Flatten(rows: seq<seq<Option<real>>>): (r: seq<Option<real>>)
    ensures forall x :: x in r <==> exists k :: 0 <= k < |rows| && x in rows[k]
    decreases |rows|
  {
    if |rows| == 0 then []
    else
      var init := rows[..|rows| - 1];
      assert forall k :: 0 <= k < |init| ==> init[k] == rows[k];
      Flatten(init) + rows[|rows| - 1]
  }

  lemma FlattenSnoc(rows: seq<seq<Option<real>>>, row: seq<Option<real>>)
    ensures Flatten(rows + [row]) == Flatten(rows) + row
  {
    assert (rows + [row])[..|rows|] == rows;
  }

  /**
   * The inner loop of the worker for row `i`: every candidate of the row,
   * with the bounds carried on from the entries `visited` before it.
   */
  method ScoreRow(samples: seq<Sample>, gt: real, res: int, i: int, ghost visited: seq<Option<real>>, before: Bounds)
    returns (row: seq<Option<real>>, after: Bounds)
    requires res > 0
    requires before == FoldBounds(visited)
    ensures row == SurfaceRow(samples, gt, res, i)
    ensures after == FoldBounds(visited + row)
  {
    row := [];
    after := before;
    var j := 0;
    while j < res
      invariant 0 <= j <= res
      invariant row == Prefix(EntryFn(samples, gt, res, i), j)
      invariant after == FoldBounds(visited + row)
    {
      var e := WorkerError(samples, [CandidatePosition(i, res)], [CandidatePosition(j, res)], gt);
      assert e == EntryFn(samples, gt, res, i)(j);
      IncludeStep(visited, row, e);
      row := row + [e];
      if e.Some? {
        after := Include(after, e.value);
      }
      j := j + 1;
    }
  }

  /**
   * The message handler of the worker: rows `startRow` up to `endRow` of the
   * surface of resolution `res`, each computed by the worker's own copy of
   * the error function, together with the bounds of all non-null entries in
   * the order they were visited.
   */
  method WorkerRows(samples: seq<Sample>, gt: real, startRow: int, endRow: int, res: int)
    returns (errors: seq<seq<Option<real>>>, bounds: Bounds)
    requires res > 0
    ensures |errors| == if startRow < endRow then endRow - startRow else 0
    ensures errors == Prefix(RowFn(samples, gt, res, startRow), |errors|)
    ensures bounds == FoldBounds(Flatten(errors))
  {
    errors := [];
    bounds := NoBounds;
    var i := startRow;
    while i < endRow
      invariant i == startRow + |errors|
      invariant startRow < endRow ==> i <= endRow
      invariant startRow >= endRow ==> errors == []
      invariant errors == Prefix(RowFn(samples, gt, res, startRow), |errors|)
      invariant bounds == FoldBounds(Flatten(errors))
      decreases endRow - i
    {
      var row;
      row, bounds := ScoreRow(samples, gt, res, i, Flatten(errors), bounds);
      FlattenSnoc(errors, row);
      errors := errors + [row];
      i := i + 1;
    }
  }
}

=== FILE: wrappers.dfy ===
/** The JavaScript `null` that the modelled functions return, as an Option. */
module Wrappers {

  datatype Option<+T> = None | Some(value: T) {

    /** The value when present, the given default otherwise. */
    function GetOr(default: T): T {
      match this
      case Some(v) => v
      case None => default
    }
  }
}
